=== FILE: README.md ===
# Python Project Finder — a verified model of its core

Python Project Finder scans a directory tree for Python projects and reports them. A project is the first directory on each branch of the walk that holds a Python source file or a project-root marker file such as `README.md` or `setup.py`. Each project is then analysed for its Python files, total size and last modification time. The finder can:

- export the list of projects to a JSON document and import it again;
- compute a SHA-256 digest of a project folder;
- score every pair of projects for similarity;
- group the similar pairs into clusters;
- report projects whose folder digests are identical.

This project models that core in Dafny and proves what it promises.

The file system is a tree value (`FileSystem.Node`), read in listing order. The walk order of `os.walk` is a function of that tree. Three things are parameters:

- the SHA-256 function;
- the two `difflib.SequenceMatcher` ratios;
- the cancellation flag of the worker thread, given as the sequence of its successive readings.

The Qt signals become an event log kept by the finder object.

Modules, in dependency order:

- `Wrappers`: `Option` and `Result`.
- `Config`: the default configuration lists and the similarity threshold.
- `Paths`: `os.path.join`, `basename`, `str.endswith`, ASCII `str.lower` and string ordering.
- `StableSort`: Python's stable `sorted(..., reverse=True)`.
- `FileSystem`: the tree, `os.listdir` and the `os.walk` order.
- `Classifier`: `is_python_project` and `is_project_root`.
- `FolderHash`: which files enter the folder digest, in which order, and the exact byte strings fed to it.
- `Projects`: `ProjectModel`, both as a value and as a class with fields updated in place.
- `Similarity`: `_calculate_similarity`.
- `Duplicates`: `find_duplicates` and `group_duplicates` as specifications.
- `Identical`: `find_identical_by_hash` as a specification.
- `Finder`: the recursive scan, JSON export and import, and the `FinderModel` class. Its methods are proved against the specifications above.

## Model

| member | source | states |
|---|---|---|
| Classifier.FirstPythonFile | model/finder_model.py:41-67 | A file is reported iff some listed entry is a regular file whose stat succeeds (as `os.path.isfile` requires), with a Python extension whose lower-cased name has no ignored extension. The report is the joined path of the first such entry in listing order; no earlier entry qualifies. |
| Classifier.FirstMarker | model/finder_model.py:69-96 | A file is reported iff some configured marker is present in the listing as a regular file whose stat succeeds and is not of an ignored type. The report is the first such marker in configured order, joined to the directory; no earlier marker is present. |
| Finder.Scan | model/finder_model.py:98-208 | Every scan ends with `search_finished` carrying the number of projects found. A root that is missing or whose stat fails (`os.path.exists` is False) gives exactly `search_started`, the "does not exist" error and `search_finished(0)`. An existing root that is not a directory gives the same with the "not a directory" error. |
| Finder.RootMatchFindsNothing | model/finder_model.py:130-193 | When the chosen root itself matches, the scan finds no project, because every directory below inherits the parent flag. |
| Finder.ProjectIsLeaf | model/finder_model.py:154-169 | A directory that becomes a project gets exactly that one analysed project appended, with its own path. The walk announces no directory below it. |
| Finder.VisitFindsBelow | model/finder_model.py:130-193 | Every project a walk finds has a path that extends the path where the walk started: the start itself or a path below it, and strictly longer for the root walk. Its path is at most 255 characters long, and its `file_count` equals its number of Python files. |
| Finder.RootIsNeverAProject | model/finder_model.py:130-169 | The chosen root is never reported as a project, and every reported path is at most 255 characters long. |
| Finder.FlaggedVisitFindsNothing | model/finder_model.py:154-193 | Below a directory that matched, no further project is found. |
| Finder.ScanNotices | model/finder_model.py:98-208 | The scan keeps the earlier events. The projects its `project_found` events carry are exactly the found list, in the same order. Every `directory_scanning` names a directory the walk can reach from the root, skipping ignored names and paths longer than 255 characters. |
| Finder.SaveRecords | model/finder_model.py:210-222 | The exported document holds one record per project, in order, each equal to that project's corrected `to_dict`. |
| Finder.SaveRecordsAsWritten | model/finder_model.py:220-222 | The export as written raises iff some project's `to_dict` as written raises; otherwise it gives exactly the records of `SaveRecords`. |
| Finder.LoadRecords | model/finder_model.py:232-256 | Importing keeps at most one project per record, and when no record fails, every record becomes a project. |
| Finder.LoadRecordsExactly | model/finder_model.py:246-256 | Importing fails iff some record has no path. It then stops at the first such record: the number of projects kept is that record's position. Every kept project is `from_dict` of the record at the same position. |
| Finder.LoadReadsAt | model/finder_model.py:246-250 | The project kept at each position is `from_dict` of the record at that position, which has a path. |
| Finder.LoadStopsAtPathless | model/finder_model.py:246-256 | A failed import stops at a record without a path, placed right after the projects it kept. |
| Finder.SaveLoadRoundTrip | model/finder_model.py:210-256 | Exporting then importing succeeds and gives a list of the same length and order. Each project keeps its path, name, counts, size, file lists, real size and count, and folder hash. |
| Finder.StubOnlyProjectBreaksToDict | model/project_model.py:53-139 | A directory holding only `stub.pyi` is a Python project (`.pyi` is a Python extension). Its analysis collects no file, so `last_modified` stays the directory's stat number 5.0, and `to_dict` as written raises AttributeError, so an export holding it raises too. |
| Finder.FinderModel.FindProjectsRecursive | model/finder_model.py:130-193 | The projects, events and flag readings after the call equal the recursive specification `Visit` applied to the state before it. |
| Finder.FinderModel.AddProject | model/finder_model.py:154-169 | Builds and analyses the project, reports its files and keeps it unless the analysis raised, as `KeepProject` specifies. |
| Finder.FinderModel.VisitEntries | model/finder_model.py:171-193 | The listing loop reads the flag before each entry and descends into unignored subdirectories, as `VisitChildren` specifies. |
| Finder.FinderModel.FindPythonProjects | model/finder_model.py:98-208 | The new state is `Scan` of the old one, so a missing or unstattable root reports "does not exist" and a non-directory "not a directory". The result is the project list, and the last event is `search_finished` with its length. |
| Finder.FinderModel.SaveDocument | model/finder_model.py:210-219 | The document has a `python_projects` list with one record per project, each the corrected `to_dict` of the project at that position. Whenever the export as written succeeds, it writes exactly this document. |
| Finder.FinderModel.LoadDocument | model/finder_model.py:232-256 | The project list is exactly what `LoadRecords` yields from the document's list (empty when the key is absent). The call succeeds iff no record fails. The events added are one `project_found` per kept project, in order, then `search_finished` with the count on success or the error on failure. |
| Finder.FinderModel.ReadRecords | model/finder_model.py:246-256 | The record loop yields exactly `LoadRecords` of the records: the projects read, in order, and whether a record failed. Its notifications are one `project_found` per project read, in order, followed by the error iff a record failed. |
| Finder.AnnouncementsFound | model/finder_model.py:248-250 | The `project_found` events emitted for a list of projects carry exactly that list, in order, and announce no directory. |
| Finder.FinderModel.FindDuplicates | model/finder_model.py:320-344 | Returns exactly the candidate pairs and the similarity dictionary that the specifications `Candidates` and `Similarities` define. |
| Finder.FinderModel.ScoreRow | model/finder_model.py:331-342 | The inner loop yields one row of candidate pairs and the dictionary writes of that row. |
| Finder.FinderModel.GroupDuplicates | model/finder_model.py:346-402 | Returns exactly `GroupsOf` of the found projects, whose properties `Duplicates.GroupsOfProperties` proves. |
| Finder.FinderModel.AbsorbPair | model/finder_model.py:361-397 | One iteration of the pair loop updates the groups and `processed_projects` as `Absorb` specifies. |
| Finder.FinderModel.FindGroup | model/finder_model.py:366-372 | Finds the first group holding either project, or none. |
| Finder.FinderModel.FindIdenticalByHash | model/finder_model.py:404-429 | Returns exactly `IdenticalGroups` of the found projects. |
| Finder.FinderModel.BucketByHash | model/finder_model.py:417-425 | The dictionary's keys, in insertion order, are `HashOrder` of the hashed projects: each hash once, in first-seen order, as `Identical.HashOrderKeys` proves. Each key's bucket holds exactly the projects with that hash, in list order. |
| Duplicates.CandidatesExactly | model/finder_model.py:320-344 | A pair is listed iff it is two projects at positions i < j with a score at or above the threshold, and it carries that score. |
| Duplicates.SimilaritiesDomain | model/finder_model.py:331-338 | The similarity dictionary has a key for both orders of every pair i < j and no other key. |
| Duplicates.SimilaritiesValues | model/finder_model.py:331-338 | When the paths are distinct, both orders of every pair map to that pair's score. |
| Duplicates.FirstGroup | model/finder_model.py:366-372 | The index found holds either project, and no group before it holds either. None means no group holds either. |
| Duplicates.AbsorbAllConsistent | model/finder_model.py:361-397 | Each step of the pair loop preserves three facts: `processed_projects` is exactly the set of paths held by the groups, no path is in two groups, and no group holds a path twice. |
| Duplicates.AbsorbAllCovered | model/finder_model.py:361-397 | After the loop, both projects of every pair are processed, and nothing processed before is lost. |
| Duplicates.AbsorbAllTwo | model/finder_model.py:361-397 | When every pair has two different paths, no group is left with a single project. |
| Duplicates.GroupsOfProperties | model/finder_model.py:346-402 | The groups come largest first. No project is in two groups or twice in one. Every member belongs to a candidate pair, hence is a found project, and both projects of every candidate pair are in some group. With distinct paths, every group has at least two members. |
| Identical.Hashed | model/finder_model.py:412 | The hashed projects are exactly those whose folder hash is computed and not empty, in list order. |
| Identical.HashOrderKeys | model/finder_model.py:417-425 | The dictionary keys are unique. A string is a key iff some hashed project carries it. |
| Identical.IdenticalGroupsExactly | model/finder_model.py:404-429 | A list is reported iff it is the whole bucket of a non-empty hash shared by more than one project. |
| Identical.IdenticalGroupsDistinct | model/finder_model.py:404-429 | No two reported groups share a project's hash, so each bucket is reported once. |
| Identical.IdenticalGroupMembers | model/finder_model.py:404-429 | Every reported group has more than one member. Each member is a found project with a computed, non-empty hash equal to the group's hash. |
| Similarity.SizeSimilarity | model/finder_model.py:293-298 | The size ratio lies in [0, 1]. It is 0 when either size is unknown or not positive. Otherwise it times the larger size equals the smaller size, so it is 1 for equal sizes. |
| Similarity.ScoreInRange | model/finder_model.py:258-318 | The similarity lies in [0, 1] whenever the two ratios do. |
| Similarity.SameHashScoresOne | model/finder_model.py:273-276 | Two projects with Python files and equal non-empty folder hashes score exactly 1. |
| Similarity.NoFilesScoresZero | model/finder_model.py:269-271 | A project without Python files scores 0 against anything. |
| Similarity.ScoreSymmetric | model/finder_model.py:258-318 | The score is symmetric whenever the two ratios are. |
| Similarity.ScoreSeesOnlyBaseNames | model/finder_model.py:278-283 | The score sees only the multiset of base names of the Python files, not their directories or list order. |
| Similarity.SortNamesCorrect | model/finder_model.py:279-283 | `sorted` of the base names is ascending in Python string order and is a permutation of its input. |
| Similarity.SortNamesCanonical | model/finder_model.py:279-283 | Two lists of the same names sort to the same list. |
| StableSort.SortDescOrdered | model/finder_model.py:361 | `sorted(..., reverse=True)` gives a list in descending key order. |
| StableSort.SortDescPermutation | model/finder_model.py:361 | The sorted list is a permutation of its input. |
| StableSort.SortDescStable | model/finder_model.py:399-400 | Elements with equal keys keep their input order. |
| StableSort.SortDescPairwise | model/finder_model.py:399-400 | Sorting the groups keeps any relation that held between every two distinct positions. |
| Projects.Created | model/project_model.py:17-51 | A new project takes its name from the path's basename and starts with no files, no counts and no cached values. |
| Projects.CreatedFromStat | model/project_model.py:40-45 | When the path exists, `size` and `last_modified` are the size and mtime `os.stat` reports. Otherwise they are 0 and the number 0.0. No feature is set. |
| Projects.Analyze | model/project_model.py:53-125 | A missing path, one whose stat fails, or a non-directory leaves the project unchanged and reports nothing. The analysis raises iff the directory cannot be listed, and then changes nothing. It never changes the path, name, features, cached real size, count, hash or last-file time. |
| Projects.IdentityIsPath | model/project_model.py:399-407 | Project equality is an equivalence, and two projects are equal iff their hash keys, the paths, are equal. Both are the path by definition, so this documents that sets and maps of projects are keyed by paths. |
| Projects.AnalyzeCollects | model/project_model.py:53-125 | After analysing a readable directory, `python_files` holds exactly the `.py` files of the whole subtree and `file_count` is their number. `project_files` holds exactly the marker files among the direct children that `os.path.isfile` accepts (listed, regular, stat succeeds). The reported files are the marker files, then the Python files. |
| Projects.LatestIsMaximum | model/project_model.py:85-117 | The running latest time is at least 0 and at least the mtime of every file whose stat succeeded. It is either 0 or the mtime of one of them. |
| Projects.TotalSizeAppend | model/project_model.py:63-117 | `size` adds the marker files' total to the Python files' total. |
| Projects.ScanMarkerFiles | model/project_model.py:69-92 | The first loop returns the paths of the marker files of the listing, with their total size and latest modification time. |
| Projects.ScanPythonSources | model/project_model.py:95-117 | The walk loop returns the paths of the `.py` files and continues the running totals of the first loop. |
| Projects.FormattedSize | model/project_model.py:183-195 | Picks B below 1024, KB below 1024², MB above that. The printed amount times the unit equals the size, and KB amounts lie in [1, 1024). |
| Projects.ToDictAsWritten | model/project_model.py:127-152 | `to_dict` as written fails iff `last_modified` is still a non-zero number. |
| Projects.ToDict | model/project_model.py:127-152 | The dictionary carries the path, the name and the optional values unchanged. `last_modified` is null iff the stamp is falsy. |
| Projects.FromDict | model/project_model.py:154-181 | Reading fails iff the path key is missing. Otherwise it keeps the path, defaults the counts to 0 and does not read a cached last-file time. |
| Projects.FromDictDefaults | model/project_model.py:165-179 | Each other key is read when present, else defaulted: the name to the path's basename, the size to 0, the file lists to empty. The real count and folder hash are copied. A truthy `last_modified` text becomes that datetime; otherwise the stamp is the mtime the constructor read, or 0.0 when the path does not exist. No feature is set. |
| Projects.DictRoundTrip | model/project_model.py:127-181 | Reading back a written dictionary succeeds and restores every serialised attribute. A datetime stamp comes back unchanged. |
| Projects.CollectFiles | model/project_model.py:63-117 | On a listable directory, the two loops return the marker files, the `.py` files, the total size and the latest time. These are exactly what `Analyze` writes into the project, with the files reported. |
| Projects.ProjectModel.AnalyzeProject | model/project_model.py:53-125 | The fields after `_analyze_project` are exactly `Analyze` of the old ones, with the files reported and whether it raised. |
| Projects.ProjectModel.CalculateFolderHash | model/project_model.py:217-296 | Returns None for a missing path or a non-directory, leaving the cache alone. Otherwise the bytes fed to the digest are exactly `FolderFeed` of the kept files sorted by path, every kept file is reported, and the result is the hex digest, also cached. |
| Projects.ProjectModel.GetLastFileModified | model/project_model.py:330-360 | Returns a cached value unchanged. Otherwise it returns the latest mtime over the subtree, pruning ignored directories at every level, and caches it. |
| Projects.ProjectModel.FormattedLastFileModified | model/project_model.py:362-372 | Shows "-" exactly when the last file time is 0, and otherwise that date. A cached time is kept; with an empty cache, the time cached and shown is the latest mtime over the pruned walk of the subtree. |
| Projects.ProjectModel.AddFeature | model/project_model.py:386-393 | The feature set gains exactly the named feature. |
| Projects.ProjectModel.CheckFeature | model/project_model.py:374-384 | True iff the feature is in the set. |
| FolderHash.Kept | model/project_model.py:236-242 | A walked file enters the digest iff it is not excluded. |
| FolderHash.SortByPathCorrect | model/project_model.py:245 | The files are sorted by path and are a permutation of those collected. |
| FolderHash.ReadInBlocks | model/project_model.py:272-275 | Block reading yields the whole content. Every block is non-empty and at most 4096 bytes, and all but the last are exactly 4096. |
| FolderHash.FeedFile | model/project_model.py:251-292 | Per file: nothing when stat fails. Otherwise the metadata line, then the SHA-256 of the whole content below 10 MiB or of the first and last MiB, unless opening fails. |
| FolderHash.HexInjective | model/project_model.py:295 | Distinct digests give distinct hexadecimal strings. |
| FolderHash.AsWrittenKeepsImages | model/project_model.py:239 | With the literal `fnmatch` test, `photo.png` still enters the digest when `.png` is an ignored extension. |
| FolderHash.CorrectedDropsIgnoredExtensions | model/project_model.py:236-242 | With the suffix test, a file enters the digest iff its lower-cased name ends in no ignored extension. |
| Paths.BasenameIsLastComponent | model/project_model.py:27 | The basename holds no separator, ends the path, and is preceded by a separator when shorter than the path. |
| Paths.BasenameOfJoin | model/finder_model.py:281-282 | The basename of a joined path is the name that was joined. |

## Left out

- Symbolic links, special files and races with a changing file system: the tree is a fixed value.
- On Windows, a root path ending in `:` or `:\` is first made absolute (model/finder_model.py:120-122). Windows paths are not modelled; joining is POSIX.
- Unexpected exceptions inside the recursive scan (including `RecursionError`), the `print` logging, and the generic `except Exception` around the walk are not modelled. Only the failures the code handles on purpose are: a missing root, a non-directory, a directory that cannot be listed, and a stat or open that fails.
- The Qt signal machinery: signals are an event log in emission order. The worker thread is the flag oracle `running`, indexed by how many times the flag was read.
- The JSON file itself (opening, encoding, parse errors, write failures): export and import are modelled on the parsed document. A record whose `last_modified` text fails to parse is not modelled; records fail only when the path key is missing.
- `_calculate_similarity` takes the two `SequenceMatcher.ratio` values as oracles. `Similarity.ScoreSymmetric` holds only when the ratios are symmetric, which `SequenceMatcher` does not guarantee.
- Float formatting, `datetime.isoformat`, `strftime` and `fromtimestamp`: a date is kept as its timestamp, and `Projects.FormattedSize` returns the unit and the amount instead of the text.
- `str.lower` acts on ASCII letters only, and `os.path.relpath` is the path relative to the walk's top, built while walking.
- SHA-256 is a parameter `sha`. `FolderHash.Hex` turns its bytes into lower-case hexadecimal.
- `fnmatch` with wildcard patterns: the configured ignored extensions contain no wildcard, so the as-written test of model/project_model.py:239 is whole-name equality (`FolderHash.ExcludedAsWritten`).
- Python object identity and aliasing: projects are values. Dictionaries keyed by projects are keyed by their paths, since `__eq__` and `__hash__` use only the path. Comparing a project with a non-project (always False) is not modelled.
- `get_formatted_last_modified`, `has_project_files`, `get_folder_size`, `get_folder_last_modified` and `__str__` are outside the modelled core.
- Finder.FinderModel.LoadDocument: when an import fails halfway, the records read before the failure stay in the list. This follows the code (model/finder_model.py:243-256).
- Projects.ProjectModel.CalculateFolderHash: the digest is computed over the files kept by the corrected suffix test `FolderHash.Excluded`, not by the whole-name `fnmatch` test the code runs at model/project_model.py:239. Under the as-written test, a file such as `photo.png` also enters the digest (see Findings).
- Finder.SaveRecords: builds the export with the corrected `to_dict`. As written, the list of `to_dict` results is built before the `try` of `save_to_json` (model/finder_model.py:220-222), so a project whose `to_dict` raises makes `save_to_json` raise instead of returning False. `Finder.SaveRecordsAsWritten` models that outcome.
- Finder.FinderModel.SaveDocument: returns the corrected document also where `save_to_json` as written raises; it agrees with `Finder.SaveRecordsAsWritten` wherever that succeeds.
- Similarity.Score: scores are exact reals, not IEEE doubles. Rounding in `0.6 * f + 0.2 * n + 0.2 * s` and in `smaller / larger` is not modelled, so neither is a score that rounding moves across the 0.7 threshold, nor a tie among equal scores that rounding creates or breaks in `sorted(..., reverse=True)`.
- Similarity.Score: the size term is weighted in whenever both `real_size` values are known, even when one of them is 0. This follows the code (model/finder_model.py:306-316).

## Findings

| source | as written | input that shows it | evidently intended | confidence | as-written member | corrected member |
|---|---|---|---|---|---|---|
| model/project_model.py:139 | `self.last_modified.isoformat() if self.last_modified else None` calls `isoformat` on the plain number the constructor stored, whenever the analysis matched no file with a positive mtime; `save_to_json` then raises | a directory holding only `stub.pyi` with directory mtime 5.0: it is a Python project (`.pyi`), but the analysis collects only `.py` files, so `last_modified` stays 5.0 and `to_dict` raises AttributeError | the timestamp is written out whatever its form | not executed | Finder.StubOnlyProjectBreaksToDict | Projects.DictRoundTrip |
| model/project_model.py:239 | `fnmatch.fnmatch(file.lower(), pattern)` with the patterns `.png`, `.jpg`, ... matches only a file named exactly `.png`, so images still enter the folder digest | `photo.png` with `.png` among the ignored extensions is kept | skip every file whose lower-cased name ends in an ignored extension, as the comment above the test and the same list's use in the analysis say | not executed | FolderHash.AsWrittenKeepsImages | FolderHash.CorrectedDropsIgnoredExtensions |

=== FILE: classifier.dfy ===
/**
 * The two directory classifiers of the scanner. Each reads one directory
 * listing, stops at the first match and reports the matching file (the
 * `file_scanning` notification). A directory that cannot be listed
 * classifies as no match.
 */
module Classifier {
  import opened Paths
  import opened Wrappers
  import opened FileSystem

  /**
   * A listed regular file that is not of an ignored type and has a Python
   * extension. `os.path.isfile` stats the path, so a file whose stat fails
   * is not a regular file to it.
   */
  predicate IsPythonFile(e: Entry, pythonExtensions: seq<string>, ignoredExtensions: seq<string>)
  {
    e.node.File? && e.node.statOk && !EndsWithAny(Lower(e.name), ignoredExtensions) && EndsWithAny(e.name, pythonExtensions)
  }

  /** The first Python file of a listing, scanning in listing order. */
  function FirstPythonFile(dir: string, es: seq<Entry>, pythonExtensions: seq<string>, ignoredExtensions: seq<string>)
    : (r: Option<string>)
    ensures r.Some? <==> exists i :: 0 <= i < |es| && IsPythonFile(es[i], pythonExtensions, ignoredExtensions)
    ensures r.Some? ==> exists i :: 0 <= i < |es| && IsPythonFile(es[i], pythonExtensions, ignoredExtensions)
                                    && r.value == Join(dir, es[i].name)
                                    && forall j :: 0 <= j < i ==> !IsPythonFile(es[j], pythonExtensions, ignoredExtensions)
  {
    if es == [] then None
    else if IsPythonFile(es[0], pythonExtensions, ignoredExtensions) then Some(Join(dir, es[0].name))
    else
      var r := FirstPythonFile(dir, es[1..], pythonExtensions, ignoredExtensions);
      if r.Some? then
        ghost var i :| 0 <= i < |es[1..]| && IsPythonFile(es[1..][i], pythonExtensions, ignoredExtensions)
                       && r.value == Join(dir, es[1..][i].name)
                       && forall j :: 0 <= j < i ==> !IsPythonFile(es[1..][j], pythonExtensions, ignoredExtensions);
        assert IsPythonFile(es[i + 1], pythonExtensions, ignoredExtensions);
        assert forall j :: 0 <= j < i + 1 ==> !IsPythonFile(es[j], pythonExtensions, ignoredExtensions) by {
          forall j | 0 <= j < i + 1 ensures !IsPythonFile(es[j], pythonExtensions, ignoredExtensions) {
            if j > 0 { assert es[j] == es[1..][j - 1]; }
          }
        }
        r
      else
        assert forall i :: 1 <= i < |es| ==> es[i] == es[1..][i - 1];
        r
  }

  /**
   * `is_python_project`: the path of the file it reports, or None when it
   * answers False (no match, the path cannot be listed, or is not a directory).
   */
  function IsPythonProject(dir: string, n: Node, pythonExtensions: seq<string>, ignoredExtensions: seq<string>)
    : Option<string>
  {
    if n.Dir? && n.listable then FirstPythonFile(dir, n.entries, pythonExtensions, ignoredExtensions) else None
  }

  /**
   * Marker `m` is present in the listing as a regular file that `os.path.isfile`
   * can stat, and is not of an ignored type.
   */
  predicate MarkerPresent(es: seq<Entry>, m: string, ignoredExtensions: seq<string>)
  {
    var found := Lookup(es, m);
    found.Some? && found.value.File? && found.value.statOk && !EndsWithAny(Lower(m), ignoredExtensions)
  }

  /** The first marker, in configured order, that is present in the listing. */
  function FirstMarker(dir: string, es: seq<Entry>, markers: seq<string>, ignoredExtensions: seq<string>)
    : (r: Option<string>)
    ensures r.Some? <==> exists k :: 0 <= k < |markers| && MarkerPresent(es, markers[k], ignoredExtensions)
    ensures r.Some? ==> exists k :: 0 <= k < |markers| && MarkerPresent(es, markers[k], ignoredExtensions)
                                    && r.value == Join(dir, markers[k])
                                    && forall j :: 0 <= j < k ==> !MarkerPresent(es, markers[j], ignoredExtensions)
  {
    if markers == [] then None
    else if MarkerPresent(es, markers[0], ignoredExtensions) then Some(Join(dir, markers[0]))
    else
      var r := FirstMarker(dir, es, markers[1..], ignoredExtensions);
      if r.Some? then
        ghost var k :| 0 <= k < |markers[1..]| && MarkerPresent(es, markers[1..][k], ignoredExtensions)
                       && r.value == Join(dir, markers[1..][k])
                       && forall j :: 0 <= j < k ==> !MarkerPresent(es, markers[1..][j], ignoredExtensions);
        assert MarkerPresent(es, markers[k + 1], ignoredExtensions);
        assert forall j :: 0 <= j < k + 1 ==> !MarkerPresent(es, markers[j], ignoredExtensions) by {
          forall j | 0 <= j < k + 1 ensures !MarkerPresent(es, markers[j], ignoredExtensions) {
            if j > 0 { assert markers[j] == markers[1..][j - 1]; }
          }
        }
        r
      else
        assert forall k :: 1 <= k < |markers| ==> markers[k] == markers[1..][k - 1];
        r
  }

  /**
   * `is_project_root`: the path of the marker file it reports, or None when it
   * answers False (no marker, the path cannot be listed, or is not a directory).
   */
  function IsProjectRoot(dir: string, n: Node, markers: seq<string>, ignoredExtensions: seq<string>)
    : Option<string>
  {
    if n.Dir? && n.listable then FirstMarker(dir, n.entries, markers, ignoredExtensions) else None
  }
}

=== FILE: config.dfy ===
/**
 * The application's configuration constants, gathered into one record that is
 * passed explicitly to the scanner, the project analysis and the grouping.
 */
module Config {

  datatype Config = Config(
    /** Directory names the scan never descends into (exact, case-sensitive). */
    ignoredDirectories: seq<string>,
    /** Suffixes that make a directory a Python project. */
    pythonExtensions: seq<string>,
    /** Suffixes (and, for the folder hash, whole names) of files that are skipped. */
    ignoredFileExtensions: seq<string>,
    /** File names whose presence marks the root of a project, in priority order. */
    projectRootFiles: seq<string>,
    /** Minimum similarity for a pair to count as a duplicate. */
    similarityThreshold: real,
    /** Directory names pruned when looking for the last modified file of a project. */
    ignoredDirs: seq<string>)

  const DefaultIgnoredDirectories: seq<string> := [
    "__pycache__", "venv", ".venv", "env", ".git", ".idea", ".vscode", "node_modules",
    "build", "dist", ".pytest_cache", ".mypy_cache", ".tox", ".eggs", "cache", "thumbnails"]

  const DefaultPythonExtensions: seq<string> := [".py", ".pyw", ".pyx", ".pyi", ".pyc"]

  const DefaultIgnoredFileExtensions: seq<string> := [
    ".jpg", ".jpeg", ".png", ".gif", ".bmp", ".tiff", ".svg", ".webp", ".ico", ".heic", ".heif",
    ".psd", ".ai", ".eps", ".raw", ".cr2", ".nef", ".dng",
    ".mp4", ".avi", ".mov", ".wmv", ".flv", ".mkv"]

  const DefaultProjectRootFiles: seq<string> := [
    "README.md", "README.txt", "readme.md", "readme.txt", ".env", "requirements.txt",
    "setup.py", "pyproject.toml", "Pipfile", "poetry.lock", ".gitignore", "LICENSE",
    "setup.cfg", "tox.ini", "manage.py", "README.rst", "MANIFEST.in", "Dockerfile",
    "docker-compose.yml"]

  const DefaultSimilarityThreshold: real := 0.7

  const DefaultIgnoredDirs: seq<string> := [
    "venv", ".venv", "__pycache__", ".git", ".idea", ".vs", ".vscode", "node_modules",
    "build", "dist", ".pytest_cache", ".mypy_cache"]

  const Default: Config := Config(
    DefaultIgnoredDirectories, DefaultPythonExtensions, DefaultIgnoredFileExtensions,
    DefaultProjectRootFiles, DefaultSimilarityThreshold, DefaultIgnoredDirs)
}

=== FILE: duplicates.dfy ===
/**
 * Duplicate detection over the found projects: the candidate pairs and
 * the similarity dictionary (`find_duplicates`), the grouping of the pairs
 * (`group_duplicates`) and the exact copies by folder hash
 * (`find_identical_by_hash`). Projects compare and hash by path, so every
 * membership test and dictionary key below is on paths.
 */
module Duplicates {
  import opened Wrappers
  import opened Projects
  import opened Similarity
  import opened StableSort
  import opened Seqs

  /** The two `SequenceMatcher` ratios the score is computed from. */
  datatype Ratios = Ratios(files: (seq<string>, seq<string>) -> real, names: (string, string) -> real)

  function Sim(p1: Project, p2: Project, rt: Ratios): real
  {
    Score(p1, p2, rt.files, rt.names)
  }

  /** One entry of the `duplicates` list: `(project1, project2, similarity)`. */
  datatype Pair = Pair(first: Project, second: Project, score: real)

  /** A similarity dictionary keyed by a pair of projects, that is, by their two paths. */
  type Table = map<(string, string), real>

  function PathList(ps: seq<Project>): (r: seq<string>)
    ensures |r| == |ps| && forall i :: 0 <= i < |ps| ==> r[i] == ps[i].path
  {
    seq(|ps|, i requires 0 <= i < |ps| => ps[i].path)
  }

  predicate DistinctPaths(ps: seq<Project>)
  {
    forall i, j :: 0 <= i < j < |ps| ==> ps[i].path != ps[j].path
  }

  // ---------------------------------------------------------------- find_duplicates

  /** The pairs `p` forms with each later project that reach the threshold, in order. */
  function Row(p: Project, rest: seq<Project>, rt: Ratios, threshold: real): seq<Pair>
  {
    if rest == [] then []
    else
      var s := Sim(p, rest[0], rt);
      (if s >= threshold then [Pair(p, rest[0], s)] else []) + Row(p, rest[1..], rt, threshold)
  }

  /** One step of the row loop: the pair for `rest[j]` is kept iff it reaches the threshold, and both orders enter the table. */
  lemma RowAdvance(p: Project, rest: seq<Project>, j: nat, rt: Ratios, threshold: real, s: real,
                   row: seq<Pair>, m: Table, m0: Table)
    requires j < |rest| && s == Sim(p, rest[j], rt)
    requires row + Row(p, rest[j..], rt, threshold) == Row(p, rest, rt, threshold)
    requires RowTable(m, p, rest[j..], rt) == RowTable(m0, p, rest, rt)
    ensures (if s >= threshold then row + [Pair(p, rest[j], s)] else row) + Row(p, rest[j + 1..], rt, threshold)
            == Row(p, rest, rt, threshold)
    ensures RowTable(m[(p.path, rest[j].path) := s][(rest[j].path, p.path) := s], p, rest[j + 1..], rt)
            == RowTable(m0, p, rest, rt)
  {
    var t, tail := rest[j..], rest[j + 1..];
    assert t[0] == rest[j] && t[1..] == tail;
    var head := if s >= threshold then [Pair(p, rest[j], s)] else [];
    assert Row(p, t, rt, threshold) == head + Row(p, tail, rt, threshold);
    assert (if s >= threshold then row + [Pair(p, rest[j], s)] else row) == row + head;
    AppendAssoc(row, head, Row(p, tail, rt, threshold));
  }

  /** The `duplicates` list: every pair i < j reaching the threshold, by i and then by j. */
  function Candidates(ps: seq<Project>, rt: Ratios, threshold: real): seq<Pair>
  {
    if ps == [] then [] else Row(ps[0], ps[1..], rt, threshold) + Candidates(ps[1..], rt, threshold)
  }

  /** The dictionary writes for one project against each later one, both directions. */
  function RowTable(m: Table, p: Project, rest: seq<Project>, rt: Ratios): Table
    decreases rest
  {
    if rest == [] then m
    else
      var s := Sim(p, rest[0], rt);
      RowTable(m[(p.path, rest[0].path) := s][(rest[0].path, p.path) := s], p, rest[1..], rt)
  }

  /** The `similarities` dictionary after all rows, starting from `m`. */
  function Similarities(m: Table, ps: seq<Project>, rt: Ratios): Table
    decreases ps
  {
    if ps == [] then m else Similarities(RowTable(m, ps[0], ps[1..], rt), ps[1..], rt)
  }

  predicate IsCandidate(ps: seq<Project>, rt: Ratios, threshold: real, pr: Pair)
  {
    exists i, j :: 0 <= i < j < |ps| && pr == Pair(ps[i], ps[j], Sim(ps[i], ps[j], rt)) && pr.score >= threshold
  }

  lemma {:induction false} RowMembers(p: Project, rest: seq<Project>, rt: Ratios, threshold: real)
    ensures forall pr :: pr in Row(p, rest, rt, threshold) <==>
      exists j :: 0 <= j < |rest| && pr == Pair(p, rest[j], Sim(p, rest[j], rt)) && pr.score >= threshold
  {
    if rest != [] {
      RowMembers(p, rest[1..], rt, threshold);
      forall pr | pr in Row(p, rest, rt, threshold)
        ensures exists j :: 0 <= j < |rest| && pr == Pair(p, rest[j], Sim(p, rest[j], rt)) && pr.score >= threshold
      {
        if pr !in Row(p, rest[1..], rt, threshold) {
          assert pr == Pair(p, rest[0], Sim(p, rest[0], rt));
        } else {
          var j :| 0 <= j < |rest[1..]| && pr == Pair(p, rest[1..][j], Sim(p, rest[1..][j], rt)) && pr.score >= threshold;
          assert rest[1..][j] == rest[j + 1];
        }
      }
      forall j | 0 <= j < |rest| && Sim(p, rest[j], rt) >= threshold
        ensures Pair(p, rest[j], Sim(p, rest[j], rt)) in Row(p, rest, rt, threshold)
      {
        if j > 0 {
          assert rest[1..][j - 1] == rest[j];
        }
      }
    }
  }

  /** A pair is listed exactly when it is two projects i < j whose score reaches the threshold. */
  lemma {:induction false} CandidatesExactly(ps: seq<Project>, rt: Ratios, threshold: real)
    ensures forall pr :: pr in Candidates(ps, rt, threshold) <==> IsCandidate(ps, rt, threshold, pr)
  {
    if ps != [] {
      CandidatesExactly(ps[1..], rt, threshold);
      RowMembers(ps[0], ps[1..], rt, threshold);
      forall pr | pr in Candidates(ps, rt, threshold)
        ensures IsCandidate(ps, rt, threshold, pr)
      {
        if pr in Row(ps[0], ps[1..], rt, threshold) {
          var j :| 0 <= j < |ps[1..]| && pr == Pair(ps[0], ps[1..][j], Sim(ps[0], ps[1..][j], rt)) && pr.score >= threshold;
          assert ps[1..][j] == ps[j + 1];
        } else {
          assert pr in Candidates(ps[1..], rt, threshold);
          var i, j :| 0 <= i < j < |ps[1..]| && pr == Pair(ps[1..][i], ps[1..][j], Sim(ps[1..][i], ps[1..][j], rt)) && pr.score >= threshold;
          assert ps[1..][i] == ps[i + 1] && ps[1..][j] == ps[j + 1];
        }
      }
      forall pr | IsCandidate(ps, rt, threshold, pr)
        ensures pr in Candidates(ps, rt, threshold)
      {
        var i, j :| 0 <= i < j < |ps| && pr == Pair(ps[i], ps[j], Sim(ps[i], ps[j], rt)) && pr.score >= threshold;
        if i == 0 {
          assert ps[1..][j - 1] == ps[j];
        } else {
          assert ps[1..][i - 1] == ps[i] && ps[1..][j - 1] == ps[j];
        }
      }
    }
  }

  /** `k` is written by the row of `p` against `rest`. */
  predicate RowKey(k: (string, string), p: Project, rest: seq<Project>)
  {
    exists j :: 0 <= j < |rest| && (k == (p.path, rest[j].path) || k == (rest[j].path, p.path))
  }

  /** `k` names both orders of some pair of positions i < j. */
  predicate TableKey(k: (string, string), ps: seq<Project>)
  {
    exists i, j :: 0 <= i < j < |ps| && (k == (ps[i].path, ps[j].path) || k == (ps[j].path, ps[i].path))
  }

  lemma {:induction false} RowTableDomain(m: Table, p: Project, rest: seq<Project>, rt: Ratios)
    ensures forall k :: k in RowTable(m, p, rest, rt) <==> k in m || RowKey(k, p, rest)
    decreases rest
  {
    if rest != [] {
      var s := Sim(p, rest[0], rt);
      RowTableDomain(m[(p.path, rest[0].path) := s][(rest[0].path, p.path) := s], p, rest[1..], rt);
      forall k ensures RowKey(k, p, rest) <==> (k == (p.path, rest[0].path) || k == (rest[0].path, p.path) || RowKey(k, p, rest[1..]))
      {
        if RowKey(k, p, rest) {
          var j :| 0 <= j < |rest| && (k == (p.path, rest[j].path) || k == (rest[j].path, p.path));
          if j > 0 {
            assert rest[1..][j - 1] == rest[j];
          }
        }
        if RowKey(k, p, rest[1..]) {
          var j :| 0 <= j < |rest[1..]| && (k == (p.path, rest[1..][j].path) || k == (rest[1..][j].path, p.path));
          assert rest[1..][j] == rest[j + 1];
        }
      }
    }
  }

  /** The dictionary holds an entry for both orders of every pair of positions i < j, and nothing else. */
  lemma {:induction false} SimilaritiesDomain(m: Table, ps: seq<Project>, rt: Ratios)
    ensures forall k :: k in Similarities(m, ps, rt) <==> k in m || TableKey(k, ps)
    decreases ps
  {
    if ps != [] {
      var m1 := RowTable(m, ps[0], ps[1..], rt);
      RowTableDomain(m, ps[0], ps[1..], rt);
      SimilaritiesDomain(m1, ps[1..], rt);
      forall k ensures TableKey(k, ps) <==> RowKey(k, ps[0], ps[1..]) || TableKey(k, ps[1..])
      {
        TableKeyCons(k, ps);
      }
    }
  }

  lemma TableKeyCons(k: (string, string), ps: seq<Project>)
    requires ps != []
    ensures TableKey(k, ps) <==> RowKey(k, ps[0], ps[1..]) || TableKey(k, ps[1..])
  {
    if TableKey(k, ps) {
      var i, j :| 0 <= i < j < |ps| && (k == (ps[i].path, ps[j].path) || k == (ps[j].path, ps[i].path));
      if i == 0 {
        assert ps[1..][j - 1] == ps[j];
      } else {
        assert ps[1..][i - 1] == ps[i] && ps[1..][j - 1] == ps[j];
      }
    }
    if RowKey(k, ps[0], ps[1..]) {
      RowKeyInTable(k, ps);
    }
    if TableKey(k, ps[1..]) {
      TailKeyInTable(k, ps);
    }
  }

  lemma RowKeyInTable(k: (string, string), ps: seq<Project>)
    requires ps != [] && RowKey(k, ps[0], ps[1..])
    ensures TableKey(k, ps)
  {
    var tail := ps[1..];
    var j :| 0 <= j < |tail| && (k == (ps[0].path, tail[j].path) || k == (tail[j].path, ps[0].path));
    assert tail[j] == ps[j + 1];
  }

  lemma TailKeyInTable(k: (string, string), ps: seq<Project>)
    requires ps != [] && TableKey(k, ps[1..])
    ensures TableKey(k, ps)
  {
    var tail := ps[1..];
    var i, j :| 0 <= i < j < |tail| && (k == (tail[i].path, tail[j].path) || k == (tail[j].path, tail[i].path));
    assert tail[i] == ps[i + 1] && tail[j] == ps[j + 1];
  }

  lemma PathListCons(ps: seq<Project>)
    requires ps != []
    ensures PathList(ps) == [ps[0].path] + PathList(ps[1..])
  {
  }

  /** Keys neither of whose components can be among the writes of a row or of a whole table. */
  predicate Untouched(k: (string, string), paths: seq<string>)
  {
    k.0 !in paths || k.1 !in paths
  }

  /** One row writes the scores of `p` against each later project and leaves every other key alone. */
  lemma {:induction false} RowTableValues(m: Table, p: Project, rest: seq<Project>, rt: Ratios)
    requires DistinctPaths(rest) && p.path !in PathList(rest)
    ensures var r := RowTable(m, p, rest, rt);
      && (forall j :: 0 <= j < |rest| ==>
            (p.path, rest[j].path) in r && r[(p.path, rest[j].path)] == Sim(p, rest[j], rt)
            && (rest[j].path, p.path) in r && r[(rest[j].path, p.path)] == Sim(p, rest[j], rt))
      && (forall k :: k in m && Untouched(k, [p.path] + PathList(rest)) ==> k in r && r[k] == m[k])
    decreases rest
  {
    if rest != [] {
      var s := Sim(p, rest[0], rt);
      var m1 := m[(p.path, rest[0].path) := s][(rest[0].path, p.path) := s];
      PathListCons(rest);
      assert p.path != rest[0].path;
      assert DistinctPaths(rest[1..]);
      RowTableValues(m1, p, rest[1..], rt);
      var r := RowTable(m, p, rest, rt);
      forall j | 0 <= j < |rest|
        ensures (p.path, rest[j].path) in r && r[(p.path, rest[j].path)] == Sim(p, rest[j], rt)
        ensures (rest[j].path, p.path) in r && r[(rest[j].path, p.path)] == Sim(p, rest[j], rt)
      {
        if j > 0 {
          assert rest[1..][j - 1] == rest[j];
        } else {
          assert rest[0].path !in PathList(rest[1..]) by {
            forall i | 0 <= i < |rest[1..]| ensures PathList(rest[1..])[i] != rest[0].path {
              assert rest[1..][i] == rest[i + 1];
            }
          }
          assert Untouched((p.path, rest[0].path), [p.path] + PathList(rest[1..]));
          assert Untouched((rest[0].path, p.path), [p.path] + PathList(rest[1..]));
        }
      }
      forall k | k in m && Untouched(k, [p.path] + PathList(rest))
        ensures k in r && r[k] == m[k]
      {
        assert k in m1 && m1[k] == m[k];
        assert Untouched(k, [p.path] + PathList(rest[1..]));
      }
    }
  }

  /** A score the table holds for positions i - 1 < j - 1 of the tail is the score of positions i < j. */
  lemma ScoredFromRest(r: Table, ps: seq<Project>, rt: Ratios, i: int, j: int)
    requires 0 < i < j < |ps|
    requires (ps[1..][i - 1].path, ps[1..][j - 1].path) in r
    requires r[(ps[1..][i - 1].path, ps[1..][j - 1].path)] == Sim(ps[1..][i - 1], ps[1..][j - 1], rt)
    requires (ps[1..][j - 1].path, ps[1..][i - 1].path) in r
    requires r[(ps[1..][j - 1].path, ps[1..][i - 1].path)] == Sim(ps[1..][i - 1], ps[1..][j - 1], rt)
    ensures (ps[i].path, ps[j].path) in r && r[(ps[i].path, ps[j].path)] == Sim(ps[i], ps[j], rt)
    ensures (ps[j].path, ps[i].path) in r && r[(ps[j].path, ps[i].path)] == Sim(ps[i], ps[j], rt)
  {
    assert ps[1..][i - 1] == ps[i] && ps[1..][j - 1] == ps[j];
  }

  /**
   * With distinct paths, the dictionary maps both orders of every pair
   * i < j to that pair's score, and keeps every key it never writes.
   */
  lemma {:induction false} SimilaritiesValues(m: Table, ps: seq<Project>, rt: Ratios)
    requires DistinctPaths(ps)
    ensures var r := Similarities(m, ps, rt);
      && (forall i, j :: 0 <= i < j < |ps| ==>
            (ps[i].path, ps[j].path) in r && r[(ps[i].path, ps[j].path)] == Sim(ps[i], ps[j], rt)
            && (ps[j].path, ps[i].path) in r && r[(ps[j].path, ps[i].path)] == Sim(ps[i], ps[j], rt))
      && (forall k :: k in m && Untouched(k, PathList(ps)) ==> k in r && r[k] == m[k])
    decreases ps
  {
    if ps != [] {
      var rest := ps[1..];
      PathListCons(ps);
      assert DistinctPaths(rest);
      assert ps[0].path !in PathList(rest) by {
        forall j | 0 <= j < |rest| ensures PathList(rest)[j] != ps[0].path {
          assert rest[j] == ps[j + 1];
        }
      }
      var m1 := RowTable(m, ps[0], rest, rt);
      RowTableValues(m, ps[0], rest, rt);
      SimilaritiesValues(m1, rest, rt);
      var r := Similarities(m, ps, rt);
      assert r == Similarities(m1, rest, rt);
      forall i, j | 0 <= i < j < |ps|
        ensures (ps[i].path, ps[j].path) in r && r[(ps[i].path, ps[j].path)] == Sim(ps[i], ps[j], rt)
        ensures (ps[j].path, ps[i].path) in r && r[(ps[j].path, ps[i].path)] == Sim(ps[i], ps[j], rt)
      {
        if i == 0 {
          assert rest[j - 1] == ps[j];
          assert Untouched((ps[0].path, ps[j].path), PathList(rest));
          assert Untouched((ps[j].path, ps[0].path), PathList(rest));
        } else {
          ScoredFromRest(r, ps, rt, i, j);
        }
      }
      forall k | k in m && Untouched(k, PathList(ps))
        ensures k in r && r[k] == m[k]
      {
        assert k in m1 && m1[k] == m[k];
        assert Untouched(k, PathList(rest));
      }
    }
  }

  // ---------------------------------------------------------------- group_duplicates

  /** A group: its projects, and the similarities of the pairs that formed it, by path pair. */
  datatype Group = Group(members: seq<Project>, similarities: Table)

  /** `project in group['projects']`: list membership compares paths. */
  predicate Holds(g: Group, path: string)
  {
    path in PathList(g.members)
  }

  /** The index of the first group holding either path. */
  function FirstGroup(groups: seq<Group>, a: string, b: string): (r: Option<nat>)
    ensures r.Some? ==> r.value < |groups| && (Holds(groups[r.value], a) || Holds(groups[r.value], b))
    ensures forall k :: 0 <= k < |groups| && (r.None? || k < r.value) ==> !Holds(groups[k], a) && !Holds(groups[k], b)
  {
    if groups == [] then None
    else if Holds(groups[0], a) || Holds(groups[0], b) then Some(0)
    else
      var r := FirstGroup(groups[1..], a, b);
      assert forall k :: 1 <= k < |groups| ==> groups[k] == groups[1..][k - 1];
      if r.None? then None else Some(r.value + 1)
  }

  /** The groups built so far and `processed_projects`, by path. */
  datatype Grouping = Grouping(groups: seq<Group>, processed: set<string>)

  /** One iteration of the loop over the pairs, best score first. */
  function Absorb(st: Grouping, pr: Pair): Grouping
  {
    var a, b := pr.first, pr.second;
    if a.path in st.processed && b.path in st.processed then st
    else
      var found := FirstGroup(st.groups, a.path, b.path);
      var g := if found.Some? then st.groups[found.value] else Group([], map[]);
      var grown := Grow(g, pr);
      Grouping(if found.Some? then st.groups[found.value := grown.0] else st.groups + [grown.0], st.processed + grown.1)
  }

  /**
   * The group a pair lands in: each of the two projects it lacks appended
   * (the first, then the second), the score recorded in both orders; and
   * the paths that were appended.
   */
  function Grow(g: Group, pr: Pair): (Group, set<string>)
  {
    var a, b := pr.first, pr.second;
    var addFirst := a.path !in PathList(g.members);
    var ms1 := if addFirst then g.members + [a] else g.members;
    var addSecond := b.path !in PathList(ms1);
    var ms2 := if addSecond then ms1 + [b] else ms1;
    (Group(ms2, g.similarities[(a.path, b.path) := pr.score][(b.path, a.path) := pr.score]),
     (if addFirst then {a.path} else {}) + (if addSecond then {b.path} else {}))
  }

  /** The grown group holds what it held plus the appended paths, which it lacked; both projects are in it. */
  lemma GrowShape(g: Group, pr: Pair)
    ensures var (g2, added) := Grow(g, pr);
      && added <= {pr.first.path, pr.second.path}
      && (forall x :: x in added ==> !Holds(g, x))
      && (forall x :: Holds(g2, x) <==> Holds(g, x) || x in added)
      && Holds(g2, pr.first.path) && Holds(g2, pr.second.path)
  {
    var a, b := pr.first, pr.second;
    var ms0 := g.members;
    var ms1 := if a.path !in PathList(ms0) then ms0 + [a] else ms0;
    MaybeAppend(ms0, a);
    MaybeAppend(ms1, b);
  }

  /** The grown group keeps its members in front, and its paths distinct; it gains only the pair's projects. */
  lemma GrowMembers(g: Group, pr: Pair)
    ensures var g2 := Grow(g, pr).0;
      && (DistinctPaths(g.members) ==> DistinctPaths(g2.members))
      && (forall m :: m in g2.members ==> m in g.members || m == pr.first || m == pr.second)
      && PathList(g.members) <= PathList(g2.members)
  {
    var a, b := pr.first, pr.second;
    var ms0 := g.members;
    var ms1 := if a.path !in PathList(ms0) then ms0 + [a] else ms0;
    MaybeAppend(ms0, a);
    MaybeAppend(ms1, b);
  }

  /** Appending `p` when its path is missing: the path list grows by that path, distinctness is kept. */
  lemma MaybeAppend(ms: seq<Project>, p: Project)
    ensures var ms' := if p.path !in PathList(ms) then ms + [p] else ms;
      && PathList(ms') == PathList(ms) + (if p.path !in PathList(ms) then [p.path] else [])
      && p.path in PathList(ms')
      && (DistinctPaths(ms) ==> DistinctPaths(ms'))
      && (forall m :: m in ms' ==> m in ms || m == p)
  {
    PathListSnoc(ms, p);
    if DistinctPaths(ms) && p.path !in PathList(ms) {
      AppendDistinct(ms, p);
    }
  }

  function AbsorbAll(st: Grouping, prs: seq<Pair>): Grouping
    decreases prs
  {
    if prs == [] then st else AbsorbAll(Absorb(st, prs[0]), prs[1..])
  }

  function PairScore(pr: Pair): real
  {
    pr.score
  }

  function GroupSize(g: Group): real
  {
    |g.members| as real
  }

  /** `group_duplicates()`: group the pairs best score first, then order the groups largest first. */
  function GroupsOf(ps: seq<Project>, rt: Ratios, threshold: real): seq<Group>
  {
    if Candidates(ps, rt, threshold) == [] then []
    else SortDesc(Grouped(ps, rt, threshold).groups, GroupSize)
  }

  /** The groups before the final sort, with the processed paths. */
  function Grouped(ps: seq<Project>, rt: Ratios, threshold: real): Grouping
  {
    AbsorbAll(Grouping([], {}), SortDesc(Candidates(ps, rt, threshold), PairScore))
  }

  /**
   * `processed_projects` is exactly the set of paths held by the groups, no
   * path is held by two groups, and no group holds a path twice.
   */
  ghost predicate Consistent(st: Grouping)
  {
    && (forall x :: x in st.processed <==> exists k :: 0 <= k < |st.groups| && Holds(st.groups[k], x))
    && (forall k1, k2, x :: 0 <= k1 < |st.groups| && 0 <= k2 < |st.groups| && Holds(st.groups[k1], x) && Holds(st.groups[k2], x) ==> k1 == k2)
    && (forall k :: 0 <= k < |st.groups| ==> DistinctPaths(st.groups[k].members))
  }

  predicate AtLeastTwo(gs: seq<Group>)
  {
    forall k :: 0 <= k < |gs| ==> |gs[k].members| >= 2
  }

  /** Every member of every group is one of the two projects of some pair in `prs`. */
  ghost predicate DrawnFrom(gs: seq<Group>, prs: seq<Pair>)
  {
    forall k, m :: 0 <= k < |gs| && m in gs[k].members ==> Drawn(m, prs)
  }

  /** `m` is one of the two projects of some pair in `prs`. */
  ghost predicate Drawn(m: Project, prs: seq<Pair>)
  {
    exists pr :: pr in prs && (m == pr.first || m == pr.second)
  }

  lemma DrawnSnoc(m: Project, prs: seq<Pair>, pr: Pair)
    requires Drawn(m, prs) || m == pr.first || m == pr.second
    ensures Drawn(m, prs + [pr])
  {
    if m == pr.first || m == pr.second {
      assert pr in prs + [pr];
    } else {
      var q :| q in prs && (m == q.first || m == q.second);
      assert q in prs + [pr];
    }
  }

  lemma PathListSnoc(ms: seq<Project>, p: Project)
    ensures PathList(ms + [p]) == PathList(ms) + [p.path]
  {
  }

  lemma AppendDistinct(ms: seq<Project>, p: Project)
    requires DistinctPaths(ms) && p.path !in PathList(ms)
    ensures DistinctPaths(ms + [p])
  {
    forall i, j | 0 <= i < j < |ms + [p]| ensures (ms + [p])[i].path != (ms + [p])[j].path {
      if j == |ms| {
        assert PathList(ms)[i] == ms[i].path;
      }
    }
  }

  /** The group an absorbed pair lands in: what it held, plus whichever of the two projects it lacked. */
  lemma {:induction false} AbsorbGrows(st: Grouping, pr: Pair)
    requires Consistent(st)
    ensures var r := Absorb(st, pr);
      && st.processed <= r.processed
      && pr.first.path in r.processed && pr.second.path in r.processed
      && |st.groups| <= |r.groups|
      && forall k :: 0 <= k < |st.groups| ==> PathList(st.groups[k].members) <= PathList(r.groups[k].members)
  {
    var a, b := pr.first, pr.second;
    if !(a.path in st.processed && b.path in st.processed) {
      var r := Absorb(st, pr);
      var found := FirstGroup(st.groups, a.path, b.path);
      var g := if found.Some? then st.groups[found.value] else Group([], map[]);
      GrowShape(g, pr);
    GrowMembers(g, pr);
      var k0 := if found.Some? then found.value else |st.groups|;
      assert r.groups[k0] == Grow(g, pr).0;
      if found.None? {
        assert PathList(g.members) == [];
      }
    }
  }

  /** A project the step adds to a group was held by no group before. */
  lemma AddedWasNowhere(st: Grouping, pr: Pair, x: string)
    requires Consistent(st) && !(pr.first.path in st.processed && pr.second.path in st.processed)
    requires x == pr.first.path || x == pr.second.path
    requires var found := FirstGroup(st.groups, pr.first.path, pr.second.path);
             found.None? || !Holds(st.groups[found.value], x)
    ensures forall k :: 0 <= k < |st.groups| ==> !Holds(st.groups[k], x)
  {
    if x in st.processed {
      assert false;
    }
  }

  /**
   * What a step that does not skip its pair does: it touches one group `k0`
   * (an existing one, or a new one at the end), adds to it the paths in
   * `added`, which no group held before, and leaves every other group alone.
   */
  lemma {:induction false} AbsorbShape(st: Grouping, pr: Pair) returns (k0: nat, added: set<string>)
    requires Consistent(st) && !(pr.first.path in st.processed && pr.second.path in st.processed)
    ensures var r := Absorb(st, pr);
      && k0 <= |st.groups|
      && |r.groups| == (if k0 == |st.groups| then |st.groups| + 1 else |st.groups|)
      && r.processed == st.processed + added
      && added <= {pr.first.path, pr.second.path}
      && (forall x, k :: x in added && 0 <= k < |st.groups| ==> !Holds(st.groups[k], x))
      && (forall k :: 0 <= k < |r.groups| && k != k0 ==> r.groups[k] == st.groups[k])
      && (forall x :: Holds(r.groups[k0], x) <==> (k0 < |st.groups| && Holds(st.groups[k0], x)) || x in added)
      && Holds(r.groups[k0], pr.first.path) && Holds(r.groups[k0], pr.second.path)
      && DistinctPaths(r.groups[k0].members)
      && (forall m :: m in r.groups[k0].members ==>
            (k0 < |st.groups| && m in st.groups[k0].members) || m == pr.first || m == pr.second)
  {
    var a, b := pr.first, pr.second;
    var r := Absorb(st, pr);
    var found := FirstGroup(st.groups, a.path, b.path);
    var g := if found.Some? then st.groups[found.value] else Group([], map[]);
    GrowShape(g, pr);
    GrowMembers(g, pr);
    k0 := if found.Some? then found.value else |st.groups|;
    added := Grow(g, pr).1;
    assert r.groups[k0] == Grow(g, pr).0;
    forall x | x in added
      ensures forall k :: 0 <= k < |st.groups| ==> !Holds(st.groups[k], x)
    {
      AddedWasNowhere(st, pr, x);
    }
    if found.None? {
      assert PathList(g.members) == [];
    }
  }

  /** The three parts of `Consistent` survive any change of the shape `AbsorbShape` describes. */
  lemma StepConsistent(st: Grouping, r: Grouping, k0: nat, added: set<string>)
    requires Consistent(st)
    requires k0 <= |st.groups|
    requires |r.groups| == (if k0 == |st.groups| then |st.groups| + 1 else |st.groups|)
    requires r.processed == st.processed + added
    requires forall x, k :: x in added && 0 <= k < |st.groups| ==> !Holds(st.groups[k], x)
    requires forall k :: 0 <= k < |r.groups| && k != k0 ==> r.groups[k] == st.groups[k]
    requires forall x :: Holds(r.groups[k0], x) <==> (k0 < |st.groups| && Holds(st.groups[k0], x)) || x in added
    requires DistinctPaths(r.groups[k0].members)
    ensures Consistent(r)
  {
    forall x
      ensures x in r.processed <==> exists k :: 0 <= k < |r.groups| && Holds(r.groups[k], x)
    {
      if x in st.processed {
        var k :| 0 <= k < |st.groups| && Holds(st.groups[k], x);
        assert Holds(r.groups[k], x);
      } else if x in added {
        assert Holds(r.groups[k0], x);
      }
      if exists k :: 0 <= k < |r.groups| && Holds(r.groups[k], x) {
        var k :| 0 <= k < |r.groups| && Holds(r.groups[k], x);
        if k != k0 || (k0 < |st.groups| && Holds(st.groups[k0], x)) {
          assert x in st.processed;
        }
      }
    }
  }

  /** Each step keeps the bookkeeping consistent. */
  lemma AbsorbConsistent(st: Grouping, pr: Pair)
    requires Consistent(st)
    ensures Consistent(Absorb(st, pr))
  {
    if !(pr.first.path in st.processed && pr.second.path in st.processed) {
      var k0, added := AbsorbShape(st, pr);
      StepConsistent(st, Absorb(st, pr), k0, added);
    }
  }

  /** A step adds to the groups only the two projects of its pair. */
  lemma AbsorbDrawn(st: Grouping, pr: Pair, done: seq<Pair>)
    requires DrawnFrom(st.groups, done)
    ensures DrawnFrom(Absorb(st, pr).groups, done + [pr])
  {
    var r := Absorb(st, pr);
    if pr.first.path in st.processed && pr.second.path in st.processed {
      assert r == st;
      forall k, m | 0 <= k < |r.groups| && m in r.groups[k].members
        ensures Drawn(m, done + [pr])
      {
        DrawnSnoc(m, done, pr);
      }
    } else {
      var found := FirstGroup(st.groups, pr.first.path, pr.second.path);
      var g := if found.Some? then st.groups[found.value] else Group([], map[]);
      var k0 := if found.Some? then found.value else |st.groups|;
      GrowMembers(g, pr);
      assert r.groups[k0] == Grow(g, pr).0;
      forall k, m | 0 <= k < |r.groups| && m in r.groups[k].members
        ensures Drawn(m, done + [pr])
      {
        if k != k0 || m in g.members {
          assert m in st.groups[k].members;
        }
        DrawnSnoc(m, done, pr);
      }
    }
  }

  /** A step on two different paths leaves no group with fewer than two projects. */
  lemma AbsorbTwo(st: Grouping, pr: Pair)
    requires Consistent(st) && AtLeastTwo(st.groups) && pr.first.path != pr.second.path
    ensures AtLeastTwo(Absorb(st, pr).groups)
  {
    if !(pr.first.path in st.processed && pr.second.path in st.processed) {
      var k0, added := AbsorbShape(st, pr);
      TwoPathsTwoMembers(Absorb(st, pr).groups[k0].members, pr.first.path, pr.second.path);
    }
  }

  lemma TwoPathsTwoMembers(ms: seq<Project>, x: string, y: string)
    requires x != y && x in PathList(ms) && y in PathList(ms)
    ensures |ms| >= 2
  {
    var i :| 0 <= i < |ms| && PathList(ms)[i] == x;
    var j :| 0 <= j < |ms| && PathList(ms)[j] == y;
    assert i != j;
  }

  /** Both projects of every pair in `prs` are processed. */
  predicate Covered(st: Grouping, prs: seq<Pair>)
  {
    forall pr :: pr in prs ==> pr.first.path in st.processed && pr.second.path in st.processed
  }

  lemma AbsorbProcesses(st: Grouping, pr: Pair)
    requires Consistent(st)
    ensures st.processed <= Absorb(st, pr).processed
    ensures pr.first.path in Absorb(st, pr).processed && pr.second.path in Absorb(st, pr).processed
  {
    AbsorbGrows(st, pr);
  }

  predicate DistinctPairs(prs: seq<Pair>)
  {
    forall pr :: pr in prs ==> pr.first.path != pr.second.path
  }

  lemma {:induction false} AbsorbAllConsistent(st: Grouping, prs: seq<Pair>)
    requires Consistent(st)
    ensures Consistent(AbsorbAll(st, prs))
    decreases prs
  {
    if prs != [] {
      AbsorbConsistent(st, prs[0]);
      AbsorbAllConsistent(Absorb(st, prs[0]), prs[1..]);
    }
  }

  /** Every member of every group comes from one of the pairs absorbed. */
  lemma {:induction false} AbsorbAllDrawn(st: Grouping, done: seq<Pair>, prs: seq<Pair>)
    requires DrawnFrom(st.groups, done)
    ensures DrawnFrom(AbsorbAll(st, prs).groups, done + prs)
    decreases prs
  {
    if prs == [] {
      assert done + prs == done;
    } else {
      AbsorbDrawn(st, prs[0], done);
      AbsorbAllDrawn(Absorb(st, prs[0]), done + [prs[0]], prs[1..]);
      assert done + [prs[0]] + prs[1..] == done + prs;
    }
  }

  /** Every project of every pair absorbed ends up processed, and nothing processed is forgotten. */
  lemma {:induction false} AbsorbAllCovered(st: Grouping, prs: seq<Pair>)
    requires Consistent(st)
    ensures st.processed <= AbsorbAll(st, prs).processed
    ensures Covered(AbsorbAll(st, prs), prs)
    decreases prs
  {
    if prs != [] {
      var st1 := Absorb(st, prs[0]);
      AbsorbConsistent(st, prs[0]);
      AbsorbProcesses(st, prs[0]);
      AbsorbAllCovered(st1, prs[1..]);
      forall pr | pr in prs ensures pr.first.path in AbsorbAll(st, prs).processed && pr.second.path in AbsorbAll(st, prs).processed {
        if pr != prs[0] {
          assert pr in prs[1..];
        }
      }
    }
  }

  /** Pairs of two different paths never leave a group with a single project. */
  lemma {:induction false} AbsorbAllTwo(st: Grouping, prs: seq<Pair>)
    requires Consistent(st) && AtLeastTwo(st.groups) && DistinctPairs(prs)
    ensures AtLeastTwo(AbsorbAll(st, prs).groups)
    decreases prs
  {
    if prs != [] {
      assert prs[0] in prs;
      AbsorbConsistent(st, prs[0]);
      AbsorbTwo(st, prs[0]);
      assert forall pr :: pr in prs[1..] ==> pr in prs;
      AbsorbAllTwo(Absorb(st, prs[0]), prs[1..]);
    }
  }

  /** No project of `g` is held by `h`. */
  predicate Apart(g: Group, h: Group)
  {
    forall m :: m in g.members ==> m.path !in PathList(h.members)
  }

  /** No path is held by two groups, and no group holds a path twice. */
  predicate Partitioned(gs: seq<Group>)
  {
    Pairwise(gs, Apart) && forall k :: 0 <= k < |gs| ==> DistinctPaths(gs[k].members)
  }

  ghost predicate InSomeGroup(gs: seq<Group>, path: string)
  {
    exists k :: 0 <= k < |gs| && Holds(gs[k], path)
  }

  lemma ConsistentPartitioned(st: Grouping)
    requires Consistent(st)
    ensures Partitioned(st.groups)
  {
    var gs := st.groups;
    forall k1, k2 | 0 <= k1 < |gs| && 0 <= k2 < |gs| && k1 != k2 ensures Apart(gs[k1], gs[k2]) {
      forall m | m in gs[k1].members ensures m.path !in PathList(gs[k2].members) {
        var i :| 0 <= i < |gs[k1].members| && gs[k1].members[i] == m;
        assert PathList(gs[k1].members)[i] == m.path;
        assert Holds(gs[k1], m.path);
      }
    }
  }

  /** Reordering the groups changes none of the facts about them that do not mention positions. */
  lemma ReorderedGroups(gs: seq<Group>, hs: seq<Group>, prs: seq<Pair>)
    requires multiset(gs) == multiset(hs)
    ensures forall x :: InSomeGroup(gs, x) ==> InSomeGroup(hs, x)
    ensures DrawnFrom(gs, prs) ==> DrawnFrom(hs, prs)
    ensures AtLeastTwo(gs) ==> AtLeastTwo(hs)
  {
    forall x | InSomeGroup(gs, x) ensures InSomeGroup(hs, x) {
      var k :| 0 <= k < |gs| && Holds(gs[k], x);
      assert gs[k] in multiset(hs);
      var k2 :| 0 <= k2 < |hs| && hs[k2] == gs[k];
    }
    forall k | 0 <= k < |hs| ensures exists k2 :: 0 <= k2 < |gs| && gs[k2] == hs[k] {
      assert hs[k] in multiset(gs);
    }
  }

  /** The pairs in score order are the candidate pairs. */
  lemma SortedPairs(dups: seq<Pair>)
    ensures forall pr :: pr in SortDesc(dups, PairScore) <==> pr in dups
  {
    SortDescPermutation(dups, PairScore);
    forall pr ensures pr in SortDesc(dups, PairScore) <==> pr in dups {
      assert pr in SortDesc(dups, PairScore) <==> pr in multiset(SortDesc(dups, PairScore));
    }
  }

  /** With distinct paths, no candidate pair is a project paired with itself. */
  lemma CandidatesDistinct(ps: seq<Project>, rt: Ratios, threshold: real)
    requires DistinctPaths(ps)
    ensures DistinctPairs(SortDesc(Candidates(ps, rt, threshold), PairScore))
  {
    CandidatesExactly(ps, rt, threshold);
    SortedPairs(Candidates(ps, rt, threshold));
  }

  /** The grouping before the final sort, with the loop invariants at its end. */
  lemma GroupedFacts(ps: seq<Project>, rt: Ratios, threshold: real)
    ensures var st := Grouped(ps, rt, threshold);
      && Consistent(st)
      && DrawnFrom(st.groups, SortDesc(Candidates(ps, rt, threshold), PairScore))
      && Covered(st, SortDesc(Candidates(ps, rt, threshold), PairScore))
      && (DistinctPaths(ps) ==> AtLeastTwo(st.groups))
  {
    var sorted := SortDesc(Candidates(ps, rt, threshold), PairScore);
    var init := Grouping([], {});
    AbsorbAllConsistent(init, sorted);
    AbsorbAllDrawn(init, [], sorted);
    assert [] + sorted == sorted;
    AbsorbAllCovered(init, sorted);
    if DistinctPaths(ps) {
      CandidatesDistinct(ps, rt, threshold);
      AbsorbAllTwo(init, sorted);
    }
  }

  /** A member drawn from the candidate pairs is one of the projects. */
  lemma DrawnFromProjects(ps: seq<Project>, rt: Ratios, threshold: real, gs: seq<Group>)
    requires DrawnFrom(gs, SortDesc(Candidates(ps, rt, threshold), PairScore))
    ensures DrawnFrom(gs, Candidates(ps, rt, threshold))
    ensures forall k, m :: 0 <= k < |gs| && m in gs[k].members ==> m in ps
  {
    var dups := Candidates(ps, rt, threshold);
    forall k, m | 0 <= k < |gs| && m in gs[k].members
      ensures Drawn(m, dups) && m in ps
    {
      DrawnUnsorted(m, dups);
      DrawnIsProject(m, ps, rt, threshold);
    }
  }

  lemma DrawnUnsorted(m: Project, dups: seq<Pair>)
    requires Drawn(m, SortDesc(dups, PairScore))
    ensures Drawn(m, dups)
  {
    SortedPairs(dups);
    var q :| q in SortDesc(dups, PairScore) && (m == q.first || m == q.second);
    assert q in dups;
  }

  lemma DrawnIsProject(m: Project, ps: seq<Project>, rt: Ratios, threshold: real)
    requires Drawn(m, Candidates(ps, rt, threshold))
    ensures m in ps
  {
    CandidatesExactly(ps, rt, threshold);
    var q :| q in Candidates(ps, rt, threshold) && (m == q.first || m == q.second);
    assert IsCandidate(ps, rt, threshold, q);
  }

  /**
   * `group_duplicates()`: the groups come largest first; no project is in two
   * groups or twice in one; every member of a group is a project of some
   * pair above the threshold, hence one of the found projects; every
   * project of such a pair is in some group; and when the projects have
   * distinct paths, every group holds at least two of them.
   */
  lemma GroupsOfProperties(ps: seq<Project>, rt: Ratios, threshold: real)
    ensures var gs := GroupsOf(ps, rt, threshold);
      && Descending(gs, GroupSize)
      && Partitioned(gs)
      && DrawnFrom(gs, Candidates(ps, rt, threshold))
      && (forall k, m :: 0 <= k < |gs| && m in gs[k].members ==> m in ps)
      && (forall pr :: pr in Candidates(ps, rt, threshold) ==> InSomeGroup(gs, pr.first.path) && InSomeGroup(gs, pr.second.path))
      && (DistinctPaths(ps) ==> AtLeastTwo(gs))
  {
    var dups := Candidates(ps, rt, threshold);
    var gs := GroupsOf(ps, rt, threshold);
    if dups != [] {
      var sorted := SortDesc(dups, PairScore);
      var st := Grouped(ps, rt, threshold);
      GroupedFacts(ps, rt, threshold);
      SortDescOrdered(st.groups, GroupSize);
      SortDescPermutation(st.groups, GroupSize);
      ConsistentPartitioned(st);
      SortDescPairwise(st.groups, GroupSize, Apart);
      ReorderedGroups(st.groups, gs, sorted);
      forall k | 0 <= k < |gs| ensures DistinctPaths(gs[k].members) {
        assert gs[k] in multiset(st.groups);
      }
      DrawnFromProjects(ps, rt, threshold, gs);
      SortedPairs(dups);
      forall pr | pr in dups ensures InSomeGroup(gs, pr.first.path) && InSomeGroup(gs, pr.second.path) {
        assert pr in sorted;
        assert InSomeGroup(st.groups, pr.first.path) && InSomeGroup(st.groups, pr.second.path);
      }
    }
  }
}

=== FILE: filesystem.dfy ===
/**
 * A snapshot of the file system as a tree value, and the order in which
 * `os.listdir` and a top-down `os.walk` present it.
 */
module FileSystem {
  import opened Paths
  import opened Wrappers

  /** What `os.stat`/`open` would find at a path. Symbolic links and special files are not modelled. */
  datatype Node =
    | File(content: seq<bv8>, mtime: real, statOk: bool, readOk: bool)
    | Dir(entries: seq<Entry>, listable: bool, size: nat, mtime: real)

  /** One line of a directory listing, in listing order. */
  datatype Entry = Entry(name: string, node: Node)

  /** Names are listing names at every level. */
  predicate WellFormed(n: Node)
  {
    n.Dir? ==> forall i :: 0 <= i < |n.entries| ==> IsName(n.entries[i].name) && WellFormed(n.entries[i].node)
  }

  /** The node a listing holds under `name` (the first, if a name were repeated). */
  function Lookup(entries: seq<Entry>, name: string): (r: Option<Node>)
    ensures r.Some? <==> exists i :: 0 <= i < |entries| && entries[i].name == name
  {
    if entries == [] then None
    else if entries[0].name == name then Some(entries[0].node)
    else Lookup(entries[1..], name)
  }

  /** A file reported by `os.walk`: the joined path, the path relative to the walk's top, and its name. */
  datatype Walked = Walked(path: string, rel: string, name: string, file: Node)

  /** The non-directory entries of one listing, as one `os.walk` step reports them. */
  function FilesHere(top: string, rel: string, es: seq<Entry>): (r: seq<Walked>)
  {
    if es == [] then []
    else
      (if es[0].node.File?
       then [Walked(Join(top, es[0].name), Join(rel, es[0].name), es[0].name, es[0].node)]
       else [])
      + FilesHere(top, rel, es[1..])
  }

  /**
   * The files `os.walk(top)` reports, in order: the files of `top` first,
   * then the walk of each subdirectory in listing order. A directory that
   * cannot be listed is silently skipped; subdirectories whose name is in
   * `prune` are not entered (the `dirnames[:] = ...` idiom).
   */
  function Walk(top: string, rel: string, n: Node, prune: seq<string>): (r: seq<Walked>)
    decreases n
  {
    if n.File? || !n.listable then []
    else FilesHere(top, rel, n.entries) + WalkSubdirs(top, rel, n.entries, prune)
  }

  function WalkSubdirs(top: string, rel: string, es: seq<Entry>, prune: seq<string>): (r: seq<Walked>)
    decreases es
  {
    if es == [] then []
    else
      (if es[0].node.Dir? && es[0].name !in prune
       then Walk(Join(top, es[0].name), Join(rel, es[0].name), es[0].node, prune)
       else [])
      + WalkSubdirs(top, rel, es[1..], prune)
  }

  /** Every walked item is a file. */
  predicate AllFiles(ws: seq<Walked>)
  {
    forall i :: 0 <= i < |ws| ==> ws[i].file.File?
  }

  lemma {:induction false} FilesHereAreFiles(top: string, rel: string, es: seq<Entry>)
    ensures AllFiles(FilesHere(top, rel, es))
  {
    if es != [] {
      FilesHereAreFiles(top, rel, es[1..]);
    }
  }

  /** A walk reports files only, never directories. */
  lemma {:induction false} WalkIsFiles(top: string, rel: string, n: Node, prune: seq<string>)
    ensures AllFiles(Walk(top, rel, n, prune))
    decreases n
  {
    if n.Dir? && n.listable {
      FilesHereAreFiles(top, rel, n.entries);
      WalkSubdirsIsFiles(top, rel, n.entries, prune);
    }
  }

  lemma {:induction false} WalkSubdirsIsFiles(top: string, rel: string, es: seq<Entry>, prune: seq<string>)
    ensures AllFiles(WalkSubdirs(top, rel, es, prune))
    decreases es
  {
    if es != [] {
      if es[0].node.Dir? && es[0].name !in prune {
        WalkIsFiles(Join(top, es[0].name), Join(rel, es[0].name), es[0].node, prune);
      }
      WalkSubdirsIsFiles(top, rel, es[1..], prune);
    }
  }

  /** The joined paths of walked files, in order. */
  function PathsOf(ws: seq<Walked>): (r: seq<string>)
    ensures |r| == |ws|
    ensures forall i :: 0 <= i < |ws| ==> r[i] == ws[i].path
  {
    if ws == [] then [] else PathsOf(ws[..|ws| - 1]) + [ws[|ws| - 1].path]
  }

  lemma PathsOfStep(ws: seq<Walked>, i: nat)
    requires i < |ws|
    ensures PathsOf(ws[..i + 1]) == PathsOf(ws[..i]) + [ws[i].path]
  {
    assert ws[..i + 1][..i] == ws[..i];
  }

  /** `os.walk(path)` of whatever is at `path`: nothing when the path does not exist. */
  function WalkAt(path: string, at: Option<Node>, prune: seq<string>): (r: seq<Walked>)
  {
    if at.None? then [] else Walk(path, [], at.value, prune)
  }
}

=== FILE: finder.dfy ===
/**
 * The project scanner: a depth-first, pre-order walk from a chosen root that
 * classifies each directory, turns the first matching directory on each
 * branch into a project and does not descend into it, and reports progress
 * as a log of notifications. Cancellation is a flag read at two points; its
 * successive readings are the oracle `running`, indexed by how many times it
 * has been read.
 */
module Finder {
  import opened Wrappers
  import opened Paths
  import opened FileSystem
  import opened Config
  import opened Classifier
  import opened Projects
  import opened StableSort
  import opened Similarity
  import opened Duplicates
  import opened Identical
  import opened Seqs

  datatype ScanError = NotFound(path: string) | NotADirectory(path: string) | LoadFailed

  /** The notifications (Qt signals) of the finder, in emission order. */
  datatype Event =
    | SearchStarted
    | DirectoryScanning(path: string)
    | FileScanning(path: string)
    | ProjectFound(project: Project)
    | SearchError(error: ScanError)
    | SearchFinished(count: nat)

  /** The lists the scan reads from the finder, replaceable between scans. */
  datatype Settings = Settings(
    ignoreDirs: seq<string>,
    pythonExtensions: seq<string>,
    projectRootFiles: seq<string>,
    ignoredFileExtensions: seq<string>)

  /** What a scan has accumulated: projects, notifications and the number of flag reads. */
  datatype ScanState = ScanState(found: seq<Project>, events: seq<Event>, polls: nat)

  function Reported(r: Option<string>): seq<Event>
  {
    if r.Some? then [FileScanning(r.value)] else []
  }

  function FilesScanned(paths: seq<string>): (r: seq<Event>)
    ensures |r| == |paths|
    ensures forall k :: 0 <= k < |r| ==> r[k] == FileScanning(paths[k])
  {
    if paths == [] then [] else [FileScanning(paths[0])] + FilesScanned(paths[1..])
  }

  /** A directory becomes a project: not the root, it matches, and no ancestor matched. */
  predicate BecomesProject(isRoot: bool, isPython: bool, isProjectRoot: bool, parentPython: bool, parentProjectRoot: bool)
  {
    !isRoot && (isPython || isProjectRoot) && !(parentPython || parentProjectRoot)
  }

  function PythonMatch(s: Settings, path: string, n: Node): Option<string>
  {
    IsPythonProject(path, n, s.pythonExtensions, s.ignoredFileExtensions)
  }

  function RootMatch(s: Settings, path: string, n: Node): Option<string>
  {
    IsProjectRoot(path, n, s.projectRootFiles, s.ignoredFileExtensions)
  }

  /** The state after the flag read, the `directory_scanning` notice and the classification notices. */
  function Announce(path: string, py: Option<string>, rt: Option<string>, st: ScanState): ScanState
  {
    st.(polls := st.polls + 1, events := st.events + [DirectoryScanning(path)] + Reported(py) + Reported(rt))
  }

  /** `ProjectModel(path)` on the directory `n`, which runs the analysis. */
  function Analysed(cfg: Config, path: string, n: Node): Analysis
  {
    Analyze(Created(path, Some(n)), Some(n), cfg)
  }

  /** The analysis of a directory that can be listed does not raise and keeps the path. */
  lemma AnalysedListable(cfg: Config, path: string, n: Node)
    requires n.Dir? && n.listable
    ensures !Analysed(cfg, path, n).raised && Analysed(cfg, path, n).project.path == path
  {
  }

  /** The stub directory of the finding below. */
  const StubDir: Node := Dir([Entry("stub.pyi", File([], 3.0, true, true))], true, 4096, 5.0)

  lemma StubIsPythonFile()
    ensures IsPythonFile(StubDir.entries[0], Default.pythonExtensions, Default.ignoredFileExtensions)
  {
    assert EndsWith("stub.pyi", Default.pythonExtensions[3]);
    assert Lower("stub.pyi") == "stub.pyi";
    forall i | 0 <= i < |Default.ignoredFileExtensions| ensures !EndsWith("stub.pyi", Default.ignoredFileExtensions[i]) {
      assert "stub.pyi"[|"stub.pyi"| - 4..] == ".pyi";
    }
  }

  lemma StubIsNoMarker()
    ensures MarkerFiles("/w/stubs", StubDir.entries, Default.projectRootFiles, Default.ignoredFileExtensions) == []
  {
    assert StubDir.entries[..0] == [];
    assert "stub.pyi" !in Default.projectRootFiles;
  }

  lemma StubIsNoSource()
    ensures PythonSources(Walk("/w/stubs", [], StubDir, [])) == []
  {
    var ws := Walk("/w/stubs", [], StubDir, []);
    assert forall w :: w in ws ==> w.name == "stub.pyi";
    assert !EndsWith("stub.pyi", ".py");
    PythonSourcesMembers(ws);
  }

  /**
   * A directory holding only a type stub is a Python project (`.pyi` is a
   * Python extension) whose analysis matches no file (only names ending in
   * exactly `.py` are collected), so `last_modified` stays the directory's
   * non-zero stat time and `to_dict` as written raises for it.
   */
  lemma StubOnlyProjectBreaksToDict()
    ensures var a := Analysed(Default, "/w/stubs", StubDir);
      && IsPythonProject("/w/stubs", StubDir, Default.pythonExtensions, Default.ignoredFileExtensions).Some?
      && !a.raised && a.project.pythonFiles == [] && a.project.lastModified == Number(5.0)
      && ToDictAsWritten(a.project) == Err(AttributeError)
      && SaveRecordsAsWritten([a.project]).Err?
      && ToDict(a.project).lastModified == Some(Iso(5.0))
  {
    StubIsPythonFile();
    StubIsNoMarker();
    StubIsNoSource();
  }

  /** The project branch: keep the analysed project unless the analysis raised. */
  function KeepProject(a: Analysis, st: ScanState): ScanState
  {
    if a.raised then st
    else st.(found := st.found + [a.project],
             events := st.events + FilesScanned(a.observed) + [ProjectFound(a.project)])
  }

  /**
   * One call of `find_projects_recursive(path, is_root_dir, parent_has_python,
   * parent_is_project_root)` on the directory `n`.
   */
  function Visit(s: Settings, cfg: Config, running: nat -> bool, path: string, n: Node,
                 isRoot: bool, parentPython: bool, parentProjectRoot: bool, st: ScanState): ScanState
    requires n.Dir?
    decreases n
  {
    if !running(st.polls) then st.(polls := st.polls + 1)
    else if |path| > 255 then st.(polls := st.polls + 1, events := st.events + [DirectoryScanning(path)])
    else
      var py := PythonMatch(s, path, n);
      var rt := RootMatch(s, path, n);
      var st2 := Announce(path, py, rt, st);
      if BecomesProject(isRoot, py.Some?, rt.Some?, parentPython, parentProjectRoot) then KeepProject(Analysed(cfg, path, n), st2)
      else if !n.listable then st2
      else VisitChildren(s, cfg, running, path, n.entries, parentPython || py.Some?, parentProjectRoot || rt.Some?, st2)
  }

  /** The loop over a directory's listing: the flag is read before each entry. */
  function VisitChildren(s: Settings, cfg: Config, running: nat -> bool, path: string, es: seq<Entry>,
                         parentPython: bool, parentProjectRoot: bool, st: ScanState): ScanState
    decreases es
  {
    if es == [] then st
    else if !running(st.polls) then st.(polls := st.polls + 1)
    else
      var st2 := Child(s, cfg, running, path, es[0], parentPython, parentProjectRoot, st.(polls := st.polls + 1));
      VisitChildren(s, cfg, running, path, es[1..], parentPython, parentProjectRoot, st2)
  }

  /** The listing loop from position `i`: stop on a failed poll, or take entry `i` and go on. */
  lemma ChildrenStep(s: Settings, cfg: Config, running: nat -> bool, path: string, es: seq<Entry>, i: nat,
                     parentPython: bool, parentProjectRoot: bool, st: ScanState)
    requires i < |es|
    ensures VisitChildren(s, cfg, running, path, es[i..], parentPython, parentProjectRoot, st)
            == if !running(st.polls) then st.(polls := st.polls + 1)
               else VisitChildren(s, cfg, running, path, es[i + 1..], parentPython, parentProjectRoot,
                                  Child(s, cfg, running, path, es[i], parentPython, parentProjectRoot, st.(polls := st.polls + 1)))
  {
    assert es[i..][0] == es[i] && es[i..][1..] == es[i + 1..];
  }

  /** One entry of a listing: a subdirectory whose name is not ignored is walked; anything else is skipped. */
  function Child(s: Settings, cfg: Config, running: nat -> bool, path: string, e: Entry,
                 parentPython: bool, parentProjectRoot: bool, st: ScanState): ScanState
    decreases e
  {
    if e.node.Dir? && e.name !in s.ignoreDirs
    then Visit(s, cfg, running, Join(path, e.name), e.node, false, parentPython, parentProjectRoot, st)
    else st
  }

  /**
   * `find_python_projects(root_path)`: `at` is what the file system holds at
   * `root_path`. The accumulated projects are reset; a missing root or a
   * non-directory is reported as an error with a count of 0.
   */
  function Scan(s: Settings, cfg: Config, running: nat -> bool, rootPath: string, at: Option<Node>,
                events0: seq<Event>, polls0: nat): (r: ScanState)
    ensures |r.events| > 0 && r.events[|r.events| - 1] == SearchFinished(|r.found|)
    ensures !Exists(at) ==>
              r.found == [] && r.events == events0 + [SearchStarted, SearchError(NotFound(rootPath)), SearchFinished(0)]
    ensures Exists(at) && !at.value.Dir? ==>
              r.found == [] && r.events == events0 + [SearchStarted, SearchError(NotADirectory(rootPath)), SearchFinished(0)]
  {
    var started := events0 + [SearchStarted];
    if !Exists(at) then ScanState([], started + [SearchError(NotFound(rootPath)), SearchFinished(0)], polls0)
    else if !at.value.Dir? then ScanState([], started + [SearchError(NotADirectory(rootPath)), SearchFinished(0)], polls0)
    else
      var v := Visit(s, cfg, running, rootPath, at.value, true, false, false, ScanState([], started, polls0));
      v.(events := v.events + [SearchFinished(|v.found|)])
  }

  // ---------------------------------------------------------------- properties of the walk

  predicate Extends(st: ScanState, r: ScanState)
  {
    && |st.found| <= |r.found| && r.found[..|st.found|] == st.found
    && |st.events| <= |r.events| && r.events[..|st.events|] == st.events
    && st.polls < r.polls + 1
  }

  /** A walk only appends: projects already found and notifications already sent are kept. */
  lemma {:induction false} VisitExtends(s: Settings, cfg: Config, running: nat -> bool, path: string, n: Node,
                                        isRoot: bool, pPy: bool, pRoot: bool, st: ScanState)
    requires n.Dir?
    ensures Extends(st, Visit(s, cfg, running, path, n, isRoot, pPy, pRoot, st))
    decreases n
  {
    var r := Visit(s, cfg, running, path, n, isRoot, pPy, pRoot, st);
    if !running(st.polls) || |path| > 255 {
      assert r.events[..|st.events|] == st.events;
    } else {
      var py := PythonMatch(s, path, n);
      var rt := RootMatch(s, path, n);
      var st2 := Announce(path, py, rt, st);
      AnnounceNotices(path, py, rt, st);
      if BecomesProject(isRoot, py.Some?, rt.Some?, pPy, pRoot) {
        KeepProjectNotices(Analysed(cfg, path, n), st2);
        ExtendsTrans(st, st2, r);
      } else if n.listable {
        VisitChildrenExtends(s, cfg, running, path, n.entries, pPy || py.Some?, pRoot || rt.Some?, st2);
        ExtendsTrans(st, st2, r);
      }
    }
  }

  lemma ExtendsTrans(a: ScanState, b: ScanState, c: ScanState)
    requires Extends(a, b) && Extends(b, c)
    ensures Extends(a, c)
  {
    assert c.found[..|a.found|] == c.found[..|b.found|][..|a.found|];
    assert c.events[..|a.events|] == c.events[..|b.events|][..|a.events|];
  }

  lemma {:induction false} VisitChildrenExtends(s: Settings, cfg: Config, running: nat -> bool, path: string, es: seq<Entry>,
                                                pPy: bool, pRoot: bool, st: ScanState)
    ensures Extends(st, VisitChildren(s, cfg, running, path, es, pPy, pRoot, st))
    decreases es
  {
    var r := VisitChildren(s, cfg, running, path, es, pPy, pRoot, st);
    if es == [] || !running(st.polls) {
      assert r.events[..|st.events|] == st.events;
    } else {
      var st1 := st.(polls := st.polls + 1);
      var st2 := Child(s, cfg, running, path, es[0], pPy, pRoot, st1);
      assert r == VisitChildren(s, cfg, running, path, es[1..], pPy, pRoot, st2);
      ChildExtends(s, cfg, running, path, es[0], pPy, pRoot, st1);
      assert st1.events[..|st.events|] == st.events;
      ExtendsTrans(st, st1, st2);
      VisitChildrenExtends(s, cfg, running, path, es[1..], pPy, pRoot, st2);
      ExtendsTrans(st, st2, r);
    }
  }

  lemma {:induction false} ChildExtends(s: Settings, cfg: Config, running: nat -> bool, path: string, e: Entry,
                                        pPy: bool, pRoot: bool, st: ScanState)
    ensures Extends(st, Child(s, cfg, running, path, e, pPy, pRoot, st))
    decreases e
  {
    if e.node.Dir? && e.name !in s.ignoreDirs {
      VisitExtends(s, cfg, running, Join(path, e.name), e.node, false, pPy, pRoot, st);
    } else {
      assert st.events[..|st.events|] == st.events;
    }
  }

  /**
   * Below a directory that matched (or under a matching ancestor), the
   * flags stay set and nothing more becomes a project.
   */
  lemma {:induction false} FlaggedVisitFindsNothing(s: Settings, cfg: Config, running: nat -> bool, path: string, n: Node,
                                                    pPy: bool, pRoot: bool, st: ScanState)
    requires n.Dir? && (pPy || pRoot)
    ensures Visit(s, cfg, running, path, n, false, pPy, pRoot, st).found == st.found
    decreases n
  {
    if running(st.polls) && |path| <= 255 && n.listable {
      var py := PythonMatch(s, path, n);
      var rt := RootMatch(s, path, n);
      var st2 := Announce(path, py, rt, st);
      FlaggedChildrenFindNothing(s, cfg, running, path, n.entries, pPy || py.Some?, pRoot || rt.Some?, st2);
    }
  }

  lemma {:induction false} FlaggedChildrenFindNothing(s: Settings, cfg: Config, running: nat -> bool, path: string, es: seq<Entry>,
                                                      pPy: bool, pRoot: bool, st: ScanState)
    requires pPy || pRoot
    ensures VisitChildren(s, cfg, running, path, es, pPy, pRoot, st).found == st.found
    decreases es
  {
    if es != [] && running(st.polls) {
      var st1 := st.(polls := st.polls + 1);
      var st2 := Child(s, cfg, running, path, es[0], pPy, pRoot, st1);
      assert VisitChildren(s, cfg, running, path, es, pPy, pRoot, st)
          == VisitChildren(s, cfg, running, path, es[1..], pPy, pRoot, st2);
      FlaggedChildFindsNothing(s, cfg, running, path, es[0], pPy, pRoot, st1);
      FlaggedChildrenFindNothing(s, cfg, running, path, es[1..], pPy, pRoot, st2);
    }
  }

  lemma {:induction false} FlaggedChildFindsNothing(s: Settings, cfg: Config, running: nat -> bool, path: string, e: Entry,
                                                    pPy: bool, pRoot: bool, st: ScanState)
    requires pPy || pRoot
    ensures Child(s, cfg, running, path, e, pPy, pRoot, st).found == st.found
    decreases e
  {
    if e.node.Dir? && e.name !in s.ignoreDirs {
      FlaggedVisitFindsNothing(s, cfg, running, Join(path, e.name), e.node, pPy, pRoot, st);
    }
  }

  /** If the chosen root itself matches either classifier, the scan reports no project at all. */
  lemma RootMatchFindsNothing(s: Settings, cfg: Config, running: nat -> bool, rootPath: string, root: Node,
                              events0: seq<Event>, polls0: nat)
    requires root.Dir?
    requires PythonMatch(s, rootPath, root).Some? || RootMatch(s, rootPath, root).Some?
    ensures Scan(s, cfg, running, rootPath, Some(root), events0, polls0).found == []
  {
    var st := ScanState([], events0 + [SearchStarted], polls0);
    if running(polls0) && |rootPath| <= 255 && root.listable {
      var st2 := Announce(rootPath, PythonMatch(s, rootPath, root), RootMatch(s, rootPath, root), st);
      assert Visit(s, cfg, running, rootPath, root, true, false, false, st)
          == VisitChildren(s, cfg, running, rootPath, root.entries, PythonMatch(s, rootPath, root).Some?, RootMatch(s, rootPath, root).Some?, st2);
      FlaggedChildrenFindNothing(s, cfg, running, rootPath, root.entries, PythonMatch(s, rootPath, root).Some?, RootMatch(s, rootPath, root).Some?, st2);
    }
  }

  /** Properties every project a scan appends has. */
  predicate FoundBelow(root: string, strictly: bool, p: Project)
  {
    && root <= p.path
    && (if strictly then |root| < |p.path| else |root| <= |p.path|)
    && |p.path| <= 255
    && p.fileCount == |p.pythonFiles|
  }

  /** The projects `r` holds beyond those of `st` all satisfy `FoundBelow(root, strictly, _)`. */
  predicate AddsBelow(root: string, strictly: bool, st: ScanState, r: ScanState)
  {
    |st.found| <= |r.found| && forall k :: |st.found| <= k < |r.found| ==> FoundBelow(root, strictly, r.found[k])
  }

  lemma AddsBelowChain(root: string, strictly: bool, a: ScanState, b: ScanState, c: ScanState)
    requires AddsBelow(root, strictly, a, b) && AddsBelow(root, strictly, b, c) && Extends(b, c)
    ensures AddsBelow(root, strictly, a, c)
  {
    forall k | |a.found| <= k < |b.found|
      ensures c.found[k] == b.found[k]
    {
      assert c.found[..|b.found|][k] == c.found[k];
    }
  }

  /**
   * Every project found lies on a path that extends the one where the walk
   * started (strictly longer for the root walk, so the root itself is never
   * a project), no longer than 255 characters, and has `file_count` equal to
   * the number of its Python files.
   */
  lemma {:induction false} VisitFindsBelow(s: Settings, cfg: Config, running: nat -> bool, path: string, n: Node,
                                           isRoot: bool, pPy: bool, pRoot: bool, st: ScanState)
    requires n.Dir? && WellFormed(n)
    ensures AddsBelow(path, isRoot, st, Visit(s, cfg, running, path, n, isRoot, pPy, pRoot, st))
    decreases n
  {
    var r := Visit(s, cfg, running, path, n, isRoot, pPy, pRoot, st);
    if running(st.polls) && |path| <= 255 {
      var py := PythonMatch(s, path, n);
      var rt := RootMatch(s, path, n);
      var st2 := Announce(path, py, rt, st);
      if BecomesProject(isRoot, py.Some?, rt.Some?, pPy, pRoot) {
        if n.listable {
          AnalyzeCollects(Created(path, Some(n)), Some(n), cfg);
        }
      } else if n.listable {
        ChildrenFindBelow(s, cfg, running, path, n.entries, pPy || py.Some?, pRoot || rt.Some?, st2);
        assert AddsBelow(path, true, st, r);
      }
    }
  }

  lemma {:induction false} ChildrenFindBelow(s: Settings, cfg: Config, running: nat -> bool, path: string, es: seq<Entry>,
                                             pPy: bool, pRoot: bool, st: ScanState)
    requires forall i :: 0 <= i < |es| ==> IsName(es[i].name) && WellFormed(es[i].node)
    ensures AddsBelow(path, true, st, VisitChildren(s, cfg, running, path, es, pPy, pRoot, st))
    decreases es
  {
    var r := VisitChildren(s, cfg, running, path, es, pPy, pRoot, st);
    if es != [] && running(st.polls) {
      var st2 := Child(s, cfg, running, path, es[0], pPy, pRoot, st.(polls := st.polls + 1));
      assert r == VisitChildren(s, cfg, running, path, es[1..], pPy, pRoot, st2);
      ChildFindsBelow(s, cfg, running, path, es[0], pPy, pRoot, st);
      ChildrenFindBelow(s, cfg, running, path, es[1..], pPy, pRoot, st2);
      VisitChildrenExtends(s, cfg, running, path, es[1..], pPy, pRoot, st2);
      AddsBelowChain(path, true, st, st2, r);
    }
  }

  lemma {:induction false} ChildFindsBelow(s: Settings, cfg: Config, running: nat -> bool, path: string, e: Entry,
                                           pPy: bool, pRoot: bool, st: ScanState)
    requires IsName(e.name) && WellFormed(e.node)
    ensures AddsBelow(path, true, st, Child(s, cfg, running, path, e, pPy, pRoot, st.(polls := st.polls + 1)))
    decreases e
  {
    if e.node.Dir? && e.name !in s.ignoreDirs {
      VisitFindsBelow(s, cfg, running, Join(path, e.name), e.node, false, pPy, pRoot, st.(polls := st.polls + 1));
      assert |path| < |Join(path, e.name)|;
    }
  }

  /** The chosen root is never reported as a project. */
  lemma RootIsNeverAProject(s: Settings, cfg: Config, running: nat -> bool, rootPath: string, at: Option<Node>,
                            events0: seq<Event>, polls0: nat)
    requires at.Some? ==> WellFormed(at.value)
    ensures forall p :: p in Scan(s, cfg, running, rootPath, at, events0, polls0).found ==> p.path != rootPath && |p.path| <= 255
  {
    if at.Some? && at.value.Dir? {
      VisitFindsBelow(s, cfg, running, rootPath, at.value, true, false, false, ScanState([], events0 + [SearchStarted], polls0));
    }
  }

  /**
   * A directory that becomes a project is a leaf of the walk: the call
   * appends exactly that one project and announces no directory but itself.
   */
  lemma ProjectIsLeaf(s: Settings, cfg: Config, running: nat -> bool, path: string, n: Node,
                      pPy: bool, pRoot: bool, st: ScanState)
    requires n.Dir? && n.listable && running(st.polls) && |path| <= 255 && !(pPy || pRoot)
    requires PythonMatch(s, path, n).Some? || RootMatch(s, path, n).Some?
    ensures var r := Visit(s, cfg, running, path, n, false, pPy, pRoot, st);
            && r.found == st.found + [Analysed(cfg, path, n).project]
            && Analysed(cfg, path, n).project.path == path
            && ScannedDirs(Added(st, r)) == [path]
  {
    var r := Visit(s, cfg, running, path, n, false, pPy, pRoot, st);
    var py, rt := PythonMatch(s, path, n), RootMatch(s, path, n);
    var st2 := Announce(path, py, rt, st);
    AnalysedListable(cfg, path, n);
    assert r == KeepProject(Analysed(cfg, path, n), st2);
    AnnounceNotices(path, py, rt, st);
    KeepProjectNotices(Analysed(cfg, path, n), st2);
    AddedChain(st, st2, r);
  }

  /**
   * The directories a walk from `path` may announce: `path` itself, and,
   * when `path` is at most 255 characters long and can be listed, the
   * directories reachable through listed subdirectories whose names are not
   * ignored.
   */
  predicate Reachable(ignoreDirs: seq<string>, path: string, n: Node, q: string)
    decreases n
  {
    q == path
    || (n.Dir? && n.listable && |path| <= 255
        && exists i :: 0 <= i < |n.entries| && ChildReaches(ignoreDirs, path, n.entries[i], q))
  }

  predicate ChildReaches(ignoreDirs: seq<string>, path: string, e: Entry, q: string)
    decreases e
  {
    e.node.Dir? && e.name !in ignoreDirs && Reachable(ignoreDirs, Join(path, e.name), e.node, q)
  }

  /** The directories announced by `directory_scanning`, in order. */
  function ScannedDirs(evs: seq<Event>): seq<string>
  {
    if evs == [] then []
    else
      var e := evs[|evs| - 1];
      ScannedDirs(evs[..|evs| - 1]) + (if e.DirectoryScanning? then [e.path] else [])
  }

  /** The projects announced by `project_found`, in order. */
  function FoundIn(evs: seq<Event>): seq<Project>
  {
    if evs == [] then []
    else
      var e := evs[|evs| - 1];
      FoundIn(evs[..|evs| - 1]) + (if e.ProjectFound? then [e.project] else [])
  }

  /** The projects `r` holds beyond those of `st`. */
  function NewlyFound(st: ScanState, r: ScanState): seq<Project>
    requires |st.found| <= |r.found|
  {
    r.found[|st.found|..]
  }

  lemma {:induction false} NoticesAppend(a: seq<Event>, b: seq<Event>)
    ensures ScannedDirs(a + b) == ScannedDirs(a) + ScannedDirs(b)
    ensures FoundIn(a + b) == FoundIn(a) + FoundIn(b)
  {
    if b == [] {
      AppendEmpty(a);
      AppendEmpty(FoundIn(a));
      AppendEmpty(ScannedDirs(a));
    } else {
      var e := b[|b| - 1];
      NoticesAppend(a, b[..|b| - 1]);
      DropLastAppend(a, b);
      AppendAssoc(ScannedDirs(a), ScannedDirs(b[..|b| - 1]), if e.DirectoryScanning? then [e.path] else []);
      AppendAssoc(FoundIn(a), FoundIn(b[..|b| - 1]), if e.ProjectFound? then [e.project] else []);
    }
  }

  lemma SingleNotice(e: Event)
    ensures ScannedDirs([e]) == (if e.DirectoryScanning? then [e.path] else [])
    ensures FoundIn([e]) == (if e.ProjectFound? then [e.project] else [])
  {
    assert [e][..0] == [];
  }

  lemma {:induction false} FilesScannedNotices(paths: seq<string>)
    ensures ScannedDirs(FilesScanned(paths)) == [] && FoundIn(FilesScanned(paths)) == []
  {
    if paths != [] {
      FilesScannedNotices(paths[1..]);
      NoticesAppend([FileScanning(paths[0])], FilesScanned(paths[1..]));
      assert [FileScanning(paths[0])][..0] == [];
    }
  }

  /** The notifications a step emitted. */
  function Added(st: ScanState, r: ScanState): seq<Event>
    requires |st.events| <= |r.events|
  {
    r.events[|st.events|..]
  }

  lemma AddedChain(a: ScanState, b: ScanState, c: ScanState)
    requires Extends(a, b) && Extends(b, c)
    ensures Extends(a, c)
    ensures ScannedDirs(Added(a, c)) == ScannedDirs(Added(a, b)) + ScannedDirs(Added(b, c))
    ensures FoundIn(Added(a, c)) == FoundIn(Added(a, b)) + FoundIn(Added(b, c))
  {
    ExtendsTrans(a, b, c);
    assert Added(a, c) == Added(a, b) + Added(b, c);
    NoticesAppend(Added(a, b), Added(b, c));
  }

  /** The classification step announces exactly `path` and no project. */
  lemma AnnounceNotices(path: string, py: Option<string>, rt: Option<string>, st: ScanState)
    ensures var r := Announce(path, py, rt, st);
      && Extends(st, r) && r.found == st.found
      && ScannedDirs(Added(st, r)) == [path] && FoundIn(Added(st, r)) == []
  {
    var r := Announce(path, py, rt, st);
    assert Added(st, r) == [DirectoryScanning(path)] + Reported(py) + Reported(rt);
    NoticesAppend([DirectoryScanning(path)], Reported(py));
    NoticesAppend([DirectoryScanning(path)] + Reported(py), Reported(rt));
    assert [DirectoryScanning(path)][..0] == [];
  }

  /** The project step announces no directory and one `project_found` per project kept. */
  lemma KeepProjectNotices(a: Analysis, st: ScanState)
    ensures var r := KeepProject(a, st);
      && Extends(st, r) && |r.found| <= |st.found| + 1
      && ScannedDirs(Added(st, r)) == [] && FoundIn(Added(st, r)) == NewlyFound(st, r)
  {
    var r := KeepProject(a, st);
    if a.raised {
      assert Added(st, r) == [];
      DropEnds(st.found);
    } else {
      DropPrefix(st.found, [a.project]);
      assert Added(st, r) == FilesScanned(a.observed) + [ProjectFound(a.project)];
      FilesScannedNotices(a.observed);
      NoticesAppend(FilesScanned(a.observed), [ProjectFound(a.project)]);
      assert [ProjectFound(a.project)][..0] == [];
    }
  }

  /**
   * The walk never enters a non-directory, a subdirectory named in the
   * ignore list, a directory it cannot list, or anything below a path
   * longer than 255 characters; and each project it keeps is announced by
   * exactly one `project_found` notification.
   */
  lemma {:induction false} VisitNotices(s: Settings, cfg: Config, running: nat -> bool, path: string, n: Node,
                                        isRoot: bool, pPy: bool, pRoot: bool, st: ScanState)
    requires n.Dir?
    ensures Noticed(s.ignoreDirs, path, n, st, Visit(s, cfg, running, path, n, isRoot, pPy, pRoot, st))
    decreases n, 1
  {
    var r := Visit(s, cfg, running, path, n, isRoot, pPy, pRoot, st);
    if !running(st.polls) {
      assert r.events[..|st.events|] == st.events;
      assert Added(st, r) == [];
    } else if |path| > 255 {
      assert r.events[..|st.events|] == st.events;
      assert Added(st, r) == [DirectoryScanning(path)];
      SingleNotice(DirectoryScanning(path));
    } else {
      ClassifiedNotices(s, cfg, running, path, n, isRoot, pPy, pRoot, st);
    }
  }

  /** A directory that is classified: announced, then either kept as a project or descended into. */
  lemma {:induction false} ClassifiedNotices(s: Settings, cfg: Config, running: nat -> bool, path: string, n: Node,
                                             isRoot: bool, pPy: bool, pRoot: bool, st: ScanState)
    requires n.Dir? && running(st.polls) && |path| <= 255
    ensures Noticed(s.ignoreDirs, path, n, st, Visit(s, cfg, running, path, n, isRoot, pPy, pRoot, st))
    decreases n, 0
  {
    var r := Visit(s, cfg, running, path, n, isRoot, pPy, pRoot, st);
    var py := PythonMatch(s, path, n);
    var rt := RootMatch(s, path, n);
    var st2 := Announce(path, py, rt, st);
    AnnounceNotices(path, py, rt, st);
    assert Noticed(s.ignoreDirs, path, n, st, st2);
    if BecomesProject(isRoot, py.Some?, rt.Some?, pPy, pRoot) {
      assert r == KeepProject(Analysed(cfg, path, n), st2);
      KeepProjectNotices(Analysed(cfg, path, n), st2);
      NoticedChain(s.ignoreDirs, path, n, st, st2, r);
    } else if n.listable {
      assert r == VisitChildren(s, cfg, running, path, n.entries, pPy || py.Some?, pRoot || rt.Some?, st2);
      ChildrenNotices(s, cfg, running, path, n, n.entries, pPy || py.Some?, pRoot || rt.Some?, st2);
      NoticedChain(s.ignoreDirs, path, n, st, st2, r);
    }
  }

  lemma {:induction false} ChildrenNotices(s: Settings, cfg: Config, running: nat -> bool, path: string, n: Node,
                                           es: seq<Entry>, pPy: bool, pRoot: bool, st: ScanState)
    requires n.Dir? && n.listable && |path| <= 255
    requires forall i :: 0 <= i < |es| ==> es[i] in n.entries
    ensures Noticed(s.ignoreDirs, path, n, st, VisitChildren(s, cfg, running, path, es, pPy, pRoot, st))
    decreases es
  {
    var r := VisitChildren(s, cfg, running, path, es, pPy, pRoot, st);
    if es == [] || !running(st.polls) {
      assert Added(st, r) == [];
    } else {
      var st2 := Child(s, cfg, running, path, es[0], pPy, pRoot, st.(polls := st.polls + 1));
      assert r == VisitChildren(s, cfg, running, path, es[1..], pPy, pRoot, st2);
      ChildNotices(s, cfg, running, path, n, es[0], pPy, pRoot, st);
      ChildrenNotices(s, cfg, running, path, n, es[1..], pPy, pRoot, st2);
      NoticedChain(s.ignoreDirs, path, n, st, st2, r);
    }
  }

  /** One entry, counting the flag read before it. */
  lemma {:induction false} ChildNotices(s: Settings, cfg: Config, running: nat -> bool, path: string, n: Node,
                                        e: Entry, pPy: bool, pRoot: bool, st: ScanState)
    requires n.Dir? && n.listable && |path| <= 255 && e in n.entries
    ensures Noticed(s.ignoreDirs, path, n, st, Child(s, cfg, running, path, e, pPy, pRoot, st.(polls := st.polls + 1)))
    decreases e
  {
    var st1 := st.(polls := st.polls + 1);
    var r := Child(s, cfg, running, path, e, pPy, pRoot, st1);
    if e.node.Dir? && e.name !in s.ignoreDirs {
      VisitNotices(s, cfg, running, Join(path, e.name), e.node, false, pPy, pRoot, st1);
      assert Added(st, r) == Added(st1, r);
      forall q | q in ScannedDirs(Added(st, r))
        ensures Reachable(s.ignoreDirs, path, n, q)
      {
        var i :| 0 <= i < |n.entries| && n.entries[i] == e;
        assert ChildReaches(s.ignoreDirs, path, n.entries[i], q);
      }
    } else {
      assert Added(st, r) == [];
    }
  }

  /** Every directory in `dirs` may be announced by a walk from `path`. */
  predicate AllReachable(ignoreDirs: seq<string>, path: string, n: Node, dirs: seq<string>)
  {
    forall q :: q in dirs ==> Reachable(ignoreDirs, path, n, q)
  }

  /**
   * What a walk from `path` over `n` may do between the states `st` and `r`:
   * only append, announce only directories it may enter, and announce the
   * projects it keeps, in order, each with one `project_found`.
   */
  predicate Noticed(ignoreDirs: seq<string>, path: string, n: Node, st: ScanState, r: ScanState)
  {
    && Extends(st, r)
    && AllReachable(ignoreDirs, path, n, ScannedDirs(Added(st, r)))
    && FoundIn(Added(st, r)) == NewlyFound(st, r)
  }

  lemma NoticedChain(ignoreDirs: seq<string>, path: string, n: Node, a: ScanState, b: ScanState, c: ScanState)
    requires Noticed(ignoreDirs, path, n, a, b) && Noticed(ignoreDirs, path, n, b, c)
    ensures Noticed(ignoreDirs, path, n, a, c)
  {
    AddedChain(a, b, c);
    PrefixSlices(a.found, b.found, c.found);
    var d1, d2 := ScannedDirs(Added(a, b)), ScannedDirs(Added(b, c));
    assert forall q :: q in d1 + d2 ==> q in d1 || q in d2;
  }

  /** The notifications of a scan that reached the walk: the start, what the walk added, the finish. */
  lemma ScanTail(events0: seq<Event>, st0: ScanState, v: ScanState)
    requires st0.events == events0 + [SearchStarted] && Extends(st0, v)
    ensures var evs := v.events + [SearchFinished(|v.found|)];
      && evs[..|events0|] == events0
      && ScannedDirs(evs[|events0|..]) == ScannedDirs(Added(st0, v))
      && FoundIn(evs[|events0|..]) == FoundIn(Added(st0, v))
  {
    var mid, fin := Added(st0, v), SearchFinished(|v.found|);
    assert v.events == v.events[..|st0.events|] + mid;
    var t := [SearchStarted] + mid + [fin];
    assert v.events + [fin] == events0 + t;
    NoticesAppend([SearchStarted], mid);
    NoticesAppend([SearchStarted] + mid, [fin]);
    SingleNotice(SearchStarted);
    SingleNotice(SearchFinished(|v.found|));
  }

  /** The notifications of a scan that stopped at the root: the start, the error, the finish. */
  lemma ErrorTail(err: Event)
    requires err.SearchError?
    ensures ScannedDirs([SearchStarted, err, SearchFinished(0)]) == []
    ensures FoundIn([SearchStarted, err, SearchFinished(0)]) == []
  {
    var t := [SearchStarted, err, SearchFinished(0)];
    assert t[..2] == [SearchStarted, err];
    assert t[..2][..1] == [SearchStarted];
    SingleNotice(SearchStarted);
  }

  /**
   * A whole scan: the notifications it adds announce exactly the projects
   * found, in order, and name only directories the walk may enter from the root.
   */
  lemma ScanNotices(s: Settings, cfg: Config, running: nat -> bool, rootPath: string, at: Option<Node>,
                    events0: seq<Event>, polls0: nat)
    ensures var r := Scan(s, cfg, running, rootPath, at, events0, polls0);
      && |events0| <= |r.events| && r.events[..|events0|] == events0
      && FoundIn(r.events[|events0|..]) == r.found
      && forall q :: q in ScannedDirs(r.events[|events0|..]) ==> at.Some? && Reachable(s.ignoreDirs, rootPath, at.value, q)
  {
    var r := Scan(s, cfg, running, rootPath, at, events0, polls0);
    if !Exists(at) || !at.value.Dir? {
      var err := SearchError(if !Exists(at) then NotFound(rootPath) else NotADirectory(rootPath));
      assert r.events == events0 + [SearchStarted, err, SearchFinished(0)];
      assert r.events[|events0|..] == [SearchStarted, err, SearchFinished(0)];
      ErrorTail(err);
    } else {
      var st0 := ScanState([], events0 + [SearchStarted], polls0);
      var v := Visit(s, cfg, running, rootPath, at.value, true, false, false, st0);
      VisitNotices(s, cfg, running, rootPath, at.value, true, false, false, st0);
      ScanTail(events0, st0, v);
      DropEnds(v.found);
    }
  }

  // ---------------------------------------------------------------- the finder object

  /** The JSON document of an export: `{"python_projects": [...]}`; None for an absent key. */
  datatype Document = Document(pythonProjects: Option<seq<ProjectDict>>)

  /** `load_from_json` after parsing: the records read before the first one that fails, and whether one failed. */
  function LoadRecords(ds: seq<ProjectDict>, lookup: string -> Option<Node>): (r: (seq<Project>, bool))
    ensures |r.0| <= |ds|
    ensures !r.1 ==> |r.0| == |ds|
  {
    if ds == [] then ([], false)
    else if ds[0].path.None? then ([], true)
    else
      var p := FromDict(ds[0], lookup(ds[0].path.value));
      var rest := LoadRecords(ds[1..], lookup);
      ([p.value] + rest.0, rest.1)
  }

  /** The first project an import keeps is `from_dict` of the first record. */
  lemma LoadFirst(ds: seq<ProjectDict>, lookup: string -> Option<Node>)
    requires 0 < |LoadRecords(ds, lookup).0|
    ensures ds[0].path.Some? && LoadRecords(ds, lookup).0[0] == FromDict(ds[0], lookup(ds[0].path.value)).value
  {
  }

  /** Past the first record, an import carries on as an import of the rest, one position down. */
  lemma LoadShift(ds: seq<ProjectDict>, lookup: string -> Option<Node>, k: nat)
    requires 0 < k < |LoadRecords(ds, lookup).0|
    ensures k - 1 < |LoadRecords(ds[1..], lookup).0| && ds[1..][k - 1] == ds[k]
    ensures LoadRecords(ds, lookup).0[k] == LoadRecords(ds[1..], lookup).0[k - 1]
  {
  }

  /** The project an import keeps at position `k` is `from_dict` of the record at `k`. */
  lemma {:induction false} LoadReadsAt(ds: seq<ProjectDict>, lookup: string -> Option<Node>, k: nat)
    requires k < |LoadRecords(ds, lookup).0|
    ensures ds[k].path.Some? && LoadRecords(ds, lookup).0[k] == FromDict(ds[k], lookup(ds[k].path.value)).value
    decreases k
  {
    if k == 0 {
      LoadFirst(ds, lookup);
    } else {
      LoadShift(ds, lookup, k);
      LoadReadsAt(ds[1..], lookup, k - 1);
    }
  }

  /** A failed import stops at a record without a path, right after the projects it kept. */
  lemma {:induction false} LoadStopsAtPathless(ds: seq<ProjectDict>, lookup: string -> Option<Node>)
    ensures var r := LoadRecords(ds, lookup);
      r.1 ==> |r.0| < |ds| && ds[|r.0|].path.None?
  {
    if ds != [] && ds[0].path.Some? {
      LoadStopsAtPathless(ds[1..], lookup);
      var rest := LoadRecords(ds[1..], lookup);
      if rest.1 {
        assert ds[1..][|rest.0|] == ds[|rest.0| + 1];
      }
    }
  }

  /**
   * Importing fails iff some record has no path. It then stops at the first
   * such record, and every project it keeps is `from_dict` of the record at
   * the same position.
   */
  lemma LoadRecordsExactly(ds: seq<ProjectDict>, lookup: string -> Option<Node>)
    ensures var r := LoadRecords(ds, lookup);
      && (r.1 <==> exists i :: 0 <= i < |ds| && ds[i].path.None?)
      && (r.1 ==> |r.0| < |ds| && ds[|r.0|].path.None?)
      && forall i :: 0 <= i < |r.0| ==> ds[i].path.Some? && r.0[i] == FromDict(ds[i], lookup(ds[i].path.value)).value
  {
    var r := LoadRecords(ds, lookup);
    LoadStopsAtPathless(ds, lookup);
    forall i | 0 <= i < |r.0|
      ensures ds[i].path.Some? && r.0[i] == FromDict(ds[i], lookup(ds[i].path.value)).value
    {
      LoadReadsAt(ds, lookup, i);
    }
  }

  /** One `project_found` per project, in order: what `load_from_json` emits for the records it reads. */
  function Announcements(ps: seq<Project>): seq<Event>
  {
    if ps == [] then [] else Announcements(ps[..|ps| - 1]) + [ProjectFound(ps[|ps| - 1])]
  }

  /** Announcing the projects read and then one more announces that one last. */
  lemma AnnouncementsSnoc(ps: seq<Project>, p: Project)
    ensures Announcements(ps + [p]) == Announcements(ps) + [ProjectFound(p)]
  {
    DropLastAppend(ps, [p]);
    AppendEmpty(ps);
  }

  /** The announcements of an import name exactly the projects it read, in order. */
  lemma {:induction false} AnnouncementsFound(ps: seq<Project>)
    ensures FoundIn(Announcements(ps)) == ps
    ensures ScannedDirs(Announcements(ps)) == []
  {
    if ps != [] {
      var front := ps[..|ps| - 1];
      AnnouncementsFound(front);
      NoticesAppend(Announcements(front), [ProjectFound(ps[|ps| - 1])]);
      SingleNotice(ProjectFound(ps[|ps| - 1]));
      SplitLast(ps);
      AppendEmpty(ScannedDirs(Announcements(front)));
    }
  }

  /** The list `save_to_json` hands to `json.dump`, one corrected `to_dict` per project in list order. */
  function SaveRecords(ps: seq<Project>): (r: seq<ProjectDict>)
    ensures |r| == |ps|
    ensures forall i :: 0 <= i < |ps| ==> r[i] == ToDict(ps[i])
  {
    if ps == [] then [] else [ToDict(ps[0])] + SaveRecords(ps[1..])
  }

  /**
   * The list comprehension of `save_to_json` as written: it runs before the
   * `try`, so the first `to_dict` that raises ends the export with that error
   * instead of a False result.
   */
  function SaveRecordsAsWritten(ps: seq<Project>): (r: Result<seq<ProjectDict>, PyError>)
    ensures r.Err? <==> exists i :: 0 <= i < |ps| && ToDictAsWritten(ps[i]).Err?
    ensures r.Ok? ==> r.value == SaveRecords(ps)
  {
    if ps == [] then Ok([])
    else
      var rest := SaveRecordsAsWritten(ps[1..]);
      assert forall i :: 1 <= i < |ps| ==> ps[i] == ps[1..][i - 1];
      match ToDictAsWritten(ps[0])
      case Err(e) => Err(e)
      case Ok(d) => if rest.Err? then Err(rest.error) else Ok([d] + rest.value)
  }

  /** The records from position `i`: stop at a record that fails to load, or keep it and go on. */
  lemma LoadStep(ds: seq<ProjectDict>, i: nat, lookup: string -> Option<Node>, r: Result<Project, PyError>)
    requires i < |ds| && r == FromDict(ds[i], if ds[i].path.Some? then lookup(ds[i].path.value) else None)
    ensures r.Err? ==> LoadRecords(ds[i..], lookup) == ([], true)
    ensures r.Ok? ==> LoadRecords(ds[i..], lookup)
                      == ([r.value] + LoadRecords(ds[i + 1..], lookup).0, LoadRecords(ds[i + 1..], lookup).1)
  {
    assert ds[i..][0] == ds[i] && ds[i..][1..] == ds[i + 1..];
  }

  /**
   * Exporting and importing again gives the same list, in the same order,
   * with every serialised attribute of each project preserved.
   */
  lemma {:induction false} SaveLoadRoundTrip(ps: seq<Project>, lookup: string -> Option<Node>)
    ensures var r := LoadRecords(SaveRecords(ps), lookup);
      && !r.1 && |r.0| == |ps|
      && forall i :: 0 <= i < |ps| ==> Restored(r.0[i], ps[i])
  {
    if ps != [] {
      var d := SaveRecords(ps);
      SaveLoadRoundTrip(ps[1..], lookup);
      DictRoundTrip(ps[0], lookup(ps[0].path));
      assert d[0] == ToDict(ps[0]) && d[1..] == SaveRecords(ps[1..]);
      var r := LoadRecords(d, lookup);
      var rest := LoadRecords(d[1..], lookup);
      assert r.0 == [FromDict(ToDict(ps[0]), lookup(ps[0].path)).value] + rest.0 && r.1 == rest.1;
      forall i | 0 <= i < |ps| ensures Restored(r.0[i], ps[i]) {
        if i > 0 {
          assert r.0[i] == rest.0[i - 1] && ps[i] == ps[1..][i - 1];
        }
      }
    }
  }

  class FinderModel {
    /** The module constants the project analysis and the grouping read. */
    const cfg: Config
    var ignoreDirs: seq<string>
    var pythonExtensions: seq<string>
    var projectRootFiles: seq<string>
    var ignoredFileExtensions: seq<string>
    var projects: seq<Project>
    /** Every notification emitted so far, oldest first. */
    var events: seq<Event>
    /** How many times the cancellation flag has been read. */
    var polls: nat

    function CurrentSettings(): Settings
      reads this
    {
      Settings(ignoreDirs, pythonExtensions, projectRootFiles, ignoredFileExtensions)
    }

    function State(): ScanState
      reads this
    {
      ScanState(projects, events, polls)
    }

    constructor (cfg: Config)
      ensures this.cfg == cfg && projects == [] && events == [] && polls == 0
      ensures CurrentSettings() == Settings(cfg.ignoredDirectories, cfg.pythonExtensions, cfg.projectRootFiles, cfg.ignoredFileExtensions)
    {
      this.cfg := cfg;
      ignoreDirs := cfg.ignoredDirectories;
      pythonExtensions := cfg.pythonExtensions;
      projectRootFiles := cfg.projectRootFiles;
      ignoredFileExtensions := cfg.ignoredFileExtensions;
      projects, events, polls := [], [], 0;
    }

    /** `find_projects_recursive`. */
    method FindProjectsRecursive(path: string, n: Node, isRoot: bool, parentPython: bool, parentProjectRoot: bool,
                                 running: nat -> bool)
      requires n.Dir?
      modifies this`projects, this`events, this`polls
      ensures State() == Visit(CurrentSettings(), cfg, running, path, n, isRoot, parentPython, parentProjectRoot, old(State()))
      decreases n
    {
      if !running(polls) {
        polls := polls + 1;
        return;
      }
      polls := polls + 1;
      events := events + [DirectoryScanning(path)];
      if |path| > 255 {
        return;
      }
      var isPython := IsPythonProject(path, n, pythonExtensions, ignoredFileExtensions);
      var isProjectRoot := IsProjectRoot(path, n, projectRootFiles, ignoredFileExtensions);
      events := events + Reported(isPython) + Reported(isProjectRoot);
      assert State() == Announce(path, isPython, isProjectRoot, old(State()));
      if BecomesProject(isRoot, isPython.Some?, isProjectRoot.Some?, parentPython, parentProjectRoot) {
        AddProject(path, n);
      } else if n.listable {
        VisitEntries(path, n.entries, parentPython || isPython.Some?, parentProjectRoot || isProjectRoot.Some?, running);
      }
    }

    /** The project branch: build and analyse the project, keep it unless the analysis raised. */
    method AddProject(path: string, n: Node)
      requires n.Dir?
      modifies this`projects, this`events
      ensures projects == KeepProject(Analysed(cfg, path, n), old(State())).found
      ensures events == KeepProject(Analysed(cfg, path, n), old(State())).events
    {
      var project := new ProjectModel(path, Some(n));
      var observed, raised := project.AnalyzeProject(Some(n), cfg);
      if !raised {
        events := events + FilesScanned(observed);
        var value := project.Value();
        projects := projects + [value];
        events := events + [ProjectFound(value)];
      }
    }

    /** The loop of `find_projects_recursive` over one directory's listing. */
    method VisitEntries(path: string, es: seq<Entry>, parentPython: bool, parentProjectRoot: bool, running: nat -> bool)
      modifies this`projects, this`events, this`polls
      ensures State() == VisitChildren(CurrentSettings(), cfg, running, path, es, parentPython, parentProjectRoot, old(State()))
      decreases es
    {
      ghost var goal := VisitChildren(CurrentSettings(), cfg, running, path, es, parentPython, parentProjectRoot, State());
      var i := 0;
      while i < |es|
        invariant 0 <= i <= |es|
        invariant VisitChildren(CurrentSettings(), cfg, running, path, es[i..], parentPython, parentProjectRoot, State()) == goal
      {
        ChildrenStep(CurrentSettings(), cfg, running, path, es, i, parentPython, parentProjectRoot, State());
        if !running(polls) {
          polls := polls + 1;
          return;
        }
        polls := polls + 1;
        var e := es[i];
        if e.node.Dir? && e.name !in ignoreDirs {
          FindProjectsRecursive(Join(path, e.name), e.node, false, parentPython, parentProjectRoot, running);
        }
        i := i + 1;
      }
    }

    /** `find_python_projects`: returns the list it accumulated. */
    method FindPythonProjects(rootPath: string, at: Option<Node>, running: nat -> bool) returns (result: seq<Project>)
      modifies this`projects, this`events, this`polls
      ensures State() == Scan(CurrentSettings(), cfg, running, rootPath, at, old(events), old(polls))
      ensures result == projects
      ensures events[|events| - 1] == SearchFinished(|projects|)
    {
      projects := [];
      events := events + [SearchStarted];
      if !Exists(at) {
        events := events + [SearchError(NotFound(rootPath)), SearchFinished(0)];
        return projects;
      }
      if !at.value.Dir? {
        events := events + [SearchError(NotADirectory(rootPath)), SearchFinished(0)];
        return projects;
      }
      FindProjectsRecursive(rootPath, at.value, true, false, false, running);
      events := events + [SearchFinished(|projects|)];
      result := projects;
    }

    /**
     * `save_to_json` without the file: the document it would write, with the
     * corrected `to_dict`. Wherever the export as written succeeds, the two agree.
     */
    function SaveDocument(): (d: Document)
      reads this
      ensures d.pythonProjects.Some? && |d.pythonProjects.value| == |projects|
      ensures forall i :: 0 <= i < |projects| ==> d.pythonProjects.value[i] == ToDict(projects[i])
      ensures SaveRecordsAsWritten(projects).Ok? ==> d.pythonProjects == Some(SaveRecordsAsWritten(projects).value)
    {
      Document(Some(SaveRecords(projects)))
    }

    /**
     * `load_from_json` after parsing. The list is reset first; when a record
     * has no path the error is reported and the records read before it stay.
     */
    method LoadDocument(doc: Document, lookup: string -> Option<Node>) returns (ok: bool)
      modifies this`projects, this`events
      ensures var r := LoadRecords(doc.pythonProjects.GetOr([]), lookup);
              projects == r.0 && ok == !r.1
      ensures events == old(events) + Announcements(projects) + [if ok then SearchFinished(|projects|) else SearchError(LoadFailed)]
    {
      var ds := doc.pythonProjects.GetOr([]);
      var loaded, notices, failed := ReadRecords(ds, lookup);
      projects := loaded;
      AppendAssoc(old(events), Announcements(loaded), [SearchError(LoadFailed)]);
      AppendEmpty(Announcements(loaded));
      events := events + notices;
      if !failed {
        events := events + [SearchFinished(|projects|)];
      }
      ok := !failed;
    }

    /**
     * The loop of `load_from_json` over the records, on the list it fills:
     * each record read is kept and announced; the first that fails ends the
     * loop with the error notification, keeping what was read before it.
     */
    static method ReadRecords(ds: seq<ProjectDict>, lookup: string -> Option<Node>)
      returns (loaded: seq<Project>, notices: seq<Event>, failed: bool)
      ensures (loaded, failed) == LoadRecords(ds, lookup)
      ensures notices == Announcements(loaded) + (if failed then [SearchError(LoadFailed)] else [])
    {
      loaded, notices := [], [];
      var i := 0;
      DropEnds(ds);
      AppendEmpty(LoadRecords(ds, lookup).0);
      while i < |ds|
        invariant 0 <= i <= |ds|
        invariant LoadRecords(ds, lookup).0 == loaded + LoadRecords(ds[i..], lookup).0
        invariant LoadRecords(ds, lookup).1 == LoadRecords(ds[i..], lookup).1
        invariant notices == Announcements(loaded)
      {
        var r := FromDict(ds[i], if ds[i].path.Some? then lookup(ds[i].path.value) else None);
        LoadStep(ds, i, lookup, r);
        if r.Err? {
          AppendEmpty(loaded);
          notices := notices + [SearchError(LoadFailed)];
          return loaded, notices, true;
        }
        AppendAssoc(loaded, [r.value], LoadRecords(ds[i + 1..], lookup).0);
        AnnouncementsSnoc(loaded, r.value);
        loaded := loaded + [r.value];
        notices := notices + [ProjectFound(r.value)];
        i := i + 1;
      }
      AppendEmpty(loaded);
      AppendEmpty(notices);
      failed := false;
    }

    /** `find_duplicates`: every pair i < j of the found projects, scored once; those reaching the threshold, in order. */
    method FindDuplicates(rt: Ratios) returns (dups: seq<Pair>, sims: Table)
      ensures dups == Candidates(projects, rt, cfg.similarityThreshold)
      ensures sims == Similarities(map[], projects, rt)
    {
      var ps := projects;
      dups, sims := [], map[];
      var i := 0;
      while i < |ps|
        invariant 0 <= i <= |ps|
        invariant dups + Candidates(ps[i..], rt, cfg.similarityThreshold) == Candidates(ps, rt, cfg.similarityThreshold)
        invariant Similarities(sims, ps[i..], rt) == Similarities(map[], ps, rt)
      {
        assert ps[i..][1..] == ps[i + 1..];
        var row;
        row, sims := ScoreRow(ps[i], ps[i + 1..], rt, sims);
        dups := dups + row;
        i := i + 1;
      }
      assert ps[i..] == [];
    }

    /** The inner loop of `find_duplicates`: project `p` against every later one. */
    method ScoreRow(p: Project, rest: seq<Project>, rt: Ratios, sims0: Table) returns (row: seq<Pair>, sims: Table)
      ensures row == Row(p, rest, rt, cfg.similarityThreshold)
      ensures sims == RowTable(sims0, p, rest, rt)
    {
      row, sims := [], sims0;
      var j := 0;
      while j < |rest|
        invariant 0 <= j <= |rest|
        invariant row + Row(p, rest[j..], rt, cfg.similarityThreshold) == Row(p, rest, rt, cfg.similarityThreshold)
        invariant RowTable(sims, p, rest[j..], rt) == RowTable(sims0, p, rest, rt)
      {
        var similarity := Sim(p, rest[j], rt);
        RowAdvance(p, rest, j, rt, cfg.similarityThreshold, similarity, row, sims, sims0);
        sims := sims[(p.path, rest[j].path) := similarity][(rest[j].path, p.path) := similarity];
        if similarity >= cfg.similarityThreshold {
          row := row + [Pair(p, rest[j], similarity)];
        }
        j := j + 1;
      }
      assert rest[j..] == [];
    }
 
    /** `group_duplicates`: the pairs best score first, merged into groups; the groups largest first. */
    method GroupDuplicates(rt: Ratios) returns (groups: seq<Group>)
      ensures groups == GroupsOf(projects, rt, cfg.similarityThreshold)
    {
      var dups, sims := FindDuplicates(rt);
      if dups == [] {
        return [];
      }
      var sorted := SortDesc(dups, PairScore);
      var gs: seq<Group> := [];
      var processed: set<string> := {};
      var i := 0;
      while i < |sorted|
        invariant 0 <= i <= |sorted|
        invariant AbsorbAll(Grouping(gs, processed), sorted[i..]) == AbsorbAll(Grouping([], {}), sorted)
      {
        assert sorted[i..][1..] == sorted[i + 1..];
        gs, processed := AbsorbPair(gs, processed, sorted[i]);
        i := i + 1;
      }
      assert sorted[i..] == [];
      groups := SortDesc(gs, GroupSize);
    }

    /** One iteration of the loop of `group_duplicates`. */
    static method AbsorbPair(gs0: seq<Group>, processed0: set<string>, pr: Pair) returns (gs: seq<Group>, processed: set<string>)
      ensures Grouping(gs, processed) == Absorb(Grouping(gs0, processed0), pr)
    {
      gs, processed := gs0, processed0;
      var project1, project2, similarity := pr.first, pr.second, pr.score;
      if project1.path in processed && project2.path in processed {
        return;
      }
      var found := FindGroup(gs, project1.path, project2.path);
      var group := if found.Some? then gs[found.value] else Group([], map[]);
      var groupProjects := group.members;
      if project1.path !in PathList(groupProjects) {
        groupProjects := groupProjects + [project1];
        processed := processed + {project1.path};
      }
      if project2.path !in PathList(groupProjects) {
        groupProjects := groupProjects + [project2];
        processed := processed + {project2.path};
      }
      var similarities := group.similarities[(project1.path, project2.path) := similarity][(project2.path, project1.path) := similarity];
      if found.Some? {
        gs := gs[found.value := Group(groupProjects, similarities)];
      } else {
        gs := gs + [Group(groupProjects, similarities)];
      }
    }

    /** The inner search of `group_duplicates`: the first group holding either project, or none. */
    static method FindGroup(gs: seq<Group>, a: string, b: string) returns (found: Option<nat>)
      ensures found == FirstGroup(gs, a, b)
    {
      found := None;
      var k := 0;
      while k < |gs|
        invariant 0 <= k <= |gs|
        invariant forall k' :: 0 <= k' < k ==> !Holds(gs[k'], a) && !Holds(gs[k'], b)
      {
        if a in PathList(gs[k].members) || b in PathList(gs[k].members) {
          found := Some(k);
          break;
        }
        k := k + 1;
      }
    }
 
    /** `find_identical_by_hash`: the hashed projects bucketed by hash; the buckets of more than one, in key order. */
    method FindIdenticalByHash() returns (identical: seq<seq<Project>>)
      ensures identical == IdenticalGroups(projects)
    {
      var withHash := Hashed(projects);
      if withHash == [] {
        return [];
      }
      var order, hashGroups := BucketByHash(withHash);
      identical := [];
      var k := 0;
      while k < |order|
        invariant 0 <= k <= |order|
        invariant identical == Shared(order[..k], withHash)
      {
        SharedStep(order, k, withHash);
        var group := hashGroups[order[k]];
        if |group| > 1 {
          identical := identical + [group];
        }
        k := k + 1;
      }
      assert order[..|order|] == order;
    }

    /** The dictionary loop of `find_identical_by_hash`: its keys in insertion order, and its buckets. */
    static method BucketByHash(withHash: seq<Project>) returns (order: seq<string>, hashGroups: map<string, seq<Project>>)
      requires forall i :: 0 <= i < |withHash| ==> HasHash(withHash[i])
      ensures Buckets(withHash, order, hashGroups)
    {
      order, hashGroups := [], map[];
      var i := 0;
      while i < |withHash|
        invariant 0 <= i <= |withHash|
        invariant Buckets(withHash[..i], order, hashGroups)
      {
        var project := withHash[i];
        var h := project.folderHash.value;
        assert withHash[..i + 1] == withHash[..i] + [project];
        BucketsSnoc(withHash[..i], project, order, hashGroups);
        if h in hashGroups {
          hashGroups := hashGroups[h := hashGroups[h] + [project]];
        } else {
          hashGroups := hashGroups[h := [project]];
          order := order + [h];
        }
        i := i + 1;
      }
      assert withHash[..i] == withHash;
    }
  }
}

=== FILE: folder_hash.dfy ===
/**
 * The pieces of the folder digest: which files enter it, in which order,
 * and the exact byte strings fed to the running SHA-256 (section 6.2 of
 * FIPS 180-4) for each of them. SHA-256 itself is a parameter `sha`.
 */
module FolderHash {
  import opened Paths
  import opened FileSystem

  const MiB: nat := 1024 * 1024
  /** Files of at least this many bytes are sampled instead of read whole. */
  const SampleThreshold: nat := 10 * MiB
  const BlockSize: nat := 4096

  // ---------------------------------------------------------------- exclusion

  /** As written: `fnmatch(name.lower(), pattern)` with wildcard-free patterns matches the whole name only. */
  predicate ExcludedAsWritten(name: string, patterns: seq<string>)
  {
    Lower(name) in patterns
  }

  /** As evidently intended: the lower-cased name ends with one of the ignored extensions. */
  predicate Excluded(name: string, patterns: seq<string>)
  {
    EndsWithAny(Lower(name), patterns)
  }

  /** The walked files that enter the digest, in walk order. */
  function Kept(ws: seq<Walked>, excluded: string -> bool): (r: seq<Walked>)
    ensures forall w :: w in r <==> w in ws && !excluded(w.name)
  {
    if ws == [] then []
    else (if excluded(ws[0].name) then [] else [ws[0]]) + Kept(ws[1..], excluded)
  }

  /** Under the literal match, an image such as `photo.png` still enters the digest. */
  lemma AsWrittenKeepsImages(patterns: seq<string>)
    requires ".png" in patterns && "photo.png" !in patterns
    ensures var w := Walked("p/photo.png", "photo.png", "photo.png", File([], 0.0, true, true));
            Kept([w], n => ExcludedAsWritten(n, patterns)) == [w]
  {
    var w := Walked("p/photo.png", "photo.png", "photo.png", File([], 0.0, true, true));
    assert Lower("photo.png") == "photo.png";
  }

  /** Under the corrected match, no file whose lower-cased name ends in an ignored extension enters the digest. */
  lemma CorrectedDropsIgnoredExtensions(ws: seq<Walked>, patterns: seq<string>)
    ensures forall w :: w in Kept(ws, n => Excluded(n, patterns)) ==> !EndsWithAny(Lower(w.name), patterns)
    ensures forall w :: w in ws && !EndsWithAny(Lower(w.name), patterns) ==> w in Kept(ws, n => Excluded(n, patterns))
  {
  }

  // ---------------------------------------------------------------- ordering

  predicate SortedByPath(s: seq<Walked>)
  {
    forall i, j :: 0 <= i < j < |s| ==> LexLe(s[i].path, s[j].path)
  }

  function InsertByPath(x: Walked, s: seq<Walked>): (r: seq<Walked>)
    ensures |r| == |s| + 1
  {
    if s == [] || LexLe(x.path, s[0].path) then [x] + s
    else [s[0]] + InsertByPath(x, s[1..])
  }

  /** `all_files.sort()`: ascending order of the full path strings. */
  function SortByPath(s: seq<Walked>): (r: seq<Walked>)
    ensures |r| == |s|
  {
    if s == [] then [] else InsertByPath(s[0], SortByPath(s[1..]))
  }

  lemma {:induction false} InsertByPathPermutation(x: Walked, s: seq<Walked>)
    ensures multiset(InsertByPath(x, s)) == multiset(s) + multiset{x}
  {
    if s != [] && !LexLe(x.path, s[0].path) {
      InsertByPathPermutation(x, s[1..]);
      assert s == [s[0]] + s[1..];
    }
  }

  lemma {:induction false} InsertByPathSorted(x: Walked, s: seq<Walked>)
    requires SortedByPath(s)
    ensures SortedByPath(InsertByPath(x, s))
  {
    if s == [] {
    } else if LexLe(x.path, s[0].path) {
      forall j | 0 <= j < |s| ensures LexLe(x.path, s[j].path) {
        if j > 0 { LexLeTransitive(x.path, s[0].path, s[j].path); }
      }
    } else {
      InsertByPathSorted(x, s[1..]);
      InsertByPathPermutation(x, s[1..]);
      var r := InsertByPath(x, s[1..]);
      LexLeTotal(x.path, s[0].path);
      forall j | 0 <= j < |r|
        ensures LexLe(s[0].path, r[j].path)
      {
        assert r[j] in multiset(r);
        if r[j] != x {
          assert r[j] in multiset(s[1..]);
          var k :| 0 <= k < |s[1..]| && s[1..][k] == r[j];
          assert s[1 + k] == r[j];
        }
      }
      assert InsertByPath(x, s) == [s[0]] + r;
    }
  }

  /** The sorted list is ordered by path and holds exactly the collected files. */
  lemma {:induction false} SortByPathCorrect(s: seq<Walked>)
    ensures SortedByPath(SortByPath(s))
    ensures multiset(SortByPath(s)) == multiset(s)
  {
    if s != [] {
      SortByPathCorrect(s[1..]);
      InsertByPathSorted(s[0], SortByPath(s[1..]));
      InsertByPathPermutation(s[0], SortByPath(s[1..]));
      assert s == [s[0]] + s[1..];
    }
  }

  // ---------------------------------------------------------------- bytes fed

  function Flatten(chunks: seq<seq<bv8>>): (r: seq<bv8>)
  {
    if chunks == [] then [] else Flatten(chunks[..|chunks| - 1]) + chunks[|chunks| - 1]
  }

  /**
   * Reads `content` the way `iter(lambda: f.read(4096), b'')` does: full
   * blocks of 4096 bytes, then the remainder; the final empty read ends it.
   */
  method ReadInBlocks(content: seq<bv8>) returns (blocks: seq<seq<bv8>>)
    ensures Flatten(blocks) == content
    ensures forall i :: 0 <= i < |blocks| ==> 0 < |blocks[i]| <= BlockSize
    ensures forall i :: 0 <= i < |blocks| - 1 ==> |blocks[i]| == BlockSize
  {
    blocks := [];
    var pos := 0;
    while pos < |content|
      invariant 0 <= pos <= |content|
      invariant Flatten(blocks) == content[..pos]
      invariant forall i :: 0 <= i < |blocks| ==> 0 < |blocks[i]| <= BlockSize
      invariant forall i :: 0 <= i < |blocks| ==> |blocks[i]| == BlockSize
      invariant pos == |blocks| * BlockSize
    {
      var end := if pos + BlockSize <= |content| then pos + BlockSize else |content|;
      var chunk := content[pos..end];
      assert content[..end] == content[..pos] + chunk;
      if end < pos + BlockSize {
        // the short block is the last one
        blocks := blocks + [chunk];
        assert Flatten(blocks) == content;
        return;
      }
      blocks := blocks + [chunk];
      pos := end;
    }
    assert content[..pos] == content;
  }

  /** The bytes a file contributes to its own SHA-256: all of it, or its first and last MiB. */
  function DigestedBytes(content: seq<bv8>): (r: seq<bv8>)
    ensures |content| < SampleThreshold ==> r == content
    ensures |content| >= SampleThreshold ==> |r| == 2 * MiB
  {
    if |content| < SampleThreshold then content
    else content[..MiB] + content[|content| - MiB..]
  }

  /** `str(n)` for a Python int. */
  function DecimalNat(n: nat): (r: string)
    ensures r != [] && forall i :: 0 <= i < |r| ==> '0' <= r[i] <= '9'
  {
    var d := [(('0' as int) + n % 10) as char];
    if n < 10 then d else DecimalNat(n / 10) + d
  }

  function Decimal(n: int): (r: string)
    ensures '|' !in r
  {
    if n < 0 then "-" + DecimalNat(-n) else DecimalNat(n)
  }

  /** Python's `int(x)` on a float: truncation toward zero. */
  function Truncate(x: real): (r: int)
    ensures x >= 0.0 ==> r as real <= x < r as real + 1.0
    ensures x < 0.0 ==> r as real - 1.0 < x <= r as real
  {
    if x >= 0.0 then x.Floor else -((-x).Floor)
  }

  /** The metadata line `f"{rel_path}|{file_size}|{file_mtime}"`. */
  function MetadataLine(rel: string, size: nat, mtime: real): string
  {
    rel + "|" + Decimal(size) + "|" + Decimal(Truncate(mtime))
  }

  /** UTF-8 encoding of one Unicode scalar value. */
  function Utf8Char(c: char): (r: seq<bv8>)
    ensures 1 <= |r| <= 4
  {
    var v := c as int;
    if v < 0x80 then [v as bv8]
    else if v < 0x800 then [(0xC0 + v / 0x40) as bv8, (0x80 + v % 0x40) as bv8]
    else if v < 0x10000 then
      [(0xE0 + v / 0x1000) as bv8, (0x80 + (v / 0x40) % 0x40) as bv8, (0x80 + v % 0x40) as bv8]
    else
      [(0xF0 + v / 0x40000) as bv8, (0x80 + (v / 0x1000) % 0x40) as bv8,
       (0x80 + (v / 0x40) % 0x40) as bv8, (0x80 + v % 0x40) as bv8]
  }

  function Utf8(s: string): (r: seq<bv8>)
    ensures |s| <= |r| <= 4 * |s|
  {
    if s == [] then [] else Utf8(s[..|s| - 1]) + Utf8Char(s[|s| - 1])
  }

  /**
   * What one file feeds to the folder digest: nothing when `os.stat` fails;
   * the metadata line alone when the file cannot be opened (the line is fed
   * before the file is opened); otherwise the line and the SHA-256 of its
   * digested bytes.
   */
  function FileFeed(w: Walked, sha: seq<bv8> -> seq<bv8>): (r: seq<seq<bv8>>)
    requires w.file.File?
    ensures |r| <= 2
    ensures !w.file.statOk ==> r == []
  {
    if !w.file.statOk then []
    else
      var line := Utf8(MetadataLine(w.rel, |w.file.content|, w.file.mtime));
      if !w.file.readOk then [line]
      else [line, sha(DigestedBytes(w.file.content))]
  }

  /** The body of the loop in `calculate_folder_hash` for one file. */
  method FeedFile(w: Walked, sha: seq<bv8> -> seq<bv8>) returns (piece: seq<seq<bv8>>)
    requires w.file.File?
    ensures piece == FileFeed(w, sha)
  {
    if !w.file.statOk {
      return [];
    }
    var fileSize := |w.file.content|;
    var line := Utf8(MetadataLine(w.rel, fileSize, w.file.mtime));
    if !w.file.readOk {
      return [line];
    }
    var digested: seq<bv8>;
    if fileSize < SampleThreshold {
      var blocks := ReadInBlocks(w.file.content);
      digested := Flatten(blocks);
    } else {
      var head := w.file.content[..MiB];
      var tail := w.file.content[fileSize - MiB..];
      digested := head + tail;
    }
    piece := [line, sha(digested)];
  }

  /** Everything fed to the running folder digest, file by file in the given order. */
  function FolderFeed(ws: seq<Walked>, sha: seq<bv8> -> seq<bv8>): (r: seq<seq<bv8>>)
    requires AllFiles(ws)
    ensures |r| <= 2 * |ws|
  {
    if ws == [] then [] else FolderFeed(ws[..|ws| - 1], sha) + FileFeed(ws[|ws| - 1], sha)
  }

  lemma FolderFeedStep(ws: seq<Walked>, i: nat, sha: seq<bv8> -> seq<bv8>)
    requires AllFiles(ws) && i < |ws|
    ensures AllFiles(ws[..i]) && AllFiles(ws[..i + 1])
    ensures FolderFeed(ws[..i + 1], sha) == FolderFeed(ws[..i], sha) + FileFeed(ws[i], sha)
  {
    assert ws[..i + 1][..i] == ws[..i];
  }

  /** The files that enter the digest, in the order they are fed. */
  function HashOrder(top: string, n: Node, patterns: seq<string>): (r: seq<Walked>)
    ensures AllFiles(r)
  {
    WalkIsFiles(top, [], n, []);
    SortedKeptFiles(Walk(top, [], n, []), name => Excluded(name, patterns));
    SortByPath(Kept(Walk(top, [], n, []), name => Excluded(name, patterns)))
  }

  lemma SortedKeptFiles(ws: seq<Walked>, excluded: string -> bool)
    requires AllFiles(ws)
    ensures AllFiles(SortByPath(Kept(ws, excluded)))
  {
    var k := Kept(ws, excluded);
    var r := SortByPath(k);
    SortByPathCorrect(k);
    forall i | 0 <= i < |r|
      ensures r[i].file.File?
    {
      assert r[i] in multiset(k);
      assert r[i] in ws;
    }
  }

  const HexDigits: string := "0123456789abcdef"

  /** The two lower-case hexadecimal digits of one byte. */
  function HexByte(b: bv8): (r: string)
    ensures |r| == 2
  {
    [HexDigits[b as int / 16], HexDigits[b as int % 16]]
  }

  /** `hexdigest()`: two lower-case hexadecimal digits per byte. */
  function Hex(bytes: seq<bv8>): (r: string)
    ensures |r| == 2 * |bytes|
  {
    if bytes == [] then [] else HexByte(bytes[0]) + Hex(bytes[1..])
  }

  lemma HexDigitsDistinct(i: int, j: int)
    requires 0 <= i < 16 && 0 <= j < 16 && HexDigits[i] == HexDigits[j]
    ensures i == j
  {
  }

  lemma DigitPairInjective(v: int, w: int)
    requires 0 <= v < 256 && 0 <= w < 256
    requires HexDigits[v / 16] == HexDigits[w / 16] && HexDigits[v % 16] == HexDigits[w % 16]
    ensures v == w
  {
    HexDigitsDistinct(v / 16, w / 16);
    HexDigitsDistinct(v % 16, w % 16);
  }

  lemma HexByteInjective(x: bv8, y: bv8)
    requires HexByte(x) == HexByte(y)
    ensures x == y
  {
    var v, w := x as int, y as int;
    assert HexByte(x)[0] == HexByte(y)[0] && HexByte(x)[1] == HexByte(y)[1];
    DigitPairInjective(v, w);
  }

  /** Distinct digests give distinct hexadecimal strings. */
  lemma {:induction false} HexInjective(a: seq<bv8>, b: seq<bv8>)
    requires Hex(a) == Hex(b)
    ensures a == b
  {
    if a != [] {
      assert Hex(a)[..2] == HexByte(a[0]) && Hex(b)[..2] == HexByte(b[0]);
      HexByteInjective(a[0], b[0]);
      assert Hex(a)[2..] == Hex(a[1..]) && Hex(b)[2..] == Hex(b[1..]);
      HexInjective(a[1..], b[1..]);
      assert a == [a[0]] + a[1..] && b == [b[0]] + b[1..];
    }
  }
}

=== FILE: identical.dfy ===
/**
 * `find_identical_by_hash()`: the projects whose folder hash is computed and
 * not empty, bucketed by hash in a dictionary that keeps the order in which
 * each hash was first seen; only the buckets holding more than one project
 * are reported. Every function here recurses from the back, as the loop
 * that builds the dictionary goes from the front.
 */
module Identical {
  import opened Wrappers
  import opened Projects
  import opened Similarity
  import opened Seqs

  /** `[p for p in projects if p.folder_hash]`. */
  function Hashed(ps: seq<Project>): (r: seq<Project>)
    ensures forall p :: p in r <==> p in ps && HasHash(p)
    ensures forall i :: 0 <= i < |r| ==> HasHash(r[i])
  {
    if ps == [] then []
    else Hashed(ps[..|ps| - 1]) + (if HasHash(ps[|ps| - 1]) then [ps[|ps| - 1]] else [])
  }

  /** The projects of `ps` with folder hash `h`, in their order in `ps`: one bucket. */
  function WithHash(ps: seq<Project>, h: string): seq<Project>
  {
    if ps == [] then []
    else WithHash(ps[..|ps| - 1], h) + (if ps[|ps| - 1].folderHash == Some(h) then [ps[|ps| - 1]] else [])
  }

  /** The keys of the dictionary: each hash once, in the order it first occurs. */
  function HashOrder(ps: seq<Project>): seq<string>
    requires forall i :: 0 <= i < |ps| ==> HasHash(ps[i])
  {
    if ps == [] then []
    else
      var order := HashOrder(ps[..|ps| - 1]);
      assert HasHash(ps[|ps| - 1]);
      var h := ps[|ps| - 1].folderHash.value;
      if h in order then order else order + [h]
  }

  /** `[group for group in hash_groups.values() if len(group) > 1]` for the keys `hs`. */
  function Shared(hs: seq<string>, ps: seq<Project>): seq<seq<Project>>
  {
    if hs == [] then []
    else
      var g := WithHash(ps, hs[|hs| - 1]);
      Shared(hs[..|hs| - 1], ps) + (if |g| > 1 then [g] else [])
  }

  /** The result of `find_identical_by_hash()` for the project list `ps`. */
  function IdenticalGroups(ps: seq<Project>): seq<seq<Project>>
  {
    Shared(HashOrder(Hashed(ps)), Hashed(ps))
  }

  predicate Unique(hs: seq<string>)
  {
    forall i, j :: 0 <= i < j < |hs| ==> hs[i] != hs[j]
  }

  // ---------------------------------------------------------------- lemmas

  /** Appending a project adds it to its own bucket and to no other. */
  lemma WithHashSnoc(ps: seq<Project>, x: Project, h: string)
    ensures WithHash(ps + [x], h) == WithHash(ps, h) + (if x.folderHash == Some(h) then [x] else [])
  {
    assert (ps + [x])[..|ps + [x]| - 1] == ps;
  }

  /** Appending a project adds its hash to the keys when the hash is new. */
  lemma HashOrderSnoc(ps: seq<Project>, x: Project)
    requires forall i :: 0 <= i < |ps| ==> HasHash(ps[i])
    requires HasHash(x)
    ensures HashOrder(ps + [x]) == if x.folderHash.value in HashOrder(ps) then HashOrder(ps) else HashOrder(ps) + [x.folderHash.value]
  {
    assert (ps + [x])[..|ps + [x]| - 1] == ps;
  }

  /** A hash that is not yet a key has an empty bucket. */
  lemma NewKeyEmptyBucket(ps: seq<Project>, h: string)
    requires forall i :: 0 <= i < |ps| ==> HasHash(ps[i])
    requires h !in HashOrder(ps)
    ensures WithHash(ps, h) == []
  {
    HashOrderKeys(ps);
    WithHashMembers(ps, h);
    if WithHash(ps, h) != [] {
      assert WithHash(ps, h)[0] in WithHash(ps, h);
    }
  }

  /** The dictionary of buckets of `ps`, with its keys in insertion order. */
  ghost predicate Buckets(ps: seq<Project>, order: seq<string>, table: map<string, seq<Project>>)
    requires forall i :: 0 <= i < |ps| ==> HasHash(ps[i])
  {
    && order == HashOrder(ps)
    && (forall h :: h in table <==> h in order)
    && (forall h :: h in table ==> table[h] == WithHash(ps, h))
  }

  /** Filing one more project: append it to its bucket, or open a bucket and a key for it. */
  lemma BucketsSnoc(ps: seq<Project>, x: Project, order: seq<string>, table: map<string, seq<Project>>)
    requires forall i :: 0 <= i < |ps| ==> HasHash(ps[i])
    requires HasHash(x) && Buckets(ps, order, table)
    ensures forall i :: 0 <= i < |ps + [x]| ==> HasHash((ps + [x])[i])
    ensures var h := x.folderHash.value;
      Buckets(ps + [x], if h in table then order else order + [h],
              table[h := if h in table then table[h] + [x] else [x]])
  {
    var h := x.folderHash.value;
    var ps', order' := ps + [x], if h in table then order else order + [h];
    var table' := table[h := if h in table then table[h] + [x] else [x]];
    HashOrderSnoc(ps, x);
    assert order' == HashOrder(ps');
    forall h' | h' in table' ensures table'[h'] == WithHash(ps', h') {
      WithHashSnoc(ps, x, h');
      if h' == h && h !in table {
        NewKeyEmptyBucket(ps, h);
      }
    }
  }

  /** Adding one more key adds its bucket when it holds more than one project. */
  lemma SharedStep(hs: seq<string>, k: nat, ps: seq<Project>)
    requires k < |hs|
    ensures Shared(hs[..k + 1], ps) == Shared(hs[..k], ps) + (if |WithHash(ps, hs[k])| > 1 then [WithHash(ps, hs[k])] else [])
  {
    assert hs[..k + 1][..k] == hs[..k];
  }

  /** A bucket holds exactly the projects with that hash. */
  lemma {:induction false} WithHashMembers(ps: seq<Project>, h: string)
    ensures forall p :: p in WithHash(ps, h) <==> p in ps && p.folderHash == Some(h)
  {
    if ps != [] {
      var init := ps[..|ps| - 1];
      WithHashMembers(init, h);
      SplitLast(ps);
    }
  }

  /** Dropping the projects without a hash changes no bucket of a non-empty hash. */
  lemma {:induction false} WithHashOfHashed(ps: seq<Project>, h: string)
    requires h != ""
    ensures WithHash(Hashed(ps), h) == WithHash(ps, h)
  {
    if ps != [] {
      var init := ps[..|ps| - 1];
      var last := ps[|ps| - 1];
      WithHashOfHashed(init, h);
      var hs := Hashed(init);
      if HasHash(last) {
        assert Hashed(ps) == hs + [last];
        assert (hs + [last])[..|hs + [last]| - 1] == hs;
      } else {
        assert Hashed(ps) == hs;
        assert last.folderHash != Some(h);
      }
    }
  }

  /** Every hash is listed once, and exactly the hashes of the projects are listed. */
  lemma {:induction false} HashOrderKeys(ps: seq<Project>)
    requires forall i :: 0 <= i < |ps| ==> HasHash(ps[i])
    ensures Unique(HashOrder(ps))
    ensures forall h :: h in HashOrder(ps) <==> exists p :: p in ps && p.folderHash == Some(h)
  {
    if ps != [] {
      var init := ps[..|ps| - 1];
      var last := ps[|ps| - 1];
      HashOrderKeys(init);
      SplitLast(ps);
      forall h ensures h in HashOrder(ps) <==> exists p :: p in ps && p.folderHash == Some(h) {
        if h in HashOrder(ps) && h !in HashOrder(init) {
          assert last in ps && last.folderHash == Some(h);
        }
        if exists p :: p in ps && p.folderHash == Some(h) {
          var p :| p in ps && p.folderHash == Some(h);
          if p != last {
            assert p in init;
          }
        }
      }
    }
  }

  /** A reported group is the whole bucket of one of the keys, and holds more than one project. */
  lemma {:induction false} SharedMembers(hs: seq<string>, ps: seq<Project>)
    ensures forall g :: g in Shared(hs, ps) <==> exists h :: h in hs && g == WithHash(ps, h) && |g| > 1
  {
    if hs != [] {
      var init, last := hs[..|hs| - 1], hs[|hs| - 1];
      SharedMembers(init, ps);
      SplitLast(hs);
      forall g ensures g in Shared(hs, ps) <==> exists h :: h in hs && g == WithHash(ps, h) && |g| > 1 {
        if g in Shared(hs, ps) {
          if g in Shared(init, ps) {
            var h :| h in init && g == WithHash(ps, h) && |g| > 1;
            assert h in hs;
          } else {
            assert g == WithHash(ps, last) && last in hs;
          }
        }
        if exists h :: h in hs && g == WithHash(ps, h) && |g| > 1 {
          var h :| h in hs && g == WithHash(ps, h) && |g| > 1;
          if h != last {
            assert h in init;
          }
        }
      }
    }
  }

  /** No bucket is empty, and buckets at different positions are of different hashes. */
  predicate DistinctBuckets(gs: seq<seq<Project>>)
  {
    forall i, j :: 0 <= i < j < |gs| ==> |gs[i]| > 0 && |gs[j]| > 0 && gs[i][0].folderHash != gs[j][0].folderHash
  }

  /** Every group reported for keys other than `h` is of a hash other than `h`. */
  lemma SharedAvoids(init: seq<string>, ps: seq<Project>, h: string)
    requires h !in init
    ensures forall g: seq<Project> :: g in Shared(init, ps) ==> |g| > 0 && g[0].folderHash != Some(h)
  {
    SharedMembers(init, ps);
    forall g: seq<Project> | g in Shared(init, ps) ensures |g| > 0 && g[0].folderHash != Some(h) {
      var h' :| h' in init && g == WithHash(ps, h') && |g| > 1;
      WithHashMembers(ps, h');
      assert g[0] in g;
    }
  }

  /** A bucket of a hash no earlier bucket has keeps the buckets distinct. */
  lemma DistinctSnoc(s: seq<seq<Project>>, g: seq<Project>)
    requires DistinctBuckets(s) && g != []
    requires forall x: seq<Project> :: x in s ==> |x| > 0 && x[0].folderHash != g[0].folderHash
    ensures DistinctBuckets(s + [g])
  {
    var r: seq<seq<Project>> := s + [g];
    forall i, j | 0 <= i < j < |r| ensures |r[i]| > 0 && |r[j]| > 0 && r[i][0].folderHash != r[j][0].folderHash {
      assert r[i] == s[i] && s[i] in s;
      if j < |s| {
        assert r[j] == s[j];
      } else {
        assert r[j] == g;
      }
    }
    assert DistinctBuckets(r);
  }

  /** Different positions of the result hold the buckets of different hashes. */
  lemma {:induction false} SharedDistinct(hs: seq<string>, ps: seq<Project>)
    requires Unique(hs)
    ensures DistinctBuckets(Shared(hs, ps))
  {
    if hs != [] {
      var init := hs[..|hs| - 1];
      var h := hs[|hs| - 1];
      var s: seq<seq<Project>> := Shared(init, ps);
      var g: seq<Project> := WithHash(ps, h);
      assert Unique(init);
      SharedDistinct(init, ps);
      if |g| > 1 {
        assert h !in init;
        SharedAvoids(init, ps, h);
        WithHashMembers(ps, h);
        assert g[0] in g;
        assert g[0].folderHash == Some(h);
        DistinctSnoc(s, g);
        assert Shared(hs, ps) == s + [g];
      } else {
        assert Shared(hs, ps) == s;
      }
    }
  }

  /** `g` is the whole bucket of some non-empty hash, and that bucket holds more than one project. */
  ghost predicate IsSharedBucket(ps: seq<Project>, g: seq<Project>)
  {
    exists h :: h != "" && g == WithHash(ps, h) && |g| > 1
  }

  /**
   * The identical groups are exactly the buckets of the non-empty hashes that
   * more than one project shares.
   */
  lemma IdenticalGroupsExactly(ps: seq<Project>)
    ensures forall g :: g in IdenticalGroups(ps) <==> IsSharedBucket(ps, g)
  {
    forall g | g in IdenticalGroups(ps) ensures IsSharedBucket(ps, g) {
      ReportedIsShared(ps, g);
    }
    forall g | IsSharedBucket(ps, g) ensures g in IdenticalGroups(ps) {
      var h :| h != "" && g == WithHash(ps, h) && |g| > 1;
      SharedIsReported(ps, h);
    }
  }

  lemma ReportedIsShared(ps: seq<Project>, g: seq<Project>)
    requires g in IdenticalGroups(ps)
    ensures IsSharedBucket(ps, g)
  {
    var ws := Hashed(ps);
    var hs := HashOrder(ws);
    HashOrderKeys(ws);
    SharedMembers(hs, ws);
    var h :| h in hs && g == WithHash(ws, h) && |g| > 1;
    var p :| p in ws && p.folderHash == Some(h);
    WithHashOfHashed(ps, h);
  }

  lemma SharedIsReported(ps: seq<Project>, h: string)
    requires h != "" && |WithHash(ps, h)| > 1
    ensures WithHash(ps, h) in IdenticalGroups(ps)
  {
    var ws := Hashed(ps);
    var hs := HashOrder(ws);
    HashOrderKeys(ws);
    SharedMembers(hs, ws);
    WithHashOfHashed(ps, h);
    WithHashMembers(ws, h);
    assert WithHash(ws, h)[0] in WithHash(ws, h);
    assert h in hs;
  }

  /** Each bucket is reported once: different positions hold the projects of different hashes. */
  lemma IdenticalGroupsDistinct(ps: seq<Project>)
    ensures DistinctBuckets(IdenticalGroups(ps))
  {
    HashOrderKeys(Hashed(ps));
    SharedDistinct(HashOrder(Hashed(ps)), Hashed(ps));
  }

  /** Every member of a group is one of the projects and carries that group's hash. */
  lemma IdenticalGroupMembers(ps: seq<Project>, g: seq<Project>)
    requires g in IdenticalGroups(ps)
    ensures |g| > 1
    ensures forall p :: p in g ==> p in ps && HasHash(p) && p.folderHash == g[0].folderHash
  {
    IdenticalGroupsExactly(ps);
    var h :| h != "" && g == WithHash(ps, h) && |g| > 1;
    WithHashMembers(ps, h);
    assert g[0] in g;
  }
}

=== FILE: paths.dfy ===
/**
 * The string helpers the core relies on: POSIX path joining and basename,
 * Python's str.endswith, str.lower (restricted to ASCII) and str ordering.
 */
module Paths {
  import opened Seqs

  /** Python's `s.endswith(suffix)`. */
  predicate EndsWith(s: string, suffix: string)
  {
    |suffix| <= |s| && s[|s| - |suffix|..] == suffix
  }

  /** Python's `any(s.endswith(e) for e in suffixes)`. */
  predicate EndsWithAny(s: string, suffixes: seq<string>)
  {
    exists i :: 0 <= i < |suffixes| && EndsWith(s, suffixes[i])
  }

  function LowerChar(c: char): char
  {
    if 'A' <= c <= 'Z' then (c as int + 32) as char else c
  }

  /** Python's `s.lower()` on the ASCII letters; other characters are kept. */
  function Lower(s: string): string
  {
    seq(|s|, i requires 0 <= i < |s| => LowerChar(s[i]))
  }

  /** A name as returned by a directory listing: not empty and free of the separator. */
  predicate IsName(name: string)
  {
    name != [] && '/' !in name
  }

  /** `os.path.join(dir, name)` on POSIX. */
  function Join(dir: string, name: string): (r: string)
    ensures IsName(name) ==> EndsWith(r, name) && |r| > |dir|
    ensures IsName(name) ==> r[..|dir|] == dir
  {
    if name != [] && name[0] == '/' then name
    else if dir == [] || dir[|dir| - 1] == '/' then dir + name
    else dir + "/" + name
  }

  /** `os.path.basename(p)`: what follows the last separator. */
  function Basename(p: string): string
  {
    if p == [] || p[|p| - 1] == '/' then []
    else Basename(p[..|p| - 1]) + [p[|p| - 1]]
  }

  /** The basename is the separator-free tail of the path, right after its last separator. */
  lemma {:induction false} BasenameIsLastComponent(p: string)
    ensures var r := Basename(p);
      && '/' !in r
      && EndsWith(p, r)
      && (|r| < |p| ==> p[|p| - |r| - 1] == '/')
  {
    if !(p == [] || p[|p| - 1] == '/') {
      var front, b := p[..|p| - 1], Basename(p[..|p| - 1]);
      BasenameIsLastComponent(front);
      assert Basename(p) == b + [p[|p| - 1]];
      assert p[|p| - |b| - 1..] == front[|front| - |b|..] + [p[|p| - 1]];
    }
  }

  lemma {:induction false} BasenameOfSuffix(prefix: string, name: string)
    requires '/' !in name
    requires prefix == [] || prefix[|prefix| - 1] == '/'
    ensures Basename(prefix + name) == name
  {
    if name != [] {
      DropLastAppend(prefix, name);
      BasenameOfSuffix(prefix, name[..|name| - 1]);
      SplitLast(name);
    } else {
      assert prefix + name == prefix;
    }
  }

  /** The basename of a joined path is the listed name that was joined. */
  lemma BasenameOfJoin(dir: string, name: string)
    requires IsName(name)
    ensures Basename(Join(dir, name)) == name
  {
    if dir == [] || dir[|dir| - 1] == '/' {
      BasenameOfSuffix(dir, name);
    } else {
      assert Join(dir, name) == (dir + "/") + name;
      BasenameOfSuffix(dir + "/", name);
    }
  }

  /** Python's `a <= b` on strings: lexicographic by code point. */
  predicate LexLe(a: string, b: string)
  {
    if a == [] then true
    else if b == [] then false
    else if a[0] != b[0] then a[0] < b[0]
    else LexLe(a[1..], b[1..])
  }

  lemma {:induction false} LexLeTotal(a: string, b: string)
    ensures LexLe(a, b) || LexLe(b, a)
  {
    if a != [] && b != [] && a[0] == b[0] {
      LexLeTotal(a[1..], b[1..]);
    }
  }

  lemma {:induction false} LexLeTransitive(a: string, b: string, c: string)
    requires LexLe(a, b) && LexLe(b, c)
    ensures LexLe(a, c)
  {
    if a != [] && b != [] && c != [] && a[0] == b[0] && b[0] == c[0] {
      LexLeTransitive(a[1..], b[1..], c[1..]);
    }
  }

  lemma {:induction false} LexLeAntisymmetric(a: string, b: string)
    requires LexLe(a, b) && LexLe(b, a)
    ensures a == b
  {
    if a != [] && b != [] {
      LexLeAntisymmetric(a[1..], b[1..]);
      assert a == [a[0]] + a[1..];
      assert b == [b[0]] + b[1..];
    }
  }
}

=== FILE: projects.dfy ===
/**
 * One discovered project directory: its identity (the path), the single
 * analysis pass that fills its file lists and totals, the on-demand folder
 * digest and last-modified value, and its dictionary form.
 */
module Projects {
  import opened Wrappers
  import opened Paths
  import opened FileSystem
  import opened Config
  import opened FolderHash
  import opened Seqs

  /**
   * The `last_modified` attribute. It starts as the number `os.stat` gave
   * for the directory (0 when that failed) and becomes a datetime once an
   * analysis has seen a matched file with a positive modification time.
   */
  datatype Stamp = Number(seconds: real) | DateTime(at: real)

  /** Python truthiness of `last_modified`. */
  predicate Truthy(s: Stamp)
  {
    s.DateTime? || s.seconds != 0.0
  }

  /** The attribute values of a project. */
  datatype Project = Project(
    path: string,
    name: string,
    size: int,
    lastModified: Stamp,
    projectFiles: seq<string>,
    pythonFiles: seq<string>,
    fileCount: int,
    realSize: Option<int>,
    realFileCount: Option<int>,
    folderHash: Option<string>,
    lastFileModified: Option<real>,
    features: set<string>)

  // ---------------------------------------------------------------- identity

  /** `__eq__`: two projects are the same project when their paths are equal. */
  predicate SameProject(a: Project, b: Project)
  {
    a.path == b.path
  }

  /** `__hash__`: the hash is taken of the path alone. */
  function HashKey(p: Project): string
  {
    p.path
  }

  /**
   * Equality is an equivalence and agrees with the hash key, so projects can
   * key sets and maps. It holds by definition, since both are the path; it
   * records that dictionaries keyed by projects are keyed by paths.
   */
  lemma IdentityIsPath(a: Project, b: Project, c: Project)
    ensures SameProject(a, a)
    ensures SameProject(a, b) ==> SameProject(b, a)
    ensures SameProject(a, b) && SameProject(b, c) ==> SameProject(a, c)
    ensures SameProject(a, b) <==> HashKey(a) == HashKey(b)
  {
  }

  // ---------------------------------------------------------------- construction

  /** The size and modification time `os.stat` reports, or None when it raises. */
  function Stat(n: Node): Option<(nat, real)>
  {
    match n
    case File(content, mtime, statOk, _) => if statOk then Some((|content|, mtime)) else None
    case Dir(_, _, size, mtime) => Some((size, mtime))
  }

  /** `os.path.exists`: something is at the path and its stat succeeds. */
  predicate Exists(at: Option<Node>)
  {
    at.Some? && Stat(at.value).Some?
  }

  /** `ProjectModel(path)`: name from the path, size and time from the directory's own stat, no caches. */
  function Created(path: string, at: Option<Node>): (p: Project)
    ensures p.path == path && p.name == Basename(path)
    ensures p.fileCount == |p.pythonFiles| == 0 && p.projectFiles == []
    ensures p.realSize.None? && p.realFileCount.None? && p.folderHash.None? && p.lastFileModified.None?
  {
    var st := if at.Some? then Stat(at.value) else None;
    Project(path, Basename(path),
            if st.Some? then st.value.0 else 0,
            Number(if st.Some? then st.value.1 else 0.0),
            [], [], 0, None, None, None, None, {})
  }

  /**
   * The constructor's `os.stat`: when it succeeds, `size` and `last_modified`
   * are the path's size and mtime; when it fails they stay 0. No feature is set.
   */
  lemma CreatedFromStat(path: string, at: Option<Node>)
    ensures var p := Created(path, at);
      && p.features == {}
      && (Exists(at) ==> p.size == Stat(at.value).value.0 && p.lastModified == Number(Stat(at.value).value.1))
      && (!Exists(at) ==> p.size == 0 && p.lastModified == Number(0.0))
  {
  }

  // ---------------------------------------------------------------- analysis

  /**
   * A direct child that is listed among the markers, is a regular file that
   * `os.path.isfile` can stat, and is not of an ignored type.
   */
  predicate IsMarkerFile(e: Entry, markers: seq<string>, ignoredExtensions: seq<string>)
  {
    e.name in markers && e.node.File? && e.node.statOk && !EndsWithAny(Lower(e.name), ignoredExtensions)
  }

  /** The marker files of a listing, in listing order. */
  function MarkerFiles(dir: string, es: seq<Entry>, markers: seq<string>, ignoredExtensions: seq<string>)
    : seq<Walked>
  {
    if es == [] then []
    else
      var e := es[|es| - 1];
      MarkerFiles(dir, es[..|es| - 1], markers, ignoredExtensions)
      + (if IsMarkerFile(e, markers, ignoredExtensions) then [MarkerWalked(dir, e)] else [])
  }

  /** The walked files whose name ends in exactly `.py`, in walk order. */
  function PythonSources(ws: seq<Walked>): seq<Walked>
  {
    if ws == [] then []
    else
      var w := ws[|ws| - 1];
      PythonSources(ws[..|ws| - 1]) + (if EndsWith(w.name, ".py") then [w] else [])
  }

  /** The running `total_size`: files whose stat fails add nothing. */
  function TotalSize(ws: seq<Walked>): int
  {
    if ws == [] then 0
    else
      var w := ws[|ws| - 1];
      TotalSize(ws[..|ws| - 1]) + (if w.file.File? && w.file.statOk then |w.file.content| else 0)
  }

  /** The running maximum modification time, starting from 0 and replaced only by a strictly larger value. */
  function Latest(ws: seq<Walked>): real
  {
    if ws == [] then 0.0
    else
      var m := Latest(ws[..|ws| - 1]);
      var w := ws[|ws| - 1];
      if w.file.File? && w.file.statOk && w.file.mtime > m then w.file.mtime else m
  }

  /** The outcome of `_analyze_project`: the new attribute values, the files it reported, and whether it raised. */
  datatype Analysis = Analysis(project: Project, observed: seq<string>, raised: bool)

  /**
   * `_analyze_project` on the node found at the project's path. A missing
   * path or a non-directory leaves the project as it was; a directory that
   * cannot be listed makes `os.listdir` raise before anything is assigned.
   */
  function Analyze(p: Project, at: Option<Node>, cfg: Config): (a: Analysis)
    ensures !Exists(at) || !at.value.Dir? ==> a == Analysis(p, [], false)
    ensures a.raised <==> at.Some? && at.value.Dir? && !at.value.listable
    ensures a.raised ==> a.project == p && a.observed == []
    ensures && a.project.path == p.path && a.project.name == p.name && a.project.features == p.features
            && a.project.realSize == p.realSize && a.project.realFileCount == p.realFileCount
            && a.project.folderHash == p.folderHash && a.project.lastFileModified == p.lastFileModified
  {
    if at.None? || !at.value.Dir? then Analysis(p, [], false)
    else if !at.value.listable then Analysis(p, [], true)
    else
      var ms := MarkerFiles(p.path, at.value.entries, cfg.projectRootFiles, cfg.ignoredFileExtensions);
      var ps := PythonSources(Walk(p.path, [], at.value, []));
      var latest := Latest(ms + ps);
      Analysis(
        p.(fileCount := |ps|, size := TotalSize(ms + ps), pythonFiles := PathsOf(ps), projectFiles := PathsOf(ms),
           lastModified := if latest > 0.0 then DateTime(latest) else p.lastModified),
        PathsOf(ms) + PathsOf(ps),
        false)
  }

  lemma {:induction false} PythonSourcesMembers(ws: seq<Walked>)
    ensures forall w :: w in PythonSources(ws) <==> w in ws && EndsWith(w.name, ".py")
  {
    if ws != [] {
      PythonSourcesMembers(ws[..|ws| - 1]);
      SplitLast(ws);
    }
  }

  /** How a marker file is recorded: its joined path, its name, and the node. */
  function MarkerWalked(dir: string, e: Entry): Walked
  {
    Walked(Join(dir, e.name), e.name, e.name, e.node)
  }

  lemma {:induction false} MarkerFilesMembers(dir: string, es: seq<Entry>, markers: seq<string>, ign: seq<string>)
    ensures forall w :: w in MarkerFiles(dir, es, markers, ign)
              <==> exists i :: 0 <= i < |es| && IsMarkerFile(es[i], markers, ign) && w == MarkerWalked(dir, es[i])
  {
    if es != [] {
      var init := es[..|es| - 1];
      MarkerFilesMembers(dir, init, markers, ign);
      forall w
        ensures w in MarkerFiles(dir, es, markers, ign)
                <==> exists i :: 0 <= i < |es| && IsMarkerFile(es[i], markers, ign) && w == MarkerWalked(dir, es[i])
      {
        if exists i :: 0 <= i < |es| && IsMarkerFile(es[i], markers, ign) && w == MarkerWalked(dir, es[i]) {
          var i :| 0 <= i < |es| && IsMarkerFile(es[i], markers, ign) && w == MarkerWalked(dir, es[i]);
          if i < |es| - 1 { assert init[i] == es[i]; }
        }
        if w in MarkerFiles(dir, init, markers, ign) {
          var i :| 0 <= i < |init| && IsMarkerFile(init[i], markers, ign) && w == MarkerWalked(dir, init[i]);
          assert es[i] == init[i];
        }
      }
    }
  }

  lemma PathsOfMembers(ws: seq<Walked>)
    ensures forall x :: x in PathsOf(ws) <==> exists w :: w in ws && w.path == x
  {
    forall x | x in PathsOf(ws) ensures exists w :: w in ws && w.path == x {
      var i :| 0 <= i < |ws| && PathsOf(ws)[i] == x;
      assert ws[i] in ws;
    }
    forall x | exists w :: w in ws && w.path == x ensures x in PathsOf(ws) {
      var w :| w in ws && w.path == x;
      var i :| 0 <= i < |ws| && ws[i] == w;
      assert PathsOf(ws)[i] == x;
    }
  }

  lemma PathsOfAppend(a: seq<Walked>, b: seq<Walked>)
    ensures PathsOf(a + b) == PathsOf(a) + PathsOf(b)
  {
  }

  /**
   * After an analysis of a readable directory: `python_files` holds every file
   * of the whole subtree whose name ends in `.py` (no directory is pruned),
   * `file_count` is its length, and `project_files` holds exactly the marker
   * files among the direct children. The reported files are the marker files
   * followed by the Python files.
   */
  lemma AnalyzeCollects(p: Project, at: Option<Node>, cfg: Config)
    requires at.Some? && at.value.Dir? && at.value.listable
    ensures var a := Analyze(p, at, cfg);
      && !a.raised
      && a.project.fileCount == |a.project.pythonFiles|
      && (forall x :: x in a.project.pythonFiles
            <==> exists w :: w in Walk(p.path, [], at.value, []) && EndsWith(w.name, ".py") && w.path == x)
      && (forall x :: x in a.project.projectFiles
            <==> exists i :: 0 <= i < |at.value.entries| && IsMarkerFile(at.value.entries[i], cfg.projectRootFiles, cfg.ignoredFileExtensions)
                             && x == Join(p.path, at.value.entries[i].name))
      && a.observed == a.project.projectFiles + a.project.pythonFiles
      && a.project.path == p.path && a.project.name == p.name
  {
    var ws := Walk(p.path, [], at.value, []);
    var es := at.value.entries;
    var ms := MarkerFiles(p.path, es, cfg.projectRootFiles, cfg.ignoredFileExtensions);
    PythonSourcesMembers(ws);
    PathsOfMembers(PythonSources(ws));
    MarkerFilesMembers(p.path, es, cfg.projectRootFiles, cfg.ignoredFileExtensions);
    PathsOfMembers(ms);
    forall x ensures x in PathsOf(ms) <==> exists i :: 0 <= i < |es| && IsMarkerFile(es[i], cfg.projectRootFiles, cfg.ignoredFileExtensions)
                                                      && x == Join(p.path, es[i].name)
    {
      if exists i :: 0 <= i < |es| && IsMarkerFile(es[i], cfg.projectRootFiles, cfg.ignoredFileExtensions) && x == Join(p.path, es[i].name) {
        var i :| 0 <= i < |es| && IsMarkerFile(es[i], cfg.projectRootFiles, cfg.ignoredFileExtensions) && x == Join(p.path, es[i].name);
        assert MarkerWalked(p.path, es[i]) in ms;
      }
    }
  }

  /** The analysis of a directory that can be listed, in terms of what its two loops compute. */
  lemma AnalyzeListable(p: Project, at: Option<Node>, cfg: Config, found: seq<string>, sources: seq<string>,
                        totalSize: int, lastModTime: real)
    requires at.Some? && at.value.Dir? && at.value.listable
    requires var ms := MarkerFiles(p.path, at.value.entries, cfg.projectRootFiles, cfg.ignoredFileExtensions);
             var ps := PythonSources(Walk(p.path, [], at.value, []));
             found == PathsOf(ms) && sources == PathsOf(ps) && totalSize == TotalSize(ms + ps) && lastModTime == Latest(ms + ps)
    ensures Analyze(p, at, cfg)
            == Analysis(p.(fileCount := |sources|, size := totalSize, pythonFiles := sources, projectFiles := found,
                           lastModified := if lastModTime > 0.0 then DateTime(lastModTime) else p.lastModified),
                        found + sources, false)
  {
  }

  /**
   * The two passes of `_analyze_project` over a directory it can list: the
   * marker files of the listing, then the `.py` files of the whole subtree,
   * with the running size and latest modification time.
   */
  method CollectFiles(n: Node, cfg: Config, p: Project)
    returns (found: seq<string>, sources: seq<string>, totalSize: int, lastModTime: real)
    requires n.Dir? && n.listable
    ensures Analyze(p, Some(n), cfg)
            == Analysis(p.(fileCount := |sources|, size := totalSize, pythonFiles := sources, projectFiles := found,
                           lastModified := if lastModTime > 0.0 then DateTime(lastModTime) else p.lastModified),
                        found + sources, false)
  {
    found, totalSize, lastModTime := ScanMarkerFiles(p.path, n.entries, cfg.projectRootFiles, cfg.ignoredFileExtensions);
    ghost var ms := MarkerFiles(p.path, n.entries, cfg.projectRootFiles, cfg.ignoredFileExtensions);
    sources, totalSize, lastModTime := ScanPythonSources(Walk(p.path, [], n, []), ms, totalSize, lastModTime);
    AnalyzeListable(p, Some(n), cfg, found, sources, totalSize, lastModTime);
  }

  /** `size` is the marker files' total plus the Python files' total. */
  lemma {:induction false} TotalSizeAppend(a: seq<Walked>, b: seq<Walked>)
    ensures TotalSize(a + b) == TotalSize(a) + TotalSize(b)
  {
    if b == [] {
      assert a + b == a;
    } else {
      TotalSizeAppend(a, b[..|b| - 1]);
      assert (a + b)[..|a + b| - 1] == a + b[..|b| - 1];
      assert (a + b)[|a + b| - 1] == b[|b| - 1];
    }
  }

  /**
   * The running maximum is the largest modification time among the files
   * whose stat succeeded, or 0 when none of them is positive.
   */
  lemma {:induction false} LatestIsMaximum(ws: seq<Walked>)
    ensures Latest(ws) >= 0.0
    ensures forall w :: w in ws && w.file.File? && w.file.statOk ==> w.file.mtime <= Latest(ws)
    ensures Latest(ws) == 0.0 || exists w :: w in ws && w.file.File? && w.file.statOk && w.file.mtime == Latest(ws)
  {
    if ws != [] {
      var init := ws[..|ws| - 1];
      LatestIsMaximum(init);
      SplitLast(ws);
      if Latest(ws) != Latest(init) {
        assert ws[|ws| - 1] in ws;
      } else if Latest(ws) != 0.0 {
        var w :| w in init && w.file.File? && w.file.statOk && w.file.mtime == Latest(init);
        assert w in ws;
      }
    }
  }

  lemma MarkerFilesStep(dir: string, es: seq<Entry>, i: nat, markers: seq<string>, ign: seq<string>)
    requires i < |es|
    ensures MarkerFiles(dir, es[..i + 1], markers, ign)
            == MarkerFiles(dir, es[..i], markers, ign) + (if IsMarkerFile(es[i], markers, ign) then [MarkerWalked(dir, es[i])] else [])
  {
    assert es[..i + 1][..i] == es[..i];
  }

  lemma PythonSourcesStep(ws: seq<Walked>, j: nat)
    requires j < |ws|
    ensures PythonSources(ws[..j + 1]) == PythonSources(ws[..j]) + (if EndsWith(ws[j].name, ".py") then [ws[j]] else [])
  {
    assert ws[..j + 1][..j] == ws[..j];
  }

  /** Counting one more file in the running totals. */
  lemma TotalsSnoc(ws: seq<Walked>, w: Walked)
    ensures PathsOf(ws + [w]) == PathsOf(ws) + [w.path]
    ensures TotalSize(ws + [w]) == TotalSize(ws) + (if w.file.File? && w.file.statOk then |w.file.content| else 0)
    ensures Latest(ws + [w]) == if w.file.File? && w.file.statOk && w.file.mtime > Latest(ws) then w.file.mtime else Latest(ws)
  {
    assert (ws + [w])[..|ws|] == ws;
  }

  /** The first loop of `_analyze_project`: the marker files of the listing, their total size and latest time. */
  method ScanMarkerFiles(dir: string, es: seq<Entry>, markers: seq<string>, ign: seq<string>)
    returns (found: seq<string>, totalSize: int, lastModTime: real)
    ensures var ms := MarkerFiles(dir, es, markers, ign);
            found == PathsOf(ms) && totalSize == TotalSize(ms) && lastModTime == Latest(ms)
  {
    found, totalSize, lastModTime := [], 0, 0.0;
    ghost var ms: seq<Walked> := [];
    for i := 0 to |es|
      invariant ms == MarkerFiles(dir, es[..i], markers, ign)
      invariant found == PathsOf(ms)
      invariant totalSize == TotalSize(ms) && lastModTime == Latest(ms)
    {
      var e := es[i];
      MarkerFilesStep(dir, es, i, markers, ign);
      if e.name in markers && e.node.File? && e.node.statOk && !EndsWithAny(Lower(e.name), ign) {
        var filePath := Join(dir, e.name);
        TotalsSnoc(ms, MarkerWalked(dir, e));
        found := found + [filePath];
        ms := ms + [MarkerWalked(dir, e)];
        if e.node.statOk {
          totalSize := totalSize + |e.node.content|;
          if e.node.mtime > lastModTime {
            lastModTime := e.node.mtime;
          }
        }
      }
    }
    assert es[..|es|] == es;
  }

  /**
   * The second loop of `_analyze_project`: the `.py` files of the walk,
   * continuing the running totals of the files counted `before`.
   */
  method ScanPythonSources(walked: seq<Walked>, ghost before: seq<Walked>, size0: int, latest0: real)
    returns (sources: seq<string>, totalSize: int, lastModTime: real)
    requires size0 == TotalSize(before) && latest0 == Latest(before)
    ensures var ps := PythonSources(walked);
            sources == PathsOf(ps) && totalSize == TotalSize(before + ps) && lastModTime == Latest(before + ps)
  {
    sources, totalSize, lastModTime := [], size0, latest0;
    ghost var ps: seq<Walked> := [];
    ghost var counted := before;
    for j := 0 to |walked|
      invariant ps == PythonSources(walked[..j])
      invariant counted == before + ps
      invariant sources == PathsOf(ps)
      invariant totalSize == TotalSize(counted) && lastModTime == Latest(counted)
    {
      var w := walked[j];
      PythonSourcesStep(walked, j);
      if EndsWith(w.name, ".py") {
        TotalsSnoc(ps, w);
        TotalsSnoc(counted, w);
        AppendAssoc(before, ps, [w]);
        sources := sources + [w.path];
        ps := ps + [w];
        counted := counted + [w];
        if w.file.File? && w.file.statOk {
          totalSize := totalSize + |w.file.content|;
          if w.file.mtime > lastModTime {
            lastModTime := w.file.mtime;
          }
        }
      }
    }
    assert walked[..|walked|] == walked;
  }

  // ---------------------------------------------------------------- display helpers

  /** The unit `get_formatted_size` picks, with the number it prints before formatting. */
  datatype SizeText = Bytes(count: int) | Kilobytes(amount: real) | Megabytes(amount: real)

  function FormattedSize(size: int): (r: SizeText)
    ensures r.Bytes? <==> size < 1024
    ensures r.Kilobytes? <==> 1024 <= size < 1024 * 1024
    ensures r.Megabytes? <==> 1024 * 1024 <= size
    ensures r.Bytes? ==> r.count == size
    ensures r.Kilobytes? ==> 1.0 <= r.amount < 1024.0 && r.amount * 1024.0 == size as real
    ensures r.Megabytes? ==> 1.0 <= r.amount && r.amount * 1048576.0 == size as real
  {
    if size < 1024 then Bytes(size)
    else if size < 1024 * 1024 then Kilobytes(size as real / 1024.0)
    else Megabytes(size as real / 1048576.0)
  }

  /** What `get_formatted_last_file_modified` shows: "-" for 0, otherwise the date. */
  datatype DateText = Dash | Date(at: real)

  // ---------------------------------------------------------------- dictionary form

  /** The `last_modified` value of a dictionary: null or an ISO 8601 text (formatting is exact here). */
  datatype JsonStamp = Null | Iso(at: real)

  /** A project record as a dictionary; None stands for a key that is absent. */
  datatype ProjectDict = ProjectDict(
    path: Option<string>,
    name: Option<string>,
    fileCount: Option<int>,
    size: Option<int>,
    lastModified: Option<JsonStamp>,
    pythonFiles: Option<seq<string>>,
    projectFiles: Option<seq<string>>,
    realSize: Option<int>,
    realFileCount: Option<int>,
    folderHash: Option<string>)

  datatype PyError = KeyError | AttributeError

  /**
   * `to_dict` as written: `self.last_modified.isoformat() if self.last_modified else None`
   * raises AttributeError when `last_modified` is still the non-zero number
   * the constructor took from the directory's stat.
   */
  function ToDictAsWritten(p: Project): (r: Result<ProjectDict, PyError>)
    ensures r.Err? <==> p.lastModified.Number? && p.lastModified.seconds != 0.0
  {
    if p.lastModified.Number? && p.lastModified.seconds != 0.0 then Err(AttributeError)
    else Ok(ToDict(p))
  }

  /**
   * `to_dict` with the timestamp written out whatever its form: the optional
   * keys appear only when the value is not None; `last_file_modified` and
   * `features` are not part of it.
   */
  function ToDict(p: Project): (d: ProjectDict)
    ensures d.path == Some(p.path) && d.name == Some(p.name)
    ensures d.realSize == p.realSize && d.realFileCount == p.realFileCount && d.folderHash == p.folderHash
    ensures d.lastModified.Some? && (d.lastModified.value.Null? <==> !Truthy(p.lastModified))
  {
    ProjectDict(
      Some(p.path), Some(p.name), Some(p.fileCount), Some(p.size),
      Some(match p.lastModified
           case DateTime(t) => Iso(t)
           case Number(s) => if s != 0.0 then Iso(s) else Null),
      Some(p.pythonFiles), Some(p.projectFiles),
      p.realSize, p.realFileCount, p.folderHash)
  }

  /**
   * `from_dict`: the path is required (KeyError otherwise); the project is
   * first built from the path, which stats the file system (`at`); missing
   * keys default to the basename, 0, [] or None; a null or absent timestamp
   * keeps the constructor's value.
   */
  function FromDict(d: ProjectDict, at: Option<Node>): (r: Result<Project, PyError>)
    ensures r.Err? <==> d.path.None?
    ensures r.Ok? ==> (r.value.path == d.path.value && r.value.fileCount == d.fileCount.GetOr(0)
                       && r.value.realSize == d.realSize && r.value.lastFileModified.None?)
  {
    if d.path.None? then Err(KeyError)
    else
      var p := Created(d.path.value, at);
      Ok(p.(
        name := d.name.GetOr(Basename(d.path.value)),
        fileCount := d.fileCount.GetOr(0),
        size := d.size.GetOr(0),
        lastModified := if d.lastModified.Some? && d.lastModified.value.Iso? then DateTime(d.lastModified.value.at)
                        else p.lastModified,
        pythonFiles := d.pythonFiles.GetOr([]),
        projectFiles := d.projectFiles.GetOr([]),
        realSize := d.realSize,
        realFileCount := d.realFileCount,
        folderHash := d.folderHash))
  }

  /**
   * What `from_dict` fills in besides the path: each key it finds, or the
   * default `data.get` supplies; a truthy `last_modified` text becomes a
   * datetime, otherwise the stamp is the one the constructor read from `os.stat`.
   */
  lemma FromDictDefaults(d: ProjectDict, at: Option<Node>)
    requires d.path.Some?
    ensures var p := FromDict(d, at).value;
      && p.name == d.name.GetOr(Basename(d.path.value))
      && p.size == d.size.GetOr(0)
      && p.pythonFiles == d.pythonFiles.GetOr([])
      && p.projectFiles == d.projectFiles.GetOr([])
      && p.realFileCount == d.realFileCount && p.folderHash == d.folderHash
      && p.features == {}
      && (d.lastModified.Some? && d.lastModified.value.Iso? ==> p.lastModified == DateTime(d.lastModified.value.at))
      && (!(d.lastModified.Some? && d.lastModified.value.Iso?) ==>
            p.lastModified == Number(if Exists(at) then Stat(at.value).value.1 else 0.0))
  {
  }

  /** `r` carries every attribute of `p` that a dictionary records, the timestamp aside. */
  predicate Restored(r: Project, p: Project)
  {
    && r.path == p.path && r.name == p.name
    && r.fileCount == p.fileCount && r.size == p.size
    && r.pythonFiles == p.pythonFiles && r.projectFiles == p.projectFiles
    && r.realSize == p.realSize && r.realFileCount == p.realFileCount
    && r.folderHash == p.folderHash
  }

  /**
   * Reading back what was written preserves every serialised attribute, and
   * a datetime comes back as the same datetime.
   */
  lemma DictRoundTrip(p: Project, at: Option<Node>)
    ensures var r := FromDict(ToDict(p), at);
      && r.Ok? && Restored(r.value, p)
      && (p.lastModified.DateTime? ==> r.value.lastModified == p.lastModified)
  {
  }

  // ---------------------------------------------------------------- the object

  class ProjectModel {
    const path: string
    var name: string
    var size: int
    var lastModified: Stamp
    var projectFiles: seq<string>
    var pythonFiles: seq<string>
    var fileCount: int
    var realSize: Option<int>
    var realFileCount: Option<int>
    var folderHash: Option<string>
    var lastFileModified: Option<real>
    var features: set<string>

    function Value(): Project
      reads this
    {
      Project(path, name, size, lastModified, projectFiles, pythonFiles, fileCount,
              realSize, realFileCount, folderHash, lastFileModified, features)
    }

    /** `ProjectModel(path)`, where `at` is what the file system holds at `path`. */
    constructor (path: string, at: Option<Node>)
      ensures Value() == Created(path, at)
    {
      var p := Created(path, at);
      this.path := path;
      name := p.name;
      size := p.size;
      lastModified := p.lastModified;
      projectFiles := [];
      pythonFiles := [];
      fileCount := 0;
      realSize := None;
      realFileCount := None;
      folderHash := None;
      lastFileModified := None;
      features := {};
    }

    /**
     * `_analyze_project`: one pass over the listing for marker files, then
     * one walk of the whole subtree for `.py` files; `observed` lists the
     * files passed to the callback. When `raised` holds, the call ended in
     * an exception and nothing was assigned.
     */
    method AnalyzeProject(at: Option<Node>, cfg: Config) returns (observed: seq<string>, raised: bool)
      modifies this
      ensures var a := Analyze(old(Value()), at, cfg);
              Value() == a.project && observed == a.observed && raised == a.raised
    {
      observed, raised := [], false;
      if at.None? || !at.value.Dir? {
        return;
      }
      if !at.value.listable {
        raised := true;
        return;
      }
      var found, sources, totalSize, lastModTime := CollectFiles(at.value, cfg, Value());
      observed := found + sources;
      fileCount := |sources|;
      size := totalSize;
      pythonFiles := sources;
      projectFiles := found;
      if lastModTime > 0.0 {
        lastModified := DateTime(lastModTime);
      }
    }

    /**
     * `calculate_folder_hash`: None for a missing path or a non-directory;
     * otherwise the files of the subtree that are not excluded, sorted by
     * path, each feeding its metadata line and then the SHA-256 of its
     * digested bytes. `fed` is the exact sequence of byte strings given to
     * the running digest, `observed` the files passed to the callback.
     */
    method CalculateFolderHash(at: Option<Node>, cfg: Config, sha: seq<bv8> -> seq<bv8>)
      returns (r: Option<string>, fed: seq<seq<bv8>>, observed: seq<string>)
      modifies this`folderHash
      ensures at.None? || !at.value.Dir? ==> r.None? && fed == [] && observed == [] && folderHash == old(folderHash)
      ensures at.Some? && at.value.Dir? ==>
        var files := HashOrder(path, at.value, cfg.ignoredFileExtensions);
        && fed == FolderFeed(files, sha)
        && observed == PathsOf(files)
        && r == Some(Hex(sha(Flatten(fed))))
        && folderHash == r
    {
      fed, observed := [], [];
      if at.None? || !at.value.Dir? {
        return None, fed, observed;
      }
      var files := HashOrder(path, at.value, cfg.ignoredFileExtensions);
      for i := 0 to |files|
        invariant fed == FolderFeed(files[..i], sha)
        invariant observed == PathsOf(files[..i])
      {
        FolderFeedStep(files, i, sha);
        PathsOfStep(files, i);
        observed := observed + [files[i].path];
        var piece := FeedFile(files[i], sha);
        fed := fed + piece;
      }
      assert files[..|files|] == files;
      r := Some(Hex(sha(Flatten(fed))));
      folderHash := r;
    }

    /**
     * `get_last_file_modified`: the cached value when there is one (0
     * included); otherwise the largest modification time over the subtree,
     * pruning the configured directories at every level, which is then cached.
     */
    method GetLastFileModified(at: Option<Node>, cfg: Config) returns (t: real)
      modifies this`lastFileModified
      ensures old(lastFileModified).Some? ==> t == old(lastFileModified).value && lastFileModified == old(lastFileModified)
      ensures old(lastFileModified).None? ==> t == Latest(WalkAt(path, at, cfg.ignoredDirs)) && lastFileModified == Some(t)
    {
      if lastFileModified.Some? {
        return lastFileModified.value;
      }
      var walked := WalkAt(path, at, cfg.ignoredDirs);
      if at.Some? {
        WalkIsFiles(path, [], at.value, cfg.ignoredDirs);
      }
      var latest := 0.0;
      for j := 0 to |walked|
        invariant latest == Latest(walked[..j])
      {
        assert walked[..j + 1][..j] == walked[..j];
        var w := walked[j];
        if w.file.statOk && w.file.mtime > latest {
          latest := w.file.mtime;
        }
      }
      assert walked[..|walked|] == walked;
      lastFileModified := Some(latest);
      t := latest;
    }

    /** `get_formatted_last_file_modified`: "-" when the value is 0. */
    method FormattedLastFileModified(at: Option<Node>, cfg: Config) returns (r: DateText)
      modifies this`lastFileModified
      ensures lastFileModified.Some?
      ensures r == if lastFileModified.value == 0.0 then Dash else Date(lastFileModified.value)
      ensures old(lastFileModified).Some? ==> lastFileModified == old(lastFileModified)
      ensures old(lastFileModified).None? ==> lastFileModified == Some(Latest(WalkAt(path, at, cfg.ignoredDirs)))
    {
      var t := GetLastFileModified(at, cfg);
      r := if t == 0.0 then Dash else Date(t);
    }

    /** `add_feature`. */
    method AddFeature(feature: string)
      modifies this`features
      ensures features == old(features) + {feature}
    {
      features := features + {feature};
    }

    /** `check_feature`. */
    function CheckFeature(feature: string): (r: bool)
      reads this
      ensures r <==> feature in features
    {
      feature in features
    }
  }
}

=== FILE: seqs.dfy ===
/**
 * Generic facts about sequences. Proved once over an arbitrary element type,
 * they spare the proofs about paths, notifications and pairs the cost of
 * rediscovering them among those types' own definitions.
 */
module Seqs {

  lemma AppendAssoc<T>(a: seq<T>, b: seq<T>, c: seq<T>)
    ensures (a + b) + c == a + (b + c)
  {
  }

  /** A non-empty sequence is its front followed by its last element. */
  lemma SplitLast<T>(s: seq<T>)
    requires s != []
    ensures s[..|s| - 1] + [s[|s| - 1]] == s
  {
  }

  /** Dropping the last element of `a + b`, with `b` non-empty, drops it from `b`. */
  lemma DropLastAppend<T>(a: seq<T>, b: seq<T>)
    requires b != []
    ensures (a + b)[..|a + b| - 1] == a + b[..|b| - 1]
    ensures (a + b)[|a + b| - 1] == b[|b| - 1]
  {
  }

  lemma AppendEmpty<T>(s: seq<T>)
    ensures s + [] == s && [] + s == s
  {
  }

  /** Dropping nothing keeps the sequence; dropping everything leaves nothing. */
  lemma DropEnds<T>(s: seq<T>)
    ensures s[0..] == s && s[|s|..] == []
  {
  }

  /** What follows `a` in `a + b` is `b`. */
  lemma DropPrefix<T>(a: seq<T>, b: seq<T>)
    ensures (a + b)[|a|..] == b
  {
  }

  /** With `y` a prefix of `z`, what `y` adds after `|x|` and what `z` adds after `y` make up what `z` adds after `|x|`. */
  lemma PrefixSlices<T>(x: seq<T>, y: seq<T>, z: seq<T>)
    requires |x| <= |y| <= |z| && z[..|y|] == y
    ensures y[|x|..] + z[|y|..] == z[|x|..]
  {
    assert y[|x|..] == z[|x|..|y|];
  }
}

=== FILE: similarity.dfy ===
/**
 * The similarity score of two projects. The two `difflib.SequenceMatcher`
 * ratios it combines are oracles: `fileRatio` on the sorted lists of
 * Python file names and `nameRatio` on the project names.
 */
module Similarity {
  import opened Wrappers
  import opened Paths
  import opened Projects

  // ---------------------------------------------------------------- sorted file names

  predicate SortedNames(s: seq<string>)
  {
    forall i, j :: 0 <= i < j < |s| ==> LexLe(s[i], s[j])
  }

  function InsertName(x: string, s: seq<string>): (r: seq<string>)
    ensures |r| == |s| + 1
  {
    if s == [] || LexLe(x, s[0]) then [x] + s
    else [s[0]] + InsertName(x, s[1..])
  }

  /** `sorted(names)`: ascending in Python's string order. */
  function SortNames(s: seq<string>): (r: seq<string>)
    ensures |r| == |s|
  {
    if s == [] then [] else InsertName(s[0], SortNames(s[1..]))
  }

  lemma {:induction false} InsertNamePermutation(x: string, s: seq<string>)
    ensures multiset(InsertName(x, s)) == multiset(s) + multiset{x}
  {
    if s != [] && !LexLe(x, s[0]) {
      InsertNamePermutation(x, s[1..]);
      assert s == [s[0]] + s[1..];
    }
  }

  lemma {:induction false} InsertNameSorted(x: string, s: seq<string>)
    requires SortedNames(s)
    ensures SortedNames(InsertName(x, s))
  {
    if s == [] {
    } else if LexLe(x, s[0]) {
      forall j | 1 <= j < |s| + 1
        ensures LexLe(x, ([x] + s)[j])
      {
        if j > 1 {
          LexLeTransitive(x, s[0], s[j - 1]);
        }
      }
    } else {
      InsertNameSorted(x, s[1..]);
      InsertNamePermutation(x, s[1..]);
      var r := InsertName(x, s[1..]);
      LexLeTotal(x, s[0]);
      forall j | 0 <= j < |r|
        ensures LexLe(s[0], r[j])
      {
        assert r[j] in multiset(r);
        if r[j] != x {
          assert r[j] in multiset(s[1..]);
          var k :| 0 <= k < |s[1..]| && s[1..][k] == r[j];
          assert LexLe(s[0], s[k + 1]);
        }
      }
      assert InsertName(x, s) == [s[0]] + r;
    }
  }

  lemma {:induction false} SortNamesCorrect(s: seq<string>)
    ensures SortedNames(SortNames(s))
    ensures multiset(SortNames(s)) == multiset(s)
  {
    if s != [] {
      SortNamesCorrect(s[1..]);
      InsertNameSorted(s[0], SortNames(s[1..]));
      InsertNamePermutation(s[0], SortNames(s[1..]));
      assert s == [s[0]] + s[1..];
    }
  }

  lemma SortedHeadIsLeast(a: seq<string>, x: string)
    requires SortedNames(a) && x in a
    ensures LexLe(a[0], x)
  {
    var i :| 0 <= i < |a| && a[i] == x;
    if i == 0 {
      LexLeTotal(x, x);
    }
  }

  lemma DropSameHead(a: seq<string>, b: seq<string>)
    requires a != [] && b != [] && a[0] == b[0] && multiset(a) == multiset(b)
    ensures multiset(a[1..]) == multiset(b[1..])
  {
    assert a == [a[0]] + a[1..] && b == [b[0]] + b[1..];
    assert multiset(a[1..]) == multiset(a) - multiset{a[0]};
    assert multiset(b[1..]) == multiset(b) - multiset{b[0]};
  }

  /** Two sorted lists holding the same names are the same list. */
  lemma {:induction false} SortedUnique(a: seq<string>, b: seq<string>)
    requires SortedNames(a) && SortedNames(b) && multiset(a) == multiset(b)
    ensures a == b
  {
    if a != [] {
      assert |b| == |multiset(b)| == |multiset(a)| == |a|;
      assert a[0] in multiset(b) && b[0] in multiset(a);
      SortedHeadIsLeast(b, a[0]);
      SortedHeadIsLeast(a, b[0]);
      LexLeAntisymmetric(a[0], b[0]);
      DropSameHead(a, b);
      SortedUnique(a[1..], b[1..]);
      assert a == [a[0]] + a[1..] && b == [b[0]] + b[1..];
    }
  }

  /** The sorted list depends only on which names there are, not on their order. */
  lemma SortNamesCanonical(a: seq<string>, b: seq<string>)
    requires multiset(a) == multiset(b)
    ensures SortNames(a) == SortNames(b)
  {
    SortNamesCorrect(a);
    SortNamesCorrect(b);
    SortedUnique(SortNames(a), SortNames(b));
  }

  function Basenames(paths: seq<string>): (r: seq<string>)
    ensures |r| == |paths| && forall i :: 0 <= i < |r| ==> r[i] == Basename(paths[i])
  {
    seq(|paths|, i requires 0 <= i < |paths| => Basename(paths[i]))
  }

  /** `sorted([os.path.basename(f) for f in project.python_files])`. */
  function FileNames(p: Project): seq<string>
  {
    SortNames(Basenames(p.pythonFiles))
  }

  // ---------------------------------------------------------------- the score

  /** Python truthiness of `folder_hash`: computed and not empty. */
  predicate HasHash(p: Project)
  {
    p.folderHash.Some? && p.folderHash.value != ""
  }

  function Min(x: int, y: int): int { if x <= y then x else y }

  function Max(x: int, y: int): int { if x <= y then y else x }

  /** Smaller over larger real size when both are known and positive, else 0. */
  function SizeSimilarity(a: Option<int>, b: Option<int>): (r: real)
    ensures 0.0 <= r <= 1.0
    ensures r == 1.0 <== a.Some? && a.value > 0 && a == b
    ensures !(a.Some? && b.Some? && a.value > 0 && b.value > 0) ==> r == 0.0
    ensures a.Some? && b.Some? && a.value > 0 && b.value > 0 ==>
              r * Max(a.value, b.value) as real == Min(a.value, b.value) as real
  {
    if a.Some? && b.Some? && a.value > 0 && b.value > 0 then
      var smaller := if a.value <= b.value then a.value else b.value;
      var larger := if a.value <= b.value then b.value else a.value;
      assert (smaller as real) / (larger as real) * (larger as real) == smaller as real;
      (smaller as real) / (larger as real)
    else 0.0
  }

  /**
   * `_calculate_similarity(project1, project2)`. Nothing to compare without
   * Python files on both sides; equal non-empty folder hashes mean an exact
   * copy; otherwise a weighted sum of file-name, name and size similarity,
   * where the size term takes part whenever both real sizes are known.
   */
  function Score(p1: Project, p2: Project, fileRatio: (seq<string>, seq<string>) -> real,
                 nameRatio: (string, string) -> real): (r: real)
  {
    if p1.pythonFiles == [] || p2.pythonFiles == [] then 0.0
    else if HasHash(p1) && HasHash(p2) && p1.folderHash == p2.folderHash then 1.0
    else
      var files := fileRatio(FileNames(p1), FileNames(p2));
      var name := nameRatio(p1.name, p2.name);
      var size := SizeSimilarity(p1.realSize, p2.realSize);
      if p1.realSize.Some? && p2.realSize.Some? then files * 0.6 + name * 0.2 + size * 0.2
      else files * 0.7 + name * 0.3
  }

  /** Both ratios lie in [0, 1] for these two projects, as `SequenceMatcher.ratio` does. */
  predicate RatiosInRange(p1: Project, p2: Project, fileRatio: (seq<string>, seq<string>) -> real,
                          nameRatio: (string, string) -> real)
  {
    && 0.0 <= fileRatio(FileNames(p1), FileNames(p2)) <= 1.0
    && 0.0 <= nameRatio(p1.name, p2.name) <= 1.0
  }

  /** The score is a similarity between 0.0 and 1.0. */
  lemma ScoreInRange(p1: Project, p2: Project, fileRatio: (seq<string>, seq<string>) -> real,
                     nameRatio: (string, string) -> real)
    requires RatiosInRange(p1, p2, fileRatio, nameRatio)
    ensures 0.0 <= Score(p1, p2, fileRatio, nameRatio) <= 1.0
  {
  }

  /** Identical non-empty folder hashes make two projects with Python files a certain duplicate. */
  lemma SameHashScoresOne(p1: Project, p2: Project, fileRatio: (seq<string>, seq<string>) -> real,
                          nameRatio: (string, string) -> real)
    requires p1.pythonFiles != [] && p2.pythonFiles != []
    requires HasHash(p1) && p1.folderHash == p2.folderHash
    ensures Score(p1, p2, fileRatio, nameRatio) == 1.0
  {
  }

  /** A project without Python files is similar to nothing. */
  lemma NoFilesScoresZero(p1: Project, p2: Project, fileRatio: (seq<string>, seq<string>) -> real,
                          nameRatio: (string, string) -> real)
    requires p1.pythonFiles == [] || p2.pythonFiles == []
    ensures Score(p1, p2, fileRatio, nameRatio) == 0.0
  {
  }

  /** The score is symmetric whenever the two ratios are. */
  lemma ScoreSymmetric(p1: Project, p2: Project, fileRatio: (seq<string>, seq<string>) -> real,
                       nameRatio: (string, string) -> real)
    requires fileRatio(FileNames(p1), FileNames(p2)) == fileRatio(FileNames(p2), FileNames(p1))
    requires nameRatio(p1.name, p2.name) == nameRatio(p2.name, p1.name)
    ensures Score(p1, p2, fileRatio, nameRatio) == Score(p2, p1, fileRatio, nameRatio)
  {
  }

  /**
   * Only the base names of the Python files matter, not their directories
   * nor the order of the list: two projects whose files have the same base
   * names (with multiplicity) and that agree on every other input score the
   * same against any third project.
   */
  lemma ScoreSeesOnlyBaseNames(p1: Project, q1: Project, p2: Project, fileRatio: (seq<string>, seq<string>) -> real,
                               nameRatio: (string, string) -> real)
    requires multiset(Basenames(p1.pythonFiles)) == multiset(Basenames(q1.pythonFiles))
    requires p1.name == q1.name && p1.realSize == q1.realSize && p1.folderHash == q1.folderHash
    ensures Score(p1, p2, fileRatio, nameRatio) == Score(q1, p2, fileRatio, nameRatio)
  {
    SortNamesCanonical(Basenames(p1.pythonFiles), Basenames(q1.pythonFiles));
    assert FileNames(p1) == FileNames(q1);
    assert |Basenames(p1.pythonFiles)| == |Basenames(q1.pythonFiles)|;
    assert p1.pythonFiles == [] <==> q1.pythonFiles == [];
  }
}

=== FILE: stable_sort.dfy ===
/**
 * Python's `sorted(xs, key=k, reverse=True)` and `xs.sort(key=k, reverse=True)`:
 * a stable sort into descending key order. It is written as an insertion
 * sort; the lemmas show the result is ordered, a permutation of the input,
 * and keeps the input order among elements whose keys are equal.
 */
module StableSort {

  /** Inserts `x` before the first element whose key is not larger than its own. */
  function Insert<T>(x: T, s: seq<T>, key: T -> real): (r: seq<T>)
    ensures |r| == |s| + 1
  {
    if s == [] || key(x) >= key(s[0]) then [x] + s
    else [s[0]] + Insert(x, s[1..], key)
  }

  function SortDesc<T>(s: seq<T>, key: T -> real): (r: seq<T>)
    ensures |r| == |s|
  {
    if s == [] then [] else Insert(s[0], SortDesc(s[1..], key), key)
  }

  predicate Descending<T>(s: seq<T>, key: T -> real)
  {
    forall i, j :: 0 <= i < j < |s| ==> key(s[i]) >= key(s[j])
  }

  /** The elements of `s` whose key is exactly `k`, in their order in `s`. */
  function WithKey<T>(s: seq<T>, key: T -> real, k: real): seq<T>
  {
    if s == [] then []
    else (if key(s[0]) == k then [s[0]] else []) + WithKey(s[1..], key, k)
  }

  lemma {:induction false} InsertPermutation<T>(x: T, s: seq<T>, key: T -> real)
    ensures multiset(Insert(x, s, key)) == multiset(s) + multiset{x}
  {
    if s != [] && key(x) < key(s[0]) {
      InsertPermutation(x, s[1..], key);
      assert s == [s[0]] + s[1..];
    }
  }

  lemma {:induction false} InsertOrdered<T>(x: T, s: seq<T>, key: T -> real)
    requires Descending(s, key)
    ensures Descending(Insert(x, s, key), key)
  {
    if s != [] && key(x) < key(s[0]) {
      InsertOrdered(x, s[1..], key);
      InsertPermutation(x, s[1..], key);
      var r := Insert(x, s[1..], key);
      forall j | 0 <= j < |r|
        ensures key(s[0]) >= key(r[j])
      {
        assert r[j] in multiset(r);
        if r[j] != x {
          assert r[j] in multiset(s[1..]);
          var k :| 0 <= k < |s[1..]| && s[1..][k] == r[j];
          assert s[1 + k] == r[j];
        }
      }
      assert Insert(x, s, key) == [s[0]] + r;
    }
  }

  lemma {:induction false} InsertStable<T>(x: T, s: seq<T>, key: T -> real, k: real)
    requires Descending(s, key)
    ensures WithKey(Insert(x, s, key), key, k)
         == (if key(x) == k then [x] else []) + WithKey(s, key, k)
  {
    if s == [] || key(x) >= key(s[0]) {
      WithKeyCons(x, s, key, k);
    } else {
      assert Descending(s[1..], key);
      InsertStable(x, s[1..], key, k);
      var r := Insert(x, s[1..], key);
      assert Insert(x, s, key) == [s[0]] + r;
      WithKeyCons(s[0], r, key, k);
      WithKeyCons(s[0], s[1..], key, k);
      assert s == [s[0]] + s[1..];
      if key(s[0]) == k {
        // x's key is smaller than k, so x is not kept
        assert key(x) != k;
      }
    }
  }

  lemma WithKeyCons<T>(y: T, t: seq<T>, key: T -> real, k: real)
    ensures WithKey([y] + t, key, k) == (if key(y) == k then [y] else []) + WithKey(t, key, k)
  {
    assert ([y] + t)[1..] == t;
  }

  /** The result is in descending key order. */
  lemma {:induction false} SortDescOrdered<T>(s: seq<T>, key: T -> real)
    ensures Descending(SortDesc(s, key), key)
  {
    if s != [] {
      SortDescOrdered(s[1..], key);
      InsertOrdered(s[0], SortDesc(s[1..], key), key);
    }
  }

  /** The result holds exactly the elements of the input. */
  lemma {:induction false} SortDescPermutation<T>(s: seq<T>, key: T -> real)
    ensures multiset(SortDesc(s, key)) == multiset(s)
  {
    if s != [] {
      SortDescPermutation(s[1..], key);
      InsertPermutation(s[0], SortDesc(s[1..], key), key);
      assert s == [s[0]] + s[1..];
    }
  }

  /** Elements with equal keys keep their input order (stability). */
  lemma {:induction false} SortDescStable<T>(s: seq<T>, key: T -> real, k: real)
    ensures WithKey(SortDesc(s, key), key, k) == WithKey(s, key, k)
  {
    if s != [] {
      SortDescOrdered(s[1..], key);
      SortDescStable(s[1..], key, k);
      InsertStable(s[0], SortDesc(s[1..], key), key, k);
    }
  }

  /** `rel` holds between every two elements at different positions. */
  predicate Pairwise<T>(s: seq<T>, rel: (T, T) -> bool)
  {
    forall i, j :: 0 <= i < |s| && 0 <= j < |s| && i != j ==> rel(s[i], s[j])
  }

  lemma {:induction false} InsertPairwise<T>(x: T, s: seq<T>, key: T -> real, rel: (T, T) -> bool)
    requires Pairwise(s, rel)
    requires forall i :: 0 <= i < |s| ==> rel(x, s[i]) && rel(s[i], x)
    ensures Pairwise(Insert(x, s, key), rel)
  {
    if s == [] || key(x) >= key(s[0]) {
      PairwiseCons(x, s, rel);
    } else {
      var t := s[1..];
      PairwiseTail(s, rel);
      assert forall i :: 0 <= i < |t| ==> t[i] == s[i + 1];
      InsertPairwise(x, t, key, rel);
      InsertPermutation(x, t, key);
      var q := Insert(x, t, key);
      forall j | 0 <= j < |q| ensures rel(s[0], q[j]) && rel(q[j], s[0]) {
        assert q[j] in multiset(q);
        if q[j] != x {
          assert q[j] in multiset(t);
          var k :| 0 <= k < |t| && t[k] == q[j];
        }
      }
      PairwiseCons(s[0], q, rel);
      assert Insert(x, s, key) == [s[0]] + q;
    }
  }

  lemma PairwiseCons<T>(y: T, t: seq<T>, rel: (T, T) -> bool)
    requires Pairwise(t, rel)
    requires forall i :: 0 <= i < |t| ==> rel(y, t[i]) && rel(t[i], y)
    ensures Pairwise([y] + t, rel)
  {
    var r := [y] + t;
    forall i, j | 0 <= i < |r| && 0 <= j < |r| && i != j ensures rel(r[i], r[j]) {
      if i > 0 && j > 0 {
        assert r[i] == t[i - 1] && r[j] == t[j - 1];
      }
    }
  }

  lemma PairwiseTail<T>(s: seq<T>, rel: (T, T) -> bool)
    requires Pairwise(s, rel) && s != []
    ensures Pairwise(s[1..], rel)
    ensures forall i :: 0 <= i < |s[1..]| ==> rel(s[0], s[1..][i]) && rel(s[1..][i], s[0])
  {
    var t := s[1..];
    forall i, j | 0 <= i < |t| && 0 <= j < |t| && i != j ensures rel(t[i], t[j]) {
      assert t[i] == s[i + 1] && t[j] == s[j + 1];
    }
    forall i | 0 <= i < |t| ensures rel(s[0], t[i]) && rel(t[i], s[0]) {
      assert t[i] == s[i + 1];
    }
  }

  /** A relation that holds between every two elements of the input still does after sorting. */
  lemma {:induction false} SortDescPairwise<T>(s: seq<T>, key: T -> real, rel: (T, T) -> bool)
    requires Pairwise(s, rel)
    ensures Pairwise(SortDesc(s, key), rel)
  {
    if s != [] {
      var t := s[1..];
      assert Pairwise(t, rel) by {
        forall i, j | 0 <= i < |t| && 0 <= j < |t| && i != j ensures rel(t[i], t[j]) {
          assert t[i] == s[i + 1] && t[j] == s[j + 1];
        }
      }
      SortDescPairwise(t, key, rel);
      SortDescPermutation(t, key);
      var q := SortDesc(t, key);
      forall i | 0 <= i < |q| ensures rel(s[0], q[i]) && rel(q[i], s[0]) {
        assert q[i] in multiset(t);
        var k :| 0 <= k < |t| && t[k] == q[i];
        assert s[k + 1] == q[i];
      }
      InsertPairwise(s[0], q, key, rel);
    }
  }
}

=== FILE: wrappers.dfy ===
/** Option and Result values standing in for Python's None and for raised exceptions. */
module Wrappers {

  datatype Option<+T> = None | Some(value: T) {
    function GetOr(default: T): T {
      match this
      case Some(v) => v
      case None => default
    }
  }

  datatype Result<+R, +E> = Ok(value: R) | Err(error: E)
}
